=== FILE: README.md ===
# HELDEN storefront core, modelled in Dafny

HELDEN is an Express/Mongoose clothing storefront. This project models the
in-memory logic of its request handlers and Mongoose schemas:

- the cart: paged cart view, order summary, line clamping, adding to the
  cart, removing a line and setting a line's quantity;
- the order lifecycle: the draft order placed from the cart, checkout,
  confirmation (`done`), user and admin cancellation, and the admin status
  overwrite;
- the offer price engine: the category offer with its single
  `prevOfferPrice`, and the per-offer history map of the offer controller;
- the wishlist, the address book, coupons, and the deleted-product gate;
- wallet and referral pages, admin user and product management, and the
  invoice figures.

Each database read is a parameter: a nullable class reference, an `Option`,
or an index into an `array<Product>` catalogue. Each save is either the new
state of that object or a returned value. The code a handler reaches by
crashing is modelled as status 500. A Mongoose enum or validator failure at
save time is also 500, and nothing is written.

Money is `real` and exact; `toFixed(2)` rounding is not modelled.
Quantities, ids and times (milliseconds) are integers.

Modules and files:

| module | file | models |
|---|---|---|
| `Wrappers` | wrappers.dfy | `Option` |
| `Text` | text.dfy | `trim`, `split`, the six-digit pincode test, number printing |
| `Paging` | paging.dfy | `parseInt(q) \|\| d`, `Math.ceil`, `Array.slice`, Mongo `skip`/`limit` |
| `Sorting` | sorting.dfy | newest-first sorting by `createdAt` |
| `Models` | models.dfy | orderModel.js, productModel.js, offerModel.js, userRegister.js |
| `Pricing` | pricing.dfy | line sums and the two shipping band tables |
| `Carts` | carts.dfy | controllers/user/cartController.js |
| `ProductDetail` | productdetail.dfy | controllers/user/productDetailController.js |
| `Orders` | orders.dfy | controllers/user/orderCheckController.js |
| `AdminOrders` | adminorders.dfy | controllers/admin/orderController.js |
| `Categories` | categories.dfy | controllers/admin/categoryController.js |
| `Offers` | offers.dfy | controllers/admin/offerController.js |
| `Wishlists` | wishlist.dfy | controllers/user/wishlistController.js |
| `Addresses` | addresses.dfy | controllers/user/addressController.js |
| `Wallets` | wallet.dfy | controllers/user/walletController.js |
| `Invoice` | invoice.dfy | controllers/user/downloadController.js |
| `ProductGate` | productstatus.dfy | middleware/checkProductStatus.js |
| `Coupons` | coupons.dfy | controllers/admin/couponController.js |
| `UserManagement` | usermanagement.dfy | controllers/admin/userManagement.js |
| `Referrals` | referrals.dfy | controllers/admin/referalController.js |
| `ProductAdmin` | products.dfy | controllers/admin/productController.js |

## Model

| member | source | states |
|---|---|---|
| Text.Trim | controllers/admin/productController.js:105 | the result has no leading or trailing whitespace, is empty only for all-whitespace text, and draws its characters from the input |
| Text.TrimSpansMiddle | controllers/admin/productController.js:105 | the trimmed text is the input's run from its first non-space on, and everything before and after that run is whitespace |
| Text.TrimIdempotent | models/productModel.js:20-24 | trimming a trimmed size changes nothing, so a stored size is already trimmed |
| Text.Split | controllers/admin/productController.js:105 | one piece per comma-separated part, comma-free, and one more piece than there are commas |
| Text.SplitJoin | controllers/admin/productController.js:105 | splitting comma-joined comma-free pieces gives the pieces back |
| Text.SplitNoSep | controllers/admin/productController.js:105 | text without a comma splits into itself alone |
| Text.SplitPrefix | controllers/admin/productController.js:105 | a comma-free part followed by a comma splits as that part and then the rest's pieces |
| Text.DigitsValueBound | controllers/user/addressController.js:16-21 | the number n digits denote is below 10^n, so a six-digit pincode is below 1000000 |
| Text.NatToString | controllers/user/downloadController.js:220 | a number prints as a non-empty string of digits with no leading zero |
| Text.NatToStringRoundTrip | controllers/user/downloadController.js:220 | the printed decimal text of a number reads back as that number |
| Paging.ParamOr | controllers/admin/categoryController.js:8-9 | an absent or zero query value takes the default; any other value is kept |
| Paging.Paginate | controllers/admin/userManagement.js:11-15 | page and limit are defaulted; skip is (page − 1)·limit; for a positive limit, totalPages is the least count of pages that holds every row |
| Paging.CeilDiv | controllers/admin/categoryController.js:23 | for a positive divisor, (r − 1)·d < n ≤ r·d, which is `Math.ceil(n / d)` |
| Paging.RelIndex | controllers/user/cartController.js:46 | a negative slice bound counts from the end; the result is clamped to 0..length |
| Paging.JsSlice | controllers/user/wishlistController.js:30 | `Array.slice`: the result is the contiguous run between the resolved bounds, element by element |
| Paging.PageOf | controllers/user/cartController.js:42-46 | page p of size l holds the items from (p − 1)·l on, at most l of them |
| Paging.PageRun | controllers/user/cartController.js:42-46 | every page is one contiguous run of the list, between the page start and the page end |
| Paging.ItemOnPage | controllers/user/cartController.js:42-46 | item i is on page i / l + 1, at position i mod l, and that page is at most totalPages |
| Paging.TotalPagesExact | controllers/user/cartController.js:42-46 | a page is non-empty exactly when its number is at most ceil(n / l) |
| Paging.DbPage | controllers/admin/categoryController.js:15-17 | Mongo skip/limit: a negative skip is refused; limit 0 means no limit and a negative limit counts by its size; the rows are the ones from the skip on |
| Paging.DbPageIsPageOf | controllers/admin/userManagement.js:15-23 | for page ≥ 1 and limit > 0 the database page equals the slice page |
| Sorting.InsertDesc | controllers/admin/couponController.js:16 | inserting into a newest-first list keeps it newest-first and adds exactly that element |
| Sorting.SortDesc | controllers/user/walletController.js:25 | the result is ordered newest-first and is a permutation of the input |
| Models.ParseStatus | models/orderModel.js:31-35 | only the seven status names are accepted, each as the status it names |
| Models.ParseMethod | models/orderModel.js:40-44 | only "Cash on Delivery" and "Net Banking" are accepted |
| Models.ParsePaymentStatus | models/orderModel.js:45-49 | only Pending, Completed and Failed are accepted |
| Models.EnumRoundTrips | models/orderModel.js:31-49 | every enum name parses back to the value it names |
| Models.Order.constructor | models/orderModel.js:4-72 | a new order keeps the given fields; it starts Pending, Cash on Delivery, payment Pending, with no address, refund reason, Razorpay ids or coupon |
| Models.MakeStockEntry | models/productModel.js:18-32 | a stock entry is accepted iff its trimmed size is non-empty and its quantity (default 0) is not negative; the stored size is trimmed |
| Models.FindSize | controllers/user/productDetailController.js:51 | the first stock entry of that size, or none when no entry has it |
| Models.NewProduct | models/productModel.js:4-48 | a new product keeps the given name, description, product type, optional brand, warranty and return policy, prices, tags, category, stock and images; it is not deleted, rated 0, and has no previous offer price |
| Models.ParseDiscountType | models/offerModel.js:6 | only "percentage" and "fixed" are accepted |
| Models.ParseScope | models/offerModel.js:8-12 | only "product" and "category" are accepted |
| Models.NewOffer | controllers/admin/offerController.js:21-31 | the offer expires exactly when its end date has passed; the product id is kept only for product scope, the category id only for category scope |
| Models.User.constructor | models/userRegister.js:3-28 | a new user has role "user", is neither banned nor verified, and has no addresses |
| Pricing.SubtotalAppend | controllers/user/cartController.js:49-60 | the offer-price sum of two line lists together is the sum of their sums |
| Pricing.MrpAppend | controllers/user/cartController.js:49-60 | the same for the MRP sum |
| Pricing.OfferTotalNonNegative | controllers/user/cartController.js:265 | when no offer price exceeds its price, the offer total MRP − subtotal is not negative |
| Pricing.CartShipping | controllers/user/cartController.js:267-275 | 200 for a subtotal in (0, 1000], 150 in [1001, 5000], 100 in [5001, 10000]; the fee is 0 exactly for a subtotal ≤ 0, one strictly between 1000 and 1001 or 5000 and 5001, or one above 10000 |
| Pricing.ShippingFee | controllers/user/orderCheckController.js:60-67 | 200 for a subtotal in (0, 1000], 150 in (1000, 5000], 100 in (5000, 10000]; the fee is one of 0, 100, 150 or 200, and 0 exactly for a subtotal ≤ 0 or above 10000 |
| Pricing.ShippingNonIncreasing | controllers/user/orderCheckController.js:60-67 | a larger non-empty order never pays more shipping at checkout |
| Pricing.CartShippingOnWholeRupees | controllers/user/cartController.js:366-374 | on whole-rupee subtotals the cart table and the checkout table agree |
| Pricing.CartShippingGap | controllers/user/cartController.js:62-69 | 1000.5 ships free in the cart but costs 150 at checkout, and the cart fee rises from 1000.5 to 1001 |
| Carts.Cart.constructor | controllers/user/productDetailController.js:64-67 | a new cart belongs to the user and has no lines |
| Carts.LoadCart | controllers/user/cartController.js:17-82 | with no cart all totals are 0 on one page; otherwise the totals, shipping and offer total cover exactly page `page` of three lines, and totalPages = ceil(n / 3) |
| Carts.PageTotals | controllers/user/cartController.js:49-60 | the page loop's total and MRP are the offer-price and price sums of the page's lines |
| Carts.PageSubtotal | controllers/user/cartController.js:49-60 | the page loop's subtotal is the offer-price sum of the page's lines |
| Carts.PageSubtotalsAddUp | controllers/user/cartController.js:42-60 | the page subtotals over all pages add up to the subtotal of the whole cart |
| Carts.WithoutItem | controllers/user/cartController.js:160 | an in-order subsequence of the lines that keeps every line whose id differs, as many times as it occurs, and drops every line with that id |
| Carts.RemoveItem | controllers/user/cartController.js:142-171 | 500 and no change when `req.user` is unset (the passport session is absent); 404 for a missing cart; otherwise 200 and the stored lines are `WithoutItem` of the old ones |
| Carts.FindItem | controllers/user/cartController.js:188 | the first line with that id, or none when no line has it |
| Seqs.FirstIndex | controllers/user/cartController.js:188 | `find` on a key: the first position whose key matches, with no earlier match, or none when no element matches |
| Carts.UpdateQuantity | controllers/user/cartController.js:173-205 | 500 and no change when `req.user` is unset; 404 for a missing cart or an unknown line, with no change; otherwise only the first line with that id (`FindItem`) takes the new quantity, with no bound check |
| Carts.Clamp | controllers/user/cartController.js:240-242 | a quantity above min(5, stock) becomes that limit; one within it is kept; without a stock value nothing changes |
| Carts.ClampedItems | controllers/user/cartController.js:236-247 | each line keeps its identity and takes its own clamped quantity |
| Carts.SummaryLines | controllers/user/cartController.js:249-262 | one priced line per cart line, in order: line k is priced from product k's price and offer price and the clamped quantity of cart line k |
| Carts.FirstWithProduct | controllers/user/cartController.js:243-246 | the first line of that product, which the positional `items.$` update writes |
| Carts.Persisted | controllers/user/cartController.js:243-246 | the stored cart after the clamp writes differs from the cart only in quantities |
| Carts.Summarize | controllers/user/cartController.js:265-277 | total = subtotal + shipping and offerTotal = MRP − subtotal |
| Carts.LoadOrderSummary | controllers/user/cartController.js:209-290 | with no cart all totals are 0; otherwise the lines shown are the clamped lines, the totals are taken over them, and the stored cart is `Persisted` |
| Carts.ClampLine | controllers/user/cartController.js:240-247 | one loop step clamps line i and writes the clamp to the stored cart |
| Carts.PersistedWhenProductsDistinct | controllers/user/cartController.js:243-246 | when no product has two lines, the stored prefix is clamped and the rest untouched |
| Carts.PersistedEqualsShownWhenDistinct | controllers/user/cartController.js:236-247 | when no product has two lines, the stored cart ends equal to the clamped lines shown |
| Carts.ClampLandsOnFirstLine | controllers/user/cartController.js:243-246 | with two sizes of one product, the clamp of the second line is written to the first |
| Carts.ClampWithoutStockField | controllers/user/cartController.js:240 | with no `stock` field on any product, no line is ever lowered, in view or in store |
| Carts.ClampToSizeStock | controllers/user/cartController.js:240-242 | the corrected clamp: every line is at most 5 and at most its size's stock, and a line within both is untouched |
| Carts.SummaryWithSizeStock | controllers/user/cartController.js:240-242 | handing the summary each line's size stock makes its shown lines the corrected clamp |
| Carts.DraftItems | controllers/user/cartController.js:355-359 | one order item per cart line, in order, with its product, quantity and the product's offer price as price (no price when the product has none) |
| Carts.DraftSubtotalIsCartSubtotal | controllers/user/cartController.js:362 | when every line has an offer price, the draft's item sum equals the cart's offer-price subtotal |
| Carts.OrderPlace | controllers/user/cartController.js:343-400 | a missing or empty cart fails (200) and creates no order; a line whose product has no offer price makes the total NaN, so the save fails: 500 and no order; otherwise a Pending draft whose total is the item sum plus the cart shipping band, expiring 30 minutes later, and a session holding its id, that same total as mrp, and the fee (or none when 0) |
| Carts.DraftExpiry | controllers/user/cartController.js:378-388 | a draft is kept for thirty minutes and removed from then on |
| ProductDetail.FindLine | controllers/user/productDetailController.js:69-72 | the first line with that product and size (no earlier line matches), or none when no line matches; a line without a size never matches |
| ProductDetail.AddLine | controllers/user/productDetailController.js:69-95 | for an existing (product, size) line with sum = held + requested: sum above the stock is refused first (`OverStock`), then sum above 5 (`OverCap`), and otherwise that line alone takes the sum; without such a line exactly one new line with the request is appended |
| ProductDetail.AddLineAddsQuantity | controllers/user/productDetailController.js:74-95 | a saved request adds exactly the requested units to (product, size) and leaves every other pair's total unchanged |
| ProductDetail.AddLineKeepsLinesUnique | controllers/user/productDetailController.js:69-95 | adding never creates a second line for the same (product, size) |
| ProductDetail.MergedLineWithinLimits | controllers/user/productDetailController.js:74-88 | a merged line never holds more than the size's stock or more than 5 |
| ProductDetail.NewLineNotCapped | controllers/user/productDetailController.js:89-95 | a first add of a size is not held to 5: 8 units go in when the size has 10 |
| ProductDetail.AddToCart | controllers/user/productDetailController.js:31-103 | 401 without a user, 404 without the product, 400 for an unknown size or too little stock, all with no change; otherwise the cart takes `AddLine`'s outcome: 200 with the merged or appended lines saved, 400 for over-stock, 400 with success and problem for over 5, the refusals with no change |
| ProductDetail.Stock | controllers/user/productDetailController.js:107-137 | the quantity of that size's first stock entry, or stock 0 with 404 when the product or the size is missing |
| ProductDetail.StockAgreesWithAddToCart | controllers/user/productDetailController.js:51-62 | `stock` reports exactly the quantity `addToCart` checks a request against |
| Orders.UnitPrice | controllers/user/orderCheckController.js:38 | the offer price unless it is missing or 0, else the price |
| Orders.Checkout | controllers/user/orderCheckController.js:6-88 | no order or no items shows all zeros; otherwise the subtotal, MRP, offer total, checkout shipping, total and COD flag of the order's lines |
| Orders.CheckoutTotals | controllers/user/orderCheckController.js:35-41 | the loop's subtotal and MRP are the sums over the lines whose product exists |
| Orders.CodCondition | controllers/user/orderCheckController.js:43-50 | the COD flag is set iff some line's product allows cash on delivery |
| Orders.FairLineDiscount | controllers/user/orderCheckController.js:38-39 | a fairly priced line adds no more to the subtotal than to the MRP |
| Orders.CheckoutDiscountNonNegative | controllers/user/orderCheckController.js:57 | when every offer price lies between 0 and its price, 0 ≤ subtotal ≤ MRP |
| Orders.CheckoutSubtotalOfDraft | controllers/user/orderCheckController.js:35-41 | checkout's subtotal over the lines of a draft, whose offer prices are set and not 0, is the draft's item subtotal |
| Orders.CheckoutTotalMatchesDraft | controllers/user/orderCheckController.js:60-70 | checking out the order placed from a cart, on a whole-rupee subtotal, charges the same total the draft recorded |
| Orders.Confirm | controllers/user/orderCheckController.js:131-139 | the address is bound, the method recorded, status is Shipping for every method, payment Completed only for Net Banking and otherwise unchanged, the expiry cleared, and the refund reason, Razorpay ids and coupon kept |
| Orders.ConfirmedIsPermanent | controllers/user/orderCheckController.js:139 | a confirmed order never expires |
| Orders.ConfirmIdempotent | controllers/user/orderCheckController.js:131-139 | confirming twice with the same inputs equals confirming once |
| Orders.ConfirmDraft | controllers/user/orderCheckController.js:135-137 | a fresh draft is paid after confirmation iff the method is Net Banking, and stays Pending iff it is Cash on Delivery |
| Orders.Done | controllers/user/orderCheckController.js:97-163 | 400 for a missing id and 404 for a missing user, address or order, each with no write; a bad method is 500 with no write; otherwise the order is confirmed, and the cart is emptied (200) or, with no cart, 500 after the order was saved |
| Orders.UserCancel | controllers/user/orderCheckController.js:183-189 | a user may cancel exactly a Pending order, and it becomes Cancelled |
| Orders.ConfirmedNotUserCancellable | controllers/user/orderCheckController.js:183-189 | once confirmed, an order can no longer be cancelled by its user |
| Orders.CancelOrder | controllers/user/orderCheckController.js:178-194 | a Pending order becomes Cancelled with nothing else changed; any other status gets 400 and no change; a missing order is 500 |
| AdminOrders.PaymentStatusAlwaysOverwritten | controllers/admin/orderController.js:39-41 | no stored payment method is the literal "COD", so the payment status is always overwritten |
| AdminOrders.AssignedStatus | models/orderModel.js:31-35 | an absent value reads back as the default Pending; a given one is accepted iff it is a status name, and stored as the status of that name |
| AdminOrders.AssignedPaymentStatus | models/orderModel.js:45-49 | an absent value reads back as the default Pending; a given one is accepted iff it is a payment status name, and stored as that status |
| AdminOrders.StatusUpdate | controllers/admin/orderController.js:37-42 | accepted iff each given string is an enum name; a given name is stored as the status it names, an absent one as the schema default (Pending); every other field is unchanged |
| AdminOrders.StatusUpdateAnyTransition | controllers/admin/orderController.js:38 | any status may be set from any status |
| AdminOrders.UpdateStatus | controllers/admin/orderController.js:32-50 | 404 for a missing order; 200 and the `StatusUpdate` state; 500 and no change for a value outside its enum |
| AdminOrders.AdminCancel | controllers/admin/orderController.js:57-58 | the status becomes Cancelled from any status and nothing else changes |
| AdminOrders.AdminCancelIdempotent | controllers/admin/orderController.js:57-58 | cancelling twice equals cancelling once, and a cancelled order is unchanged |
| AdminOrders.Cancel | controllers/admin/orderController.js:53-67 | 404 for a missing order; otherwise 200 and the order is admin-cancelled |
| Categories.Category.constructor | controllers/admin/categoryController.js:74-81 | a new category has no offer, is not applied and not deleted |
| Categories.Discounted | controllers/admin/categoryController.js:222 | a positive percentage lowers a positive price, and one up to 100 keeps it non-negative |
| Categories.ApplyCategoryOffer | controllers/admin/categoryController.js:222-227 | applied, remembering a truthy old offer price (else null), exactly when there is no offer price or the candidate is strictly lower; otherwise no change |
| Categories.RemoveCategoryOffer | controllers/admin/categoryController.js:266-268 | the offer price returns to a truthy previous price (else it is kept), the previous price is cleared, and nothing else changes |
| Categories.AddOfferNeverRaises | controllers/admin/categoryController.js:223-227 | adding a category offer never raises an existing offer price |
| Categories.AddThenRemoveRestores | controllers/admin/categoryController.js:220-270 | add then remove restores a product that had a non-zero offer price and no previous price |
| Categories.AddThenRemoveKeepsDiscountWithoutOfferPrice | controllers/admin/categoryController.js:220-270 | a product without an offer price keeps the discounted price after removal |
| Categories.AddOffer | controllers/admin/categoryController.js:204-248 | 400 and no change without an id or percentage; otherwise every product of the category takes `ApplyCategoryOffer` and no other changes; then 404 for a missing category, or 200 with the offer recorded and applied |
| Categories.RemoveOffer | controllers/admin/categoryController.js:252-283 | 400 and no change without an id; otherwise every product of the category is reverted and no other changes; then 500 for a missing category, or 200 with the offer cleared |
| Categories.CatalogueRoundTrip | controllers/admin/categoryController.js:220-270 | over the whole catalogue, adding then removing an offer restores each product with a non-zero offer price and no previous price |
| Categories.DeleteCategory | controllers/admin/categoryController.js:138-157 | 404 for an unknown id; otherwise the category is hidden, its offer kept, and its update time stamped with the request time |
| Categories.RecoverCategory | controllers/admin/categoryController.js:174-187 | 404 for an unknown id; otherwise the category is visible again, its offer kept, and its update time stamped with the request time |
| Categories.CategoryPage | controllers/admin/categoryController.js:8-23 | with no query, page 1, limit 5 and skip 0; totalPages = ceil(total / limit) |
| Offers.Get | controllers/admin/offerController.js:239 | `map.has`/`get`: a value exactly for a key present |
| Offers.Set | controllers/admin/offerController.js:56 | `map.set`: the key maps to the value, other keys keep theirs, a new key goes last, an existing key keeps its place, and keys stay unique |
| Offers.Delete | controllers/admin/offerController.js:240 | `map.delete`: the key is gone, other keys keep their values and order, and keys stay unique |
| Offers.DeleteUndoesSet | controllers/admin/offerController.js:239-240 | deleting a newly set key gives back the map |
| Offers.LastValue | controllers/admin/offerController.js:243-244 | the value of the last entry, which is one of the map's values; present exactly when the map is non-empty |
| Offers.Discount | controllers/admin/offerController.js:40-44 | a fixed discount is its value; a percentage of 0..100 on a non-negative price lies between 0 and the price |
| Offers.ApplyProductOffer | controllers/admin/offerController.js:37-71 | the price becomes price − discount; with no history the history is {first ↦ old offer price} and has no entry for this offer; otherwise this offer's entry is set |
| Offers.ApplyCategoryOfferEntry | controllers/admin/offerController.js:80-103 | the product's history holds this offer's entry, and its price becomes price − discount |
| Offers.RevertOffer | controllers/admin/offerController.js:239-256 | a product whose history has the offer loses that entry and takes the last remaining entry's price, or the base price; any other product is unchanged |
| Offers.ProductOfferRoundTrip | controllers/admin/offerController.js:239-252 | creating then deleting a product offer restores a product whose price agrees with its history |
| Offers.ProductOfferKeepsConsistent | controllers/admin/offerController.js:54-68 | after a product offer on a product with a history, the price agrees with the last entry |
| Offers.FirstProductOfferNotUndone | controllers/admin/offerController.js:47-53 | the first product offer on a product records no entry, so deleting it leaves the discounted price |
| Offers.CategoryOfferRevertsToBasePrice | controllers/admin/offerController.js:265-278 | a category offer on a product with no history reverts to the base price, whatever offer price the product had before |
| Offers.ForCategory | controllers/admin/offerController.js:76-78 | each product of the category takes the update and every other product is unchanged |
| Offers.ScopeOf | controllers/admin/offerController.js:23-25 | no scope is accepted; a given scope is accepted iff it is "product" or "category" |
| Offers.CreateOffer | controllers/admin/offerController.js:13-112 | an invalid type or scope gives 500 and no change; otherwise the offer is created and exactly the targeted products take the offer |
| Offers.UpdatedPrice | controllers/admin/offerController.js:161-166 | for a valid type, the same price a new offer would give; none for any other type |
| Offers.UpdateProductOffer | controllers/admin/offerController.js:150-169 | the old offer price is recorded under the offer id, then the updated price is set |
| Offers.UpdateOffer | controllers/admin/offerController.js:136-204 | 404 and no change for an unknown offer; otherwise exactly the targeted products take `UpdateProductOffer` |
| Offers.RewriteOffer | controllers/admin/offerController.js:207-217 | the stored record takes the new fields but keeps its id and its expiry |
| Offers.RewrittenOfferExpiresAtOriginalEnd | controllers/admin/offerController.js:207-217 | moving an offer's end date does not move its expiry |
| Offers.DeleteOffer | controllers/admin/offerController.js:227-289 | 404 and no change for an unknown offer; otherwise exactly the targeted products are reverted |
| Offers.CreateOfferAsWritten | controllers/admin/offerController.js:13-112 | as written: invalid type or scope is 500 with no offer; otherwise the offer is created, and the reply is 500 iff the offer reaches a product (a product found, or a non-empty category); no product ever changes |
| Offers.CreateOfferNeverApplies | controllers/admin/offerController.js:47-56 | as written a product offer that would lower the price answers 500 and the product keeps its offer price |
| Offers.Repriced | controllers/admin/offerController.js:161-169 | only the offer price changes, to the updated price |
| Offers.FirstFailing | controllers/admin/offerController.js:178-188 | the position of the first product of the category without a truthy `prevOfferPrice` (or the end): every earlier product of the category has one |
| Offers.UpdateCategoryAsWritten | controllers/admin/offerController.js:176-204 | as written: the category's products are repriced up to the first one without a truthy `prevOfferPrice`, which fails the loop; that one and the rest are unchanged; success iff none fails |
| Offers.UpdateOfferAsWritten | controllers/admin/offerController.js:136-223 | as written: 404 and no change for an unknown offer; no history is ever recorded; a product offer reprices the product iff its `prevOfferPrice` is truthy, else 500; a category offer follows `UpdateCategoryAsWritten` |
| Offers.UpdateOfferFailsWithoutPrevious | controllers/admin/offerController.js:156-158 | as written a product with no `prevOfferPrice` fails its offer update with 500 and no change, where the intended update records an entry under the offer id |
| Offers.DeleteOfferAsWritten | controllers/admin/offerController.js:227-289 | as written: 404 for an unknown offer; no product ever changes; 500 iff a product the offer reaches has a truthy `prevOfferPrice` (`.has` on a number), else 200 |
| Offers.DeleteOfferNeverReverts | controllers/admin/offerController.js:239-240 | as written deleting a product offer reverts nothing, and fails with 500 on a product with a non-zero previous price, where the intended delete drops the offer's entry |
| Wishlists.Wishlist.constructor | controllers/user/wishlistController.js:55 | a new wishlist belongs to the user and is empty |
| Wishlists.Without | controllers/user/wishlistController.js:155-157 | an in-order subsequence keeping every entry other than the product as often as it occurs and none of the product; shorter iff the product was there |
| Wishlists.WithoutKeepsNoDuplicates | controllers/user/wishlistController.js:155-157 | removing entries keeps a duplicate-free list duplicate-free |
| Wishlists.AddEntry | controllers/user/wishlistController.js:59-66 | refused iff the product is listed; otherwise appended at the end |
| Wishlists.AddEntryKeepsNoDuplicates | controllers/user/wishlistController.js:59-66 | adding keeps the wishlist duplicate-free |
| Wishlists.AddWishlist | controllers/user/wishlistController.js:45-76 | a listed product is refused with no change; otherwise it is appended, in a new wishlist when there was none |
| Wishlists.WishCart | controllers/user/wishlistController.js:79-126 | the product leaves the wishlist either way; already in the cart (any size), the cart is unchanged and success is false; otherwise one line of 1 unit without a size is appended |
| Wishlists.DeleteWish | controllers/user/wishlistController.js:129-181 | 401 without a user, 404 without a wishlist, 400 and no change when the product is absent, else 200 with every entry of it removed |
| Wishlists.LoadWishlist | controllers/user/wishlistController.js:6-43 | no wishlist shows one page; otherwise the two entries from (page − 1)·2 on, and ceil(n / 2) pages |
| Addresses.Validate | controllers/user/addressController.js:8-21 | accepted iff every required field is non-empty and the pincode is six digits; a missing field is reported before the pincode |
| Addresses.ToAddress | controllers/user/addressController.js:42-52 | the stored entry keeps the fields, and the pincode number is below 1000000 |
| Addresses.LeadingZeroLost | models/userRegister.js:18 | a pincode starting with 0 is stored as a number below 100000 |
| Addresses.FindAddress | controllers/user/addressController.js:101 | the first entry with that id, or none |
| Addresses.AddAddress | controllers/user/addressController.js:4-68 | a form error is 400 even when not logged in; then 401, 404; otherwise exactly one entry is appended |
| Addresses.EditAddress | controllers/user/addressController.js:71-137 | 400 for a form error, 404 for a missing user or entry; otherwise only the found entry is replaced, under a new id, and the length is unchanged |
| Addresses.DeleteAddress | controllers/user/addressController.js:140-178 | 404 for a missing user or entry; otherwise exactly the found entry is removed and the others keep their order |
| Addresses.EditReplacesId | controllers/user/addressController.js:111-122 | after an edit the old id is no longer found and the new one is |
| Addresses.DeleteRemovesId | controllers/user/addressController.js:154-164 | with distinct ids, a delete leaves one entry fewer, none with that id, and ids still distinct |
| Wallets.Newest | controllers/user/walletController.js:25 | transactions newest-first, a permutation of the stored ones |
| Wallets.WalletPage | controllers/user/walletController.js:4-37 | no wallet gives 404, balance 0, no transactions and pages 0; otherwise the stored balance, at most `limit` newest-first transactions drawn from the wallet, and ceil(n / limit) pages |
| Wallets.RunKeepsOrder | controllers/user/walletController.js:24-26 | a run of a newest-first list is newest-first |
| Wallets.EveryTransactionOnAPage | controllers/user/walletController.js:23-30 | every transaction appears on the page its newest-first position gives |
| Wallets.FirstPageStartsWithLatest | controllers/user/walletController.js:24-26 | the first page opens with a transaction no older than any other |
| Invoice.Subtotal | controllers/user/downloadController.js:224-226 | the sum of price × quantity; 0 for no items; no number when a price is missing; non-negative for non-negative lines |
| Invoice.SubtotalAppend | controllers/user/downloadController.js:224-226 | the subtotal of two item lists together is the sum of their subtotals |
| Invoice.Discount | controllers/user/downloadController.js:229-232 | the discount is 10%: between 0 and the subtotal, and the rest is nine times the discount |
| Invoice.FullAddress | controllers/user/downloadController.js:217-221 | the placeholder for no addresses; otherwise exactly house name, street (or "undefined"), city, state and printed pincode of the first address, joined by ", " |
| Invoice.OnlyFirstAddressPrinted | controllers/user/downloadController.js:219 | addresses after the first do not change the line |
| Invoice.PrintedPincodeReadsBack | controllers/user/downloadController.js:220 | the line opens with the house name and a comma, and its closing digits read back as the stored pincode |
| Invoice.Download | controllers/user/downloadController.js:25-58 | 404 iff no order; a PDF iff there is an order, the session shipping is a number and every item can be drawn, else 500; the PDF shows the session shipping and a discount that with the session mrp adds up to the order total |
| Invoice.FrontDownload | controllers/user/downloadController.js:61-91 | 404 iff no order; a PDF iff every item can be drawn, else 500; the PDF shows shipping 100 and the 10% discount |
| Invoice.PlaceThenDownload | controllers/user/cartController.js:376-400 | placing a non-empty cart and downloading at once finds no order when a product lacks an offer price; otherwise a PDF iff the band charges a fee and every product exists, showing that fee and discount 0; a free band always gives 500 |
| Invoice.DraftRenderable | controllers/user/downloadController.js:160-173 | a draft's items can all be drawn exactly when every cart line's product still exists and had an offer price |
| Invoice.FreeShippingInvoiceFails | controllers/user/downloadController.js:193 | as written: with the "Free Shipping" text in the session, `download` always answers 500 |
| Invoice.ShippingFigure | controllers/user/cartController.js:396-400 | the shipping figure as intended: the fee when one is stored, 0 for the free-shipping text, none with no session values |
| Invoice.DownloadShowingFreeShipping | controllers/user/downloadController.js:25-58 | corrected `download`: 404 iff no order; a PDF iff there is a session and every item can be drawn; shows the session's figure (0 when free) and the same discount; equal to `Download` whenever the session holds a number |
| Invoice.PlacedOrderInvoiceRenders | controllers/user/cartController.js:376-400 | corrected: every order placed from a cart whose products exist gets its invoice, with the band's fee (0 when free) and discount 0 |
| ProductGate.Invalid | middleware/checkProductStatus.js:19 | an in-order subsequence holding every deleted product as often as it occurs and no live one |
| ProductGate.LabelOf | middleware/checkProductStatus.js:25 | the name unless it is missing or empty, else the id |
| ProductGate.Labels | middleware/checkProductStatus.js:25 | one label per product, in order |
| ProductGate.Check | middleware/checkProductStatus.js:9-34 | proceeds unless the flag is exactly true; refused with 400 iff some product found is deleted, listing exactly their labels |
| ProductGate.RefusalListsOnlyDeleted | middleware/checkProductStatus.js:19-27 | every label listed belongs to a deleted product, and every deleted product is listed |
| ProductGate.UnnamedReportedById | middleware/checkProductStatus.js:25 | a product with no name is reported by its id |
| ProductGate.LabelListed | middleware/checkProductStatus.js:25 | every product's label is among the labels of a list holding it |
| ProductGate.Find | middleware/checkProductStatus.js:16 | `find` with `$in`: an in-order subsequence of the catalogue holding exactly the products whose id is queried |
| ProductGate.QueriedIdsAsWritten | middleware/checkProductStatus.js:13-16 | as written the query asks for the cart document's own id, or for nothing when there is no cart |
| ProductGate.CartProductIds | middleware/checkProductStatus.js:13-16 | the ids of exactly the products on the cart's lines |
| ProductGate.GateNeverRefusesAsWritten | middleware/checkProductStatus.js:13-27 | as written, when no product shares the cart's id, the gate proceeds whatever the cart holds |
| ProductGate.CartGateRefusesDeleted | middleware/checkProductStatus.js:9-34 | querying the cart's product ids, a flagged request is refused iff some product of the cart is deleted |
| Coupons.AddCoupon | controllers/admin/couponController.js:37-79 | 400 and no change for a falsy required field or a code in use; otherwise 201 and one coupon holding exactly the submitted fields is appended |
| Coupons.AddCouponKeepsCodesUnique | controllers/admin/couponController.js:56-59 | creating coupons keeps codes unique |
| Coupons.SecondAddRefused | controllers/admin/couponController.js:56-59 | submitting the same form twice creates one coupon |
| Coupons.FindCoupon | controllers/admin/couponController.js:97 | a coupon with that id, or none when no coupon has it |
| Coupons.UpdateCoupon | controllers/admin/couponController.js:97-117 | 404 for an unknown id; otherwise 200 and only that coupon changes: all its fields, and its update time |
| Coupons.UpdateMayDuplicateCode | controllers/admin/couponController.js:97-111 | an update may give a coupon a code another coupon already has |
| Coupons.DeleteCoupon | controllers/admin/couponController.js:125-131 | always 200; the coupon with that id is gone and the rest remain in their stored order |
| Coupons.ListCoupons | controllers/admin/couponController.js:16 | every coupon, newest first |
| Coupons.ListStartsWithNewest | controllers/admin/couponController.js:16 | the first coupon listed is no older than any other |
| UserManagement.Customers | controllers/admin/userManagement.js:18-21 | an in-order subsequence of the users holding exactly those with role "user" |
| UserManagement.LoadUserManagement | controllers/admin/userManagement.js:8-43 | page and limit default to 1 and 10; a non-empty page is the run of customers from the skip on, full (|limit| rows) unless it reaches the last customer, with the pagination figures; "No users found" only past the last row |
| UserManagement.NoUsersPastLastPage | controllers/admin/userManagement.js:25-30 | for a positive page and limit, the list is empty exactly past page ceil(n / limit) |
| UserManagement.BanWord | controllers/admin/userManagement.js:61 | the word is "banned" iff the user is now banned |
| UserManagement.UserBan | controllers/admin/userManagement.js:47-67 | 404 and no change for an unknown email; otherwise the ban flag flips, the reply reports it, and every other field is kept |
| UserManagement.BanTwice | controllers/admin/userManagement.js:58 | banning twice restores the original user |
| UserManagement.ViewUserDetails | controllers/admin/userManagement.js:69-86 | 404 for an unknown email; otherwise the user's own name, email, role and ban flag |
| Referrals.Active | controllers/admin/referalController.js:13-17 | exactly the users that are not deleted and have role "user", no more of them than there are users |
| Referrals.ActiveKeepsOrder | controllers/admin/referalController.js:13-17 | the active users come in stored order: an in-order subsequence of all users |
| Referrals.BalanceOf | controllers/admin/referalController.js:24-28 | the wallet's balance, or 0 with no wallet |
| Referrals.GetReferral | controllers/admin/referalController.js:6-41 | row k of page p is active user (p − 1)·10 + k with its balance, and the page holds min(10, n − (p − 1)·10) rows (none past the end); totalPages = ceil(n / 10); hasNext iff p < totalPages, hasPrev iff p > 1; a page below 1 is the error page |
| Referrals.PageFlagsMatchNeighbours | controllers/admin/referalController.js:35-36 | hasNext is set iff the next page has rows |
| ProductAdmin.ParseTags | controllers/admin/productController.js:105 | none for an absent or empty field; otherwise tag k is the trimmed k-th comma-separated piece, and no tag holds a comma |
| ProductAdmin.TagsRoundTrip | controllers/admin/productController.js:105 | trimmed comma-free tags survive being joined with commas and parsed again |
| ProductAdmin.EmptyTagLost | controllers/admin/productController.js:105 | a single empty tag parses back as no tags |
| ProductAdmin.SetSlot | controllers/admin/productController.js:129 | JavaScript index assignment: the slot holds the path; past the end the array grows with holes |
| ProductAdmin.ReplacedSlots | controllers/admin/productController.js:114-131 | each slot with an upload holds the new path and every other slot keeps its image |
| ProductAdmin.ReplaceImages | controllers/admin/productController.js:114-131 | the loop's result is the four-slot replacement |
| ProductAdmin.ValidateStock | controllers/admin/productController.js:112 | accepted iff every submitted entry passes the schema, one stored entry each, in order |
| ProductAdmin.UpdateProduct | controllers/admin/productController.js:96-139 | 404 for an unknown id; 500 and nothing saved for stock failing the schema or a missing name, description, product type or price; otherwise 200 and the product with every submitted field, parsed tags, the whole new stock and replaced images |
| ProductAdmin.SoftDeleted | controllers/admin/productController.js:145-149 | the product is deleted and nothing else changes |
| ProductAdmin.Recovered | controllers/admin/productController.js:243 | the product is live and nothing else changes |
| ProductAdmin.RecoverUndoesDelete | controllers/admin/productController.js:239-249 | recovering a product that was live before deletion restores it exactly |
| ProductAdmin.DeleteProduct | controllers/admin/productController.js:141-161 | 404 and no change for an unknown id; otherwise only that product is marked deleted |
| ProductAdmin.RecoverProduct | controllers/admin/productController.js:239-249 | always 200; only the found product is marked live |
| ProductAdmin.PermanentDelete | controllers/admin/productController.js:252-257 | the product with that id is gone and the rest remain |
| ProductAdmin.Listed | controllers/admin/productController.js:17-23 | an in-order subsequence of the products holding exactly the live ones with a name |
| ProductAdmin.LoadProductManagement | controllers/admin/productController.js:10-57 | page and limit default to 1 and 10; the page holds the listed products from (page − 1)·limit on, at most `limit`; "No products found" iff it is empty |
| ProductAdmin.EveryListedProductOnAPage | controllers/admin/productController.js:26-34 | every listed product is on the page its position gives, within totalPages |

## Left out

- Database mechanics are not modelled. This covers queries, `populate`, `countDocuments`, the TTL sweeper's timing and Mongo sort stability. A lookup is a parameter, and expiry is a predicate over an explicit clock.
- The Cart, Wishlist, Wallet, Coupon and Category model files are not part of this model. Their shapes are inferred from the controllers. Coupons are assumed to carry creation and update timestamps. Categories are assumed to have schema timestamps, so both `save` and `findByIdAndUpdate` stamp their `updatedAt`.
- Session values (`req.session.user`, `orderId`, `mrp`, `shipping`, `checkProductStatus`) are explicit inputs and outputs. The cart and wishlist handlers assume a logged-in user wherever the source reads `req.session.user.id` unguarded. `removeItem` and `updateQuantity` read the passport user `req.user` instead; whether it is set is the `passportUser` input, and without it they answer 500.
- JavaScript type coercion is not modelled beyond the cases listed here. This covers string query values, `parseInt`, and NaN arithmetic beyond a missing price (`Invoice.Subtotal`) and a missing stock (`Carts.Clamp`).
- Floating-point behaviour and `toFixed(2)` rounding are not modelled, because money is exact `real`. Offer prices are therefore numbers, not the strings `toFixed` returns.
- Carts.LoadCart: a product without an offer price makes the page's subtotal and total NaN, and the page shows NaN. Money is `real` here and has no NaN, so the model's cart lines always carry an offer price.
- Carts.LoadOrderSummary: a product without an offer price makes the summary's totals NaN in the same way. The model's products always carry an offer price.
- Carts.OrderPlace: a cart line whose product document no longer exists makes `item.productId._id` throw (500); the model's draft lines always carry their product.
- Orders.Done: the source fetches the user's order with `findOne({ userId })` and no sort, so it gets the first matching document in the collection's natural order (usually the user's oldest order), not necessarily the newest draft. The model is handed whichever order that query returns.
- Orders.Done: `paymentMethod.toString()` on a missing method throws, and this is modelled as 500.
- Cash on delivery is not a product schema field. The checkout's product view carries it as an input.
- The product schema declares `prevOfferPrice` as one Number. The category offer uses it as a number, and the offer controller assigns it a Map or a plain object, which that Number field cannot hold. The handlers as they run are `Offers.CreateOfferAsWritten`, `Offers.UpdateOfferAsWritten` and `Offers.DeleteOfferAsWritten` (see Findings). The intended handlers keep the Map in a second field, `offerHistory`, beside the number.
- Offers.UpdateOffer: in the intended handler the property assignment `prevOfferPrice[id]` is modelled as the Map `set`. An invalid discount type leaves the price unset (`None`).
- Offers.CreateOffer: only the enum validation of the offer schema is modelled. Required-field checks on the name and dates are not.
- Wallets.WalletPage: a limit of 0 makes `Math.ceil` produce Infinity or NaN. It is reported as no page count (`None`).
- ProductGate.Check: the products the query returns are a parameter. The query itself is `ProductGate.Find`, as written over the cart document's id and as intended over the cart's product ids (see Findings). How Mongoose casts a whole document inside `$in` is taken to be its `_id`.
- Invoice.Download: the clearing of the session's order id and shipping is not returned.
- The PDF layout (`generateInvoice` and its helpers) and the fs unlink of replaced images are not modelled.
- The search regex of `searchUsers` and of the product list is not modelled. The product list is modelled with an empty search, over products given newest-first.
- UserManagement.ViewUserDetails: the join date is not returned.
- The file-upload shape of `postAddProductsPage` is not modelled. Its tag parsing is `ProductAdmin.ParseTags` and its defaults are `Models.NewProduct`.
- Render-only and plain lookup handlers carry no logic and are not modelled. These are getProductDetail, viewOrder, getOrder, loadOrderManagement, loadCoupon, modal, loadOffer, getOffers, specific, loadUpdateProduct, loadAddProductsPage, loadDelProductPage, loadAddCategoryPage, loadUpdateCategory and loadDelCategoryPage. The category create/update/permanent-delete handlers are not modelled for the same reason: they copy request fields, and their only checks are a missing image upload (400) and a missing category (404).
- Email uniqueness of users is not modelled, because it is an index constraint enforced by the database.
- Concurrency between requests is not modelled; each handler is one sequential step.

## Findings

| source | as written | input that shows it | evidently intended | confidence | as-written member | corrected member |
|---|---|---|---|---|---|---|
| controllers/user/cartController.js:62-69 | the cart, summary and draft-order bands test `>= 1001` and `>= 5001`, so subtotals strictly between 1000 and 1001 (or 5000 and 5001) fall in no band and ship free | subtotal 1000.5: the cart charges 0 while checkout charges 150, and 1001 costs more than 1000.5 | the checkout table's `> 1000` / `> 5000` bands | not executed | Pricing.CartShippingGap | Pricing.ShippingFee |
| controllers/user/cartController.js:240 | the clamp reads `product.stock`, which the product schema does not define, so `Math.min(5, undefined)` is NaN and no line is ever lowered | any line of 8 units: the summary keeps 8 | clamp against the stock of the line's own size and the 5-unit cap | not executed | Carts.ClampWithoutStockField | Carts.ClampToSizeStock |
| controllers/user/cartController.js:243-246 | the clamp is written with a positional update on `items.productId`, which hits the first line of that product, not the clamped line | sizes S (1 unit) and M (8 units) of one product with stock 10: the stored cart becomes S 5, M 8 | write the clamped quantity to the line that was clamped | not executed | Carts.ClampLandsOnFirstLine | Carts.ClampedItems |
| controllers/user/downloadController.js:193 | for a free band the draft stores the text "Free Shipping" as the session's shipping (cartController.js:396-400), and the invoice calls `shipping.toFixed(2)` on it, which throws | a cart of 1 line at 20000: the order is placed with free shipping and `download` answers 500 | draw free shipping as 0 | not executed | Invoice.FreeShippingInvoiceFails | Invoice.DownloadShowingFreeShipping |
| controllers/admin/offerController.js:47-56 | `createOffer` assigns a Map to the Number field `prevOfferPrice`; the cast fails silently, so the next `.set` runs on `undefined` or a number and throws | a product offer of 10% on a product priced 1000: 500 and the offer price is unchanged, though the offer was created | keep the offer history in a field of its own | not executed | Offers.CreateOfferAsWritten | Offers.CreateOffer |
| controllers/admin/offerController.js:156-158 | `updateOffer` assigns `{}` to the Number field and then a property of it; with no previous price the write lands on `undefined` and throws, and with one it is a no-op | a product with no `prevOfferPrice`: the update answers 500 and the price stays | record the previous price under the offer id and reprice | not executed | Offers.UpdateOfferAsWritten | Offers.UpdateOffer |
| controllers/admin/offerController.js:239 | `deleteOffer` calls `.has` on `prevOfferPrice`, a number or nothing, so it throws or skips and never reverts | a product whose category offer left a previous price of 900: 500; a product with none: 200 and nothing reverted | drop the offer's history entry and restore the last remaining price | not executed | Offers.DeleteOfferAsWritten | Offers.DeleteOffer |
| middleware/checkProductStatus.js:13-16 | the product query is `{ _id: { $in: cartProducts } }` with `cartProducts` the cart document itself, so it asks for the cart's own id and finds no product | a flagged request whose cart holds a deleted product: the gate proceeds | query the ids of the cart's products | not executed | ProductGate.GateNeverRefusesAsWritten | ProductGate.CartGateRefusesDeleted |

=== FILE: addresses.dfy ===
/**
 * The address book (controllers/user/addressController.js): field and
 * pincode validation, and adding, editing and deleting entries of
 * `user.address`.
 */
module Addresses {
  import opened Wrappers
  import Seqs
  import opened Models
  import Text

  /**
   * The submitted form.  A required field that is absent or empty is the
   * empty string; the pincode is the submitted text.
   */
  datatype AddressForm = AddressForm(
    houseName: string,
    country: string,
    state: string,
    city: string,
    district: string,
    pincode: string,
    street: Option<string>,
    houseNumber: Option<int>,
    landmark: Option<string>)

  /** Why a form is refused. */
  datatype FormError = MissingField | BadPincode

  /** The shared checks of add and edit: every required field present, then a six-digit pincode. */
  function Validate(f: AddressForm): (r: Option<FormError>)
    ensures r.None? <==> f.houseName != "" && f.country != "" && f.state != "" && f.city != ""
                         && f.district != "" && f.pincode != "" && Text.IsSixDigits(f.pincode)
    ensures r == Some(MissingField) <==> f.houseName == "" || f.country == "" || f.state == "" || f.city == ""
                                         || f.district == "" || f.pincode == ""
  {
    if f.houseName == "" || f.country == "" || f.state == "" || f.city == "" || f.district == "" || f.pincode == "" then
      Some(MissingField)
    else if !Text.IsSixDigits(f.pincode) then Some(BadPincode)
    else None
  }

  /** The stored entry for a valid form: the pincode becomes the number its digits denote. */
  function ToAddress(id: AddressId, f: AddressForm): (a: Address)
    requires Validate(f).None?
    ensures a.id == id && a.houseName == f.houseName && a.city == f.city && a.state == f.state
    ensures a.pincode < 1000000
  {
    Text.DigitsValueBound(f.pincode);
    Address(id, f.houseName, f.street, f.country, f.state, f.district, f.city, f.houseNumber, f.landmark,
            Text.DigitsValue(f.pincode))
  }

  /** A pincode starting with 0 is stored as a number below 100000: its leading zero is lost. */
  lemma LeadingZeroLost(id: AddressId, f: AddressForm)
    requires Validate(f).None? && f.pincode[0] == '0'
    ensures ToAddress(id, f).pincode < 100000
  {
    var s := f.pincode;
    Text.DigitsValueBound(s[1..]);
    assert Text.DigitOf(s[0]) == 0;
    assert Text.Pow10(5) == 100000 by {
      assert Text.Pow10(1) == 10 && Text.Pow10(2) == 100 && Text.Pow10(3) == 1000 && Text.Pow10(4) == 10000;
    }
    assert Text.DigitsValue(s) == Text.DigitsValue(s[1..]);
  }

  /** Index of the first entry with id `id` (`findIndex`). */
  function FindAddress(addresses: seq<Address>, id: AddressId): (r: Option<nat>)
    ensures r.None? ==> forall k :: 0 <= k < |addresses| ==> addresses[k].id != id
    ensures r.Some? ==> r.value < |addresses| && addresses[r.value].id == id
                        && forall k :: 0 <= k < r.value ==> addresses[k].id != id
  {
    Seqs.FirstIndex(addresses, (a: Address) => a.id, id)
  }

  /** Status of a form refusal. */
  const BadRequest := 400

  /**
   * `addAddress`: a form error is 400 even for a visitor who is not logged
   * in; then 401 without a session user, 404 without the user; otherwise
   * exactly one entry is appended and the others are unchanged.
   */
  method AddAddress(f: AddressForm, loggedIn: bool, user: User?, freshId: AddressId) returns (status: int)
    modifies user
    ensures Validate(f).Some? ==> status == 400
    ensures Validate(f).None? && !loggedIn ==> status == 401
    ensures Validate(f).None? && loggedIn && user == null ==> status == 404
    ensures status == 201 <==> Validate(f).None? && loggedIn && user != null
    ensures user != null && status == 201 ==> user.address == old(user.address) + [ToAddress(freshId, f)]
    ensures user != null && status != 201 ==> user.address == old(user.address)
  {
    if Validate(f).Some? {
      return BadRequest;
    }
    if !loggedIn {
      return 401;
    }
    if user == null {
      return 404;
    }
    user.address := user.address + [ToAddress(freshId, f)];
    status := 201;
  }

  /**
   * `editAddress`: 400 for a form error; reading the session user's id
   * fails with 500 when not logged in; 404 without the user or the entry;
   * otherwise the entry at the found index is replaced by the new one,
   * under a fresh id, and the length is unchanged.
   */
  method EditAddress(f: AddressForm, addressId: AddressId, loggedIn: bool, user: User?, freshId: AddressId)
    returns (status: int)
    modifies user
    ensures Validate(f).Some? ==> status == 400
    ensures Validate(f).None? && !loggedIn ==> status == 500
    ensures Validate(f).None? && loggedIn && user == null ==> status == 404
    ensures Validate(f).None? && loggedIn && user != null ==>
              match FindAddress(old(user.address), addressId)
              case None => status == 404 && user.address == old(user.address)
              case Some(i) => status == 200 && user.address == old(user.address)[i := ToAddress(freshId, f)]
    ensures user != null && status != 200 ==> user.address == old(user.address)
  {
    if Validate(f).Some? {
      return BadRequest;
    }
    if !loggedIn {
      return 500;
    }
    if user == null {
      return 404;
    }
    var i := FindAddress(user.address, addressId);
    if i.None? {
      return 404;
    }
    user.address := user.address[i.value := ToAddress(freshId, f)];
    status := 200;
  }

  /**
   * `deleteAddress`: 500 when not logged in; 404 without the user or the
   * entry; otherwise exactly the entry at the found index is removed and
   * the others keep their order.
   */
  method DeleteAddress(addressId: AddressId, loggedIn: bool, user: User?) returns (status: int)
    modifies user
    ensures !loggedIn ==> status == 500
    ensures loggedIn && user == null ==> status == 404
    ensures loggedIn && user != null ==>
              match FindAddress(old(user.address), addressId)
              case None => status == 404 && user.address == old(user.address)
              case Some(i) => status == 200 && user.address == old(user.address)[..i] + old(user.address)[i + 1..]
    ensures user != null && status != 200 ==> user.address == old(user.address)
  {
    if !loggedIn {
      return 500;
    }
    if user == null {
      return 404;
    }
    var i := FindAddress(user.address, addressId);
    if i.None? {
      return 404;
    }
    user.address := user.address[..i.value] + user.address[i.value + 1..];
    status := 200;
  }

  /** Entry ids are pairwise distinct. */
  predicate UniqueIds(addresses: seq<Address>) {
    forall i, j :: 0 <= i < j < |addresses| ==> addresses[i].id != addresses[j].id
  }

  /**
   * An edit gives the entry a new id: afterwards the old id is no longer
   * found (so editing it again is 404) and the new id is.
   */
  lemma EditReplacesId(addresses: seq<Address>, addressId: AddressId, f: AddressForm, freshId: AddressId)
    requires Validate(f).None? && UniqueIds(addresses) && freshId != addressId
    requires FindAddress(addresses, addressId).Some?
    ensures var i := FindAddress(addresses, addressId).value;
            var edited := addresses[i := ToAddress(freshId, f)];
            && FindAddress(edited, addressId).None?
            && FindAddress(edited, freshId).Some?
  {
    var i := FindAddress(addresses, addressId).value;
    var edited := addresses[i := ToAddress(freshId, f)];
    assert edited[i].id == freshId;
  }

  /** With distinct ids, a delete leaves no entry with that id and keeps the others distinct. */
  lemma DeleteRemovesId(addresses: seq<Address>, addressId: AddressId)
    requires UniqueIds(addresses) && FindAddress(addresses, addressId).Some?
    ensures var i := FindAddress(addresses, addressId).value;
            var rest := addresses[..i] + addresses[i + 1..];
            |rest| == |addresses| - 1 && FindAddress(rest, addressId).None? && UniqueIds(rest)
  {
    var i := FindAddress(addresses, addressId).value;
    var rest := addresses[..i] + addresses[i + 1..];
    assert forall k :: 0 <= k < |rest| ==> rest[k] == if k < i then addresses[k] else addresses[k + 1];
  }
}

=== FILE: adminorders.dfy ===
/** Admin order management: status overwrite and cancel (controllers/admin/orderController.js). */
module AdminOrders {
  import opened Wrappers
  import opened Models

  /**
   * The literal the status update compares the payment method against;
   * neither enum value is stored under this name.
   */
  const CodLiteral := "COD"

  /** Whether the status update overwrites the payment status of an order paid by `m`. */
  predicate OverwritesPaymentStatus(m: PaymentMethod) {
    MethodName(m) != CodLiteral
  }

  /** The payment status is overwritten for every stored payment method. */
  lemma PaymentStatusAlwaysOverwritten(m: PaymentMethod)
    ensures OverwritesPaymentStatus(m)
  {
    assert MethodName(m)[0] != 'C' || MethodName(m)[1] != 'O';
  }

  /**
   * The value a status field holds after the update assigns `v`: a given
   * value must parse (None: the save is refused); an absent one unsets the
   * field, which then reads back as its schema default.
   */
  function AssignedStatus(v: Option<string>): (r: Option<OrderStatus>)
    ensures v.None? ==> r == Some(Pending)
    ensures v.Some? ==> (r.Some? <==> ParseStatus(v.value).Some?)
    ensures v.Some? && r.Some? ==> StatusName(r.value) == v.value
  {
    if v.None? then Some(Pending) else ParseStatus(v.value)
  }

  /** `AssignedStatus` for the payment status. */
  function AssignedPaymentStatus(v: Option<string>): (r: Option<PaymentStatus>)
    ensures v.None? ==> r == Some(PaymentPending)
    ensures v.Some? ==> (r.Some? <==> ParsePaymentStatus(v.value).Some?)
    ensures v.Some? && r.Some? ==> PaymentStatusName(r.value) == v.value
  {
    if v.None? then Some(PaymentPending) else ParsePaymentStatus(v.value)
  }

  /**
   * The admin's status update applied to a state, or None when a given
   * value is outside its enum (the save is refused).  Both fields are
   * assigned whatever the current status is; nothing else changes.
   */
  function StatusUpdate(s: OrderState, shippingStatus: Option<string>, paymentStatus: Option<string>): (r: Option<OrderState>)
    ensures r.Some? <==> (shippingStatus.None? || ParseStatus(shippingStatus.value).Some?)
                         && (paymentStatus.None? || ParsePaymentStatus(paymentStatus.value).Some?)
    ensures r.Some? && shippingStatus.Some? ==> StatusName(r.value.status) == shippingStatus.value
    ensures r.Some? && shippingStatus.None? ==> r.value.status == Pending
    ensures r.Some? && paymentStatus.Some? ==> PaymentStatusName(r.value.paymentStatus) == paymentStatus.value
    ensures r.Some? && paymentStatus.None? ==> r.value.paymentStatus == PaymentPending
    ensures r.Some? ==> r.value.(status := s.status, paymentStatus := s.paymentStatus) == s
  {
    PaymentStatusAlwaysOverwritten(s.paymentMethod);
    match (AssignedStatus(shippingStatus), AssignedPaymentStatus(paymentStatus))
    case (Some(st), Some(ps)) => Some(s.(status := st, paymentStatus := if OverwritesPaymentStatus(s.paymentMethod) then ps else s.paymentStatus))
    case _ => None
  }

  /** Any status may be set, whatever the current one: there is no transition check. */
  lemma StatusUpdateAnyTransition(s: OrderState, target: OrderStatus, p: PaymentStatus)
    ensures StatusUpdate(s, Some(StatusName(target)), Some(PaymentStatusName(p))) == Some(s.(status := target, paymentStatus := p))
  {
    EnumRoundTrips(target, s.paymentMethod, p);
    PaymentStatusAlwaysOverwritten(s.paymentMethod);
  }

  /**
   * `statusupdate`: 404 and no change for a missing order; status and
   * payment status overwritten when each is absent or a valid enum value;
   * 500 and no change otherwise.
   */
  method UpdateStatus(order: Order?, shippingStatus: Option<string>, paymentStatus: Option<string>) returns (status: int)
    modifies order
    ensures order == null ==> status == 404
    ensures order != null ==>
              match StatusUpdate(old(order.State()), shippingStatus, paymentStatus)
              case Some(s) => status == 200 && order.State() == s
              case None => status == 500 && order.State() == old(order.State())
  {
    if order == null {
      return 404;
    }
    var next := StatusUpdate(order.State(), shippingStatus, paymentStatus);
    if next.None? {
      return 500;
    }
    order.status := next.value.status;
    order.paymentStatus := next.value.paymentStatus;
    status := 200;
  }

  /** The admin's cancel: status Cancelled from any status, nothing else changed. */
  function AdminCancel(s: OrderState): (r: OrderState)
    ensures r.status == Cancelled
    ensures r.(status := s.status) == s
  {
    s.(status := Cancelled)
  }

  /** Cancelling an already-cancelled order changes nothing. */
  lemma AdminCancelIdempotent(s: OrderState)
    ensures AdminCancel(AdminCancel(s)) == AdminCancel(s)
    ensures s.status == Cancelled ==> AdminCancel(s) == s
  {
  }

  /** `cancel`: 404 and no change for a missing order; otherwise the order is cancelled. */
  method Cancel(order: Order?) returns (status: int)
    modifies order
    ensures order == null ==> status == 404
    ensures order != null ==> status == 200 && order.State() == AdminCancel(old(order.State()))
  {
    if order == null {
      return 404;
    }
    order.status := Cancelled;
    status := 200;
  }
}

=== FILE: carts.dfy ===
/**
 * The shopping cart (controllers/user/cartController.js): paged cart view,
 * line removal and quantity update, the order summary that clamps lines to
 * min(5, stock), and drafting an order from the cart.
 */
module Carts {
  import opened Wrappers
  import opened Models
  import Seqs
  import opened Pricing
  import Paging

  type ItemId = nat

  /** A cart line; a line moved over from the wishlist has no size. */
  datatype CartItem = CartItem(id: ItemId, productId: ProductId, size: Option<string>, quantity: int)

  /** A user's cart document. */
  class Cart {
    const userId: UserId
    var items: seq<CartItem>

    /** A new, empty cart for `userId`. */
    constructor (userId: UserId)
      ensures this.userId == userId && items == []
    {
      this.userId := userId;
      items := [];
    }
  }

  /** The largest quantity one cart line may hold. */
  const MaxPerLine := 5

  /** Lines per cart page. */
  const CartPageSize := 3

  // ------------------------------------------------------------- cart page

  /** What the cart page shows: one page of lines and totals over that page only. */
  datatype CartView = CartView(
    lines: seq<PricedLine>,
    subtotal: real,
    shipping: real,
    total: real,
    mrp: real,
    offerTotal: real,
    currentPage: int,
    totalPages: int)

  /**
   * `loadCart`: with no cart every total is 0 and there is one page;
   * otherwise the page `page` (default 1) of three lines is shown and the
   * subtotal, MRP, offer total and shipping are computed over that page
   * alone.  `lines` are the cart's lines with their populated prices.
   */
  method LoadCart(cart: Option<seq<PricedLine>>, pageQuery: Option<int>) returns (v: CartView)
    ensures var page := Paging.ParamOr(pageQuery, 1);
      && v.currentPage == page
      && (cart.None? ==> v == CartView([], 0.0, 0.0, 0.0, 0.0, 0.0, page, 1))
      && (cart.Some? ==>
          && v.lines == Paging.PageOf(cart.value, page, CartPageSize)
          && v.totalPages == Paging.CeilDiv(|cart.value|, CartPageSize)
          && v.subtotal == Subtotal(v.lines) && v.mrp == Mrp(v.lines)
          && v.offerTotal == v.mrp - v.subtotal
          && v.shipping == CartShipping(v.subtotal)
          && v.total == v.subtotal + v.shipping)
  {
    var page := Paging.ParamOr(pageQuery, 1);
    if cart.None? {
      return CartView([], 0.0, 0.0, 0.0, 0.0, 0.0, page, 1);
    }
    var offset := (page - 1) * CartPageSize;
    var totalPages := Paging.CeilDiv(|cart.value|, CartPageSize);
    var paged := Paging.JsSlice(cart.value, offset, offset + CartPageSize);
    var total, mrp := PageTotals(paged);
    var offerTotal := mrp - total;
    var subtotal := PageSubtotal(paged);
    var shipping := CartShipping(subtotal);
    v := CartView(paged, subtotal, shipping, subtotal + shipping, mrp, offerTotal, page, totalPages);
  }

  /** The first loop of `loadCart`: Σ offerPrice × quantity and Σ price × quantity over the page. */
  method PageTotals(paged: seq<PricedLine>) returns (total: real, mrp: real)
    ensures total == Subtotal(paged) && mrp == Mrp(paged)
  {
    total, mrp := 0.0, 0.0;
    var i := 0;
    while i < |paged|
      invariant i <= |paged|
      invariant total == Subtotal(paged[..i]) && mrp == Mrp(paged[..i])
    {
      assert paged[..i + 1][..i] == paged[..i];
      total := total + paged[i].offerPrice * paged[i].quantity as real;
      mrp := mrp + paged[i].price * paged[i].quantity as real;
      i := i + 1;
    }
    assert paged[..i] == paged;
  }

  /** The second loop of `loadCart`: Σ offerPrice × quantity over the page. */
  method PageSubtotal(paged: seq<PricedLine>) returns (subtotal: real)
    ensures subtotal == Subtotal(paged)
  {
    subtotal := 0.0;
    var i := 0;
    while i < |paged|
      invariant i <= |paged|
      invariant subtotal == Subtotal(paged[..i])
    {
      assert paged[..i + 1][..i] == paged[..i];
      subtotal := subtotal + paged[i].offerPrice * paged[i].quantity as real;
      i := i + 1;
    }
    assert paged[..i] == paged;
  }

  /** Sum of the subtotals of pages 1..k. */
  function PagesSubtotal(lines: seq<PricedLine>, limit: int, k: nat): real {
    if k == 0 then 0.0 else PagesSubtotal(lines, limit, k - 1) + Subtotal(Paging.PageOf(lines, k, limit))
  }

  /** min(k·limit, n): where pages 1..k of an n-line cart end. */
  function PrefixEnd(n: nat, limit: int, k: nat): nat
    requires limit >= 0
  {
    Paging.MulNonNegative(k, limit);
    if k * limit <= n then k * limit else n
  }

  /** Pages 1..k of `lines` are exactly its first min(k·limit, n) lines. */
  lemma {:induction false} PagesPrefix(lines: seq<PricedLine>, limit: int, k: nat)
    requires limit > 0
    ensures PagesSubtotal(lines, limit, k) == Subtotal(lines[..PrefixEnd(|lines|, limit, k)])
  {
    if k == 0 {
      assert lines[..0] == [];
    } else {
      PagesPrefix(lines, limit, k - 1);
      PageStep(lines, limit, k);
    }
  }

  /** Page k runs from where pages 1..k-1 end to where pages 1..k end. */
  lemma PageStep(lines: seq<PricedLine>, limit: int, k: nat)
    requires limit > 0 && k >= 1
    ensures Subtotal(lines[..PrefixEnd(|lines|, limit, k)])
            == Subtotal(lines[..PrefixEnd(|lines|, limit, k - 1)]) + Subtotal(Paging.PageOf(lines, k, limit))
  {
    var n := |lines|;
    var s := (k - 1) * limit;
    assert k * limit == s + limit;
    var a, b := PrefixEnd(n, limit, k - 1), PrefixEnd(n, limit, k);
    Paging.PageIsSlice(lines, k, limit);
    assert Paging.PageOf(lines, k, limit) == lines[a..b];
    SubtotalAppend(lines[..a], lines[a..b]);
    PrefixSplit(lines, a, b);
  }

  lemma PrefixSplit<T>(xs: seq<T>, a: nat, b: nat)
    requires a <= b <= |xs|
    ensures xs[..a] + xs[a..b] == xs[..b]
  {
  }

  /** The page subtotals of pages 1..totalPages add up to the whole cart's subtotal. */
  lemma PageSubtotalsAddUp(lines: seq<PricedLine>, limit: int)
    requires limit > 0
    ensures PagesSubtotal(lines, limit, Paging.CeilDiv(|lines|, limit)) == Subtotal(lines)
  {
    var t := Paging.CeilDiv(|lines|, limit);
    PagesPrefix(lines, limit, if t < 0 then 0 else t);
    assert lines[..|lines|] == lines;
  }

  // ------------------------------------------------- remove / update a line

  /** The lines whose id differs from `itemId`, in their original order. */
  function WithoutItem(items: seq<CartItem>, itemId: ItemId): (r: seq<CartItem>)
    ensures |r| <= |items|
    ensures forall x :: x in r <==> x in items && x.id != itemId
    ensures (forall k :: 0 <= k < |items| ==> items[k].id != itemId) ==> r == items
    ensures Seqs.Subsequence(r, items)
    ensures forall x :: multiset(r)[x] == if x.id != itemId then multiset(items)[x] else 0
  {
    if |items| == 0 then []
    else
      var rest := WithoutItem(items[1..], itemId);
      assert items == [items[0]] + items[1..];
      assert multiset(items) == multiset{items[0]} + multiset(items[1..]);
      if items[0].id == itemId then rest
      else
        assert ([items[0]] + rest)[1..] == rest;
        [items[0]] + rest
  }

  /**
   * `removeItem`.  The owner is read from `req.user.id`, which only a
   * Passport (Google) login sets: without `passportUser` the read throws,
   * 500 and nothing changed.  Otherwise `cart` is that user's cart: 404
   * with no cart, else the cart keeps exactly the lines whose id differs
   * from `itemId` (an unknown id changes nothing).
   */
  method RemoveItem(passportUser: bool, cart: Cart?, itemId: ItemId) returns (status: int)
    modifies cart
    ensures !passportUser ==> status == 500 && (cart != null ==> cart.items == old(cart.items))
    ensures passportUser && cart == null ==> status == 404
    ensures passportUser && cart != null ==> status == 200 && cart.items == WithoutItem(old(cart.items), itemId)
  {
    if !passportUser {
      return 500;
    }
    if cart == null {
      return 404;
    }
    cart.items := WithoutItem(cart.items, itemId);
    status := 200;
  }

  /** Index of the first line with id `itemId` (`items.find`). */
  function FindItem(items: seq<CartItem>, itemId: ItemId): (r: Option<nat>)
    ensures r.None? ==> forall k :: 0 <= k < |items| ==> items[k].id != itemId
    ensures r.Some? ==> r.value < |items| && items[r.value].id == itemId
                        && forall k :: 0 <= k < r.value ==> items[k].id != itemId
  {
    Seqs.FirstIndex(items, (item: CartItem) => item.id, itemId)
  }

  /**
   * `updateQuantity`.  Without a Passport user `req.user.id` throws: 500
   * and nothing changed.  Otherwise 404 with no cart or no line with that
   * id, nothing changed; else only the first matching line's quantity
   * becomes `quantity`, with no bound check.
   */
  method UpdateQuantity(passportUser: bool, cart: Cart?, itemId: ItemId, quantity: int) returns (status: int)
    modifies cart
    ensures !passportUser ==> status == 500 && (cart != null ==> cart.items == old(cart.items))
    ensures passportUser && cart == null ==> status == 404
    ensures passportUser && cart != null ==> (status == 200 || status == 404)
    ensures cart != null && status == 404 ==>
              cart.items == old(cart.items) && forall k :: 0 <= k < |cart.items| ==> cart.items[k].id != itemId
    ensures cart != null && status == 200 ==>
              && FindItem(old(cart.items), itemId).Some?
              && var k := FindItem(old(cart.items), itemId).value;
              cart.items == old(cart.items)[k := old(cart.items)[k].(quantity := quantity)]
  {
    if !passportUser {
      return 500;
    }
    if cart == null {
      return 404;
    }
    var k := FindItem(cart.items, itemId);
    if k.None? {
      return 404;
    }
    cart.items := cart.items[k.value := cart.items[k.value].(quantity := quantity)];
    status := 200;
  }

  // ------------------------------------------------------- order summary

  /** A line's product as the summary reads it; `stock` is absent when the product has no such field. */
  datatype LineProduct = LineProduct(price: real, offerPrice: real, stock: Option<int>)

  function Min(a: int, b: int): int {
    if a <= b then a else b
  }

  /**
   * The clamp of one line: a quantity above min(5, stock) is lowered to it,
   * one within the limit is kept.  With no stock value the limit is NaN, the
   * comparison is false and the quantity is kept.
   */
  function Clamp(quantity: int, stock: Option<int>): (r: int)
    ensures r <= quantity
    ensures stock.None? ==> r == quantity
    ensures stock.Some? ==> r <= MaxPerLine && r <= stock.value
    ensures stock.Some? && r != quantity ==> r == Min(MaxPerLine, stock.value)
  {
    if stock.Some? && quantity > Min(MaxPerLine, stock.value) then Min(MaxPerLine, stock.value) else quantity
  }

  /** Each line with its quantity clamped (the in-memory view the summary totals). */
  function ClampedItems(items: seq<CartItem>, products: seq<LineProduct>): (r: seq<CartItem>)
    requires |products| == |items|
    ensures |r| == |items|
    ensures forall k :: 0 <= k < |r| ==> r[k] == items[k].(quantity := Clamp(items[k].quantity, products[k].stock))
  {
    seq(|items|, k requires 0 <= k < |items| => items[k].(quantity := Clamp(items[k].quantity, products[k].stock)))
  }

  /**
   * The priced lines of the clamped cart: line k carries the prices of its
   * product and the quantity the clamp leaves on cart line k.
   */
  function SummaryLines(items: seq<CartItem>, products: seq<LineProduct>): (r: seq<PricedLine>)
    requires |products| == |items|
    ensures |r| == |items|
    ensures forall k :: 0 <= k < |r| ==>
              r[k] == PricedLine(products[k].price, products[k].offerPrice, ClampedItems(items, products)[k].quantity)
  {
    seq(|items|, k requires 0 <= k < |items| =>
      PricedLine(products[k].price, products[k].offerPrice, Clamp(items[k].quantity, products[k].stock)))
  }

  /** Index of the first line of product `pid` (the `items.$` positional match). */
  function FirstWithProduct(items: seq<CartItem>, pid: ProductId): (j: nat)
    requires exists k :: 0 <= k < |items| && items[k].productId == pid
    ensures j < |items| && items[j].productId == pid
    ensures forall k :: 0 <= k < j ==> items[k].productId != pid
  {
    if items[0].productId == pid then 0
    else
      assert exists k :: 0 <= k < |items[1..]| && items[1..][k].productId == pid by {
        var k :| 0 <= k < |items| && items[k].productId == pid;
        assert items[1..][k - 1] == items[k];
      }
      1 + FirstWithProduct(items[1..], pid)
  }

  /** Same lines as `items` except possibly for quantities. */
  predicate SameLines(a: seq<CartItem>, b: seq<CartItem>) {
    |a| == |b| && forall k :: 0 <= k < |a| ==> a[k].(quantity := 0) == b[k].(quantity := 0)
  }

  /**
   * The stored cart after the summary has handled lines 0..n-1: each clamped
   * line writes its clamped quantity to the first line of the same product.
   */
  function Persisted(items: seq<CartItem>, products: seq<LineProduct>, n: nat): (r: seq<CartItem>)
    requires |products| == |items| && n <= |items|
    ensures SameLines(items, r)
  {
    if n == 0 then items
    else
      var d := Persisted(items, products, n - 1);
      var it := items[n - 1];
      var q := Clamp(it.quantity, products[n - 1].stock);
      if q != it.quantity then
        assert d[n - 1].productId == it.productId;
        var j := FirstWithProduct(d, it.productId);
        d[j := d[j].(quantity := q)]
      else d
  }

  /** The order summary: totals over the clamped lines. */
  datatype OrderSummary = OrderSummary(subtotal: real, shipping: real, offerTotal: real, total: real, mrp: real)

  function Summarize(lines: seq<PricedLine>): (s: OrderSummary)
    ensures s.total == s.subtotal + s.shipping && s.offerTotal == s.mrp - s.subtotal
  {
    var subtotal := Subtotal(lines);
    OrderSummary(subtotal, CartShipping(subtotal), Mrp(lines) - subtotal, subtotal + CartShipping(subtotal), Mrp(lines))
  }

  /**
   * `loadOrderSummary`: with no cart every total is 0.  Otherwise each line
   * above min(5, stock) is lowered to that limit for the totals, the lower
   * quantity is written to the stored cart's first line of the same product,
   * and the summary is computed over the clamped lines.
   */
  method LoadOrderSummary(cart: Cart?, products: seq<LineProduct>) returns (summary: OrderSummary, shown: seq<CartItem>)
    requires cart != null ==> |products| == |cart.items|
    modifies cart
    ensures cart == null ==> summary == OrderSummary(0.0, 0.0, 0.0, 0.0, 0.0)
    ensures cart != null ==>
              && shown == ClampedItems(old(cart.items), products)
              && summary == Summarize(SummaryLines(old(cart.items), products))
              && cart.items == Persisted(old(cart.items), products, |products|)
  {
    if cart == null {
      return OrderSummary(0.0, 0.0, 0.0, 0.0, 0.0), [];
    }
    var items := cart.items;
    ghost var lines := SummaryLines(items, products);
    var total, mrp, subtotal := 0.0, 0.0, 0.0;
    shown := [];
    var i := 0;
    while i < |items|
      invariant i <= |items|
      invariant cart.items == Persisted(items, products, i)
      invariant shown == ClampedItems(items, products)[..i]
      invariant subtotal == Subtotal(lines[..i]) && total == subtotal && mrp == Mrp(lines[..i])
    {
      var item := ClampLine(cart, items, products, i);
      var product := products[i];
      var line := PricedLine(product.price, product.offerPrice, item.quantity);
      assert lines[i] == line;
      LineStep(lines, i);
      ghost var c := ClampedItems(items, products);
      assert c[..i + 1] == c[..i] + [item];
      var itemTotal := OfferAmount(line);
      var itemMrp := MrpAmount(line);
      subtotal := subtotal + itemTotal;
      total := total + itemTotal;
      mrp := mrp + itemMrp;
      shown := shown + [item];
      i := i + 1;
    }
    assert lines[..i] == lines;
    var offerTotal := mrp - total;
    var shipping := CartShipping(subtotal);
    summary := OrderSummary(subtotal, shipping, offerTotal, subtotal + shipping, mrp);
  }

  /**
   * One step of the summary loop: line `i` is lowered to min(5, stock) when
   * above it, and the lower quantity is written to the stored cart's first
   * line of the same product.
   */
  method ClampLine(cart: Cart, items: seq<CartItem>, products: seq<LineProduct>, i: nat) returns (item: CartItem)
    requires |products| == |items| && i < |items|
    requires cart.items == Persisted(items, products, i)
    modifies cart
    ensures cart.items == Persisted(items, products, i + 1)
    ensures item == ClampedItems(items, products)[i]
  {
    item := items[i];
    var product := products[i];
    if product.stock.Some? && item.quantity > Min(MaxPerLine, product.stock.value) {
      var max := Min(MaxPerLine, product.stock.value);
      item := item.(quantity := max);
      assert cart.items[i].productId == items[i].productId;
      var j := FirstWithProduct(cart.items, items[i].productId);
      cart.items := cart.items[j := cart.items[j].(quantity := max)];
    }
  }

  lemma LineStep(lines: seq<PricedLine>, i: nat)
    requires i < |lines|
    ensures Subtotal(lines[..i + 1]) == Subtotal(lines[..i]) + OfferAmount(lines[i])
    ensures Mrp(lines[..i + 1]) == Mrp(lines[..i]) + MrpAmount(lines[i])
  {
    assert lines[..i + 1][..i] == lines[..i];
  }

  /** Product ids of the lines are pairwise distinct. */
  predicate DistinctProducts(items: seq<CartItem>) {
    forall i, j :: 0 <= i < j < |items| ==> items[i].productId != items[j].productId
  }

  /**
   * When no product has two lines, the first n lines of the stored cart are
   * clamped and the rest untouched; after the whole loop the stored cart is
   * exactly the clamped view.
   */
  lemma {:induction false} PersistedWhenProductsDistinct(items: seq<CartItem>, products: seq<LineProduct>, n: nat)
    requires |products| == |items| && n <= |items| && DistinctProducts(items)
    ensures var p := Persisted(items, products, n);
            && (forall k :: 0 <= k < n ==> p[k] == ClampedItems(items, products)[k])
            && (forall k :: n <= k < |items| ==> p[k] == items[k])
  {
    if n > 0 {
      PersistedWhenProductsDistinct(items, products, n - 1);
      var c := ClampedItems(items, products);
      var d := Persisted(items, products, n - 1);
      var it := items[n - 1];
      if Clamp(it.quantity, products[n - 1].stock) != it.quantity {
        assert FirstWithProduct(d, it.productId) == n - 1;
      }
    }
  }

  /** With distinct products, the stored cart after the summary equals the clamped lines the summary shows. */
  lemma PersistedEqualsShownWhenDistinct(items: seq<CartItem>, products: seq<LineProduct>)
    requires |products| == |items| && DistinctProducts(items)
    ensures Persisted(items, products, |items|) == ClampedItems(items, products)
  {
    PersistedWhenProductsDistinct(items, products, |items|);
  }

  /**
   * With two sizes of one product, a clamp of the second line lands on the
   * first: the stored cart lowers the line that was within the limit and
   * keeps the one above it.
   */
  lemma ClampLandsOnFirstLine()
    ensures var items := [CartItem(1, 7, Some("S"), 1), CartItem(2, 7, Some("M"), 8)];
            var products := [LineProduct(100.0, 90.0, Some(10)), LineProduct(100.0, 90.0, Some(10))];
            && ClampedItems(items, products) == [CartItem(1, 7, Some("S"), 1), CartItem(2, 7, Some("M"), 5)]
            && Persisted(items, products, 2) == [CartItem(1, 7, Some("S"), 5), CartItem(2, 7, Some("M"), 8)]
  {
    var items := [CartItem(1, 7, Some("S"), 1), CartItem(2, 7, Some("M"), 8)];
    var products := [LineProduct(100.0, 90.0, Some(10)), LineProduct(100.0, 90.0, Some(10))];
    assert Persisted(items, products, 1) == items;
    assert FirstWithProduct(items, 7) == 0;
  }

  /**
   * Product documents have no `stock` field, so the limit is always NaN and
   * the summary never lowers a line: a line of 8 stays at 8.
   */
  lemma ClampWithoutStockField(items: seq<CartItem>, products: seq<LineProduct>)
    requires |products| == |items|
    requires forall k :: 0 <= k < |products| ==> products[k].stock.None?
    ensures ClampedItems(items, products) == items
    ensures Persisted(items, products, |items|) == items
  {
    PersistedUnchanged(items, products, |items|);
  }

  lemma {:induction false} PersistedUnchanged(items: seq<CartItem>, products: seq<LineProduct>, n: nat)
    requires |products| == |items| && n <= |items|
    requires forall k :: 0 <= k < |products| ==> products[k].stock.None?
    ensures Persisted(items, products, n) == items
  {
    if n > 0 {
      PersistedUnchanged(items, products, n - 1);
    }
  }

  /**
   * The clamp the summary evidently intends, against the stock of the line's
   * own size: every resulting line holds at most 5 and at most that stock
   * (non-negative stock), and a line within both limits is untouched.
   */
  function ClampToSizeStock(items: seq<CartItem>, sizeStock: seq<int>): (r: seq<CartItem>)
    requires |sizeStock| == |items|
    ensures |r| == |items|
    ensures forall k :: 0 <= k < |r| ==> r[k].quantity <= MaxPerLine && r[k].quantity <= sizeStock[k]
    ensures forall k :: 0 <= k < |r| ==> r[k].(quantity := 0) == items[k].(quantity := 0)
    ensures forall k :: 0 <= k < |r| && items[k].quantity <= Min(MaxPerLine, sizeStock[k]) ==> r[k] == items[k]
  {
    seq(|items|, k requires 0 <= k < |items| => items[k].(quantity := Clamp(items[k].quantity, Some(sizeStock[k]))))
  }

  /**
   * Handing the summary each line's size stock as `stock` makes its shown
   * lines the corrected clamp.
   */
  lemma SummaryWithSizeStock(items: seq<CartItem>, products: seq<LineProduct>, sizeStock: seq<int>)
    requires |products| == |items| && |sizeStock| == |items|
    requires forall k :: 0 <= k < |items| ==> products[k].stock == Some(sizeStock[k])
    ensures ClampedItems(items, products) == ClampToSizeStock(items, sizeStock)
  {
  }

  // ------------------------------------------------------------ draft order

  /**
   * A cart line as `orderPlace` reads it: product id, quantity and the
   * product's offer price, which the product schema leaves optional.
   */
  datatype DraftLine = DraftLine(productId: ProductId, quantity: int, offerPrice: Option<real>)

  /** Every line's product has an offer price, so the subtotal is a number. */
  predicate Priced(lines: seq<DraftLine>) {
    forall k :: 0 <= k < |lines| ==> lines[k].offerPrice.Some?
  }

  /**
   * One order item per cart line, in cart order, priced at the offer price
   * (no price when the product has none); no size is copied.
   */
  function DraftItems(lines: seq<DraftLine>): (items: seq<OrderItem>)
    ensures |items| == |lines|
    ensures forall k :: 0 <= k < |items| ==>
              items[k].productId == lines[k].productId && items[k].quantity == lines[k].quantity
              && items[k].price == lines[k].offerPrice
  {
    seq(|lines|, k requires 0 <= k < |lines| => OrderItem(lines[k].productId, lines[k].quantity, lines[k].offerPrice))
  }

  /** Σ quantity × price over order items (each priced). */
  function ItemsSubtotal(items: seq<OrderItem>): real
    requires forall k :: 0 <= k < |items| ==> items[k].price.Some?
  {
    if |items| == 0 then 0.0
    else ItemsSubtotal(items[..|items| - 1]) + items[|items| - 1].price.value * items[|items| - 1].quantity as real
  }

  function DraftPriced(lines: seq<DraftLine>): seq<PricedLine>
    requires Priced(lines)
  {
    seq(|lines|, k requires 0 <= k < |lines| => PricedLine(0.0, lines[k].offerPrice.value, lines[k].quantity))
  }

  /** The draft's item subtotal is the cart subtotal at offer prices. */
  lemma {:induction false} DraftSubtotalIsCartSubtotal(lines: seq<DraftLine>)
    requires Priced(lines)
    ensures ItemsSubtotal(DraftItems(lines)) == Subtotal(DraftPriced(lines))
  {
    if |lines| > 0 {
      var n := |lines| - 1;
      DraftSubtotalIsCartSubtotal(lines[..n]);
      assert DraftItems(lines)[..n] == DraftItems(lines[..n]);
      assert DraftPriced(lines)[..n] == DraftPriced(lines[..n]);
    }
  }

  /** Session values `orderPlace` leaves for the invoice: order id, the total as "mrp", and the fee (absent = "Free Shipping"). */
  datatype DraftSession = DraftSession(orderId: OrderId, mrp: real, shipping: Option<real>)

  /**
   * `orderPlace`: with no cart or an empty one, success is false and no
   * order is created (200).  A line whose product has no offer price makes
   * the subtotal and the total NaN; the order's required Number
   * `totalAmount` refuses NaN, so the save fails: 500 and no order.
   * Otherwise a draft order is created with one item per line, total
   * Σ quantity × price plus the cart shipping band, status Pending, and an
   * expiry thirty minutes after `now`.
   */
  method OrderPlace(cart: Option<seq<DraftLine>>, userId: UserId, newId: OrderId, now: Time)
    returns (status: int, success: bool, order: Order?, session: Option<DraftSession>)
    ensures success <==> cart.Some? && |cart.value| > 0 && Priced(cart.value)
    ensures status == 500 <==> cart.Some? && |cart.value| > 0 && !Priced(cart.value)
    ensures status != 500 ==> status == 200
    ensures !success ==> order == null && session.None?
    ensures success ==>
              && order != null && fresh(order)
              && order.id == newId && order.userId == userId
              && order.orderItems == DraftItems(cart.value)
              && order.totalAmount == ItemsSubtotal(order.orderItems) + CartShipping(ItemsSubtotal(order.orderItems))
              && order.State() == OrderState(Pending, CashOnDelivery, PaymentPending, None, Some(now + DraftLifetime), None, None, None, None)
              && session == Some(DraftSession(newId, order.totalAmount,
                                  if CartShipping(ItemsSubtotal(order.orderItems)) != 0.0
                                  then Some(CartShipping(ItemsSubtotal(order.orderItems))) else None))
  {
    if cart.None? || |cart.value| == 0 {
      return 200, false, null, None;
    }
    if !Priced(cart.value) {
      return 500, false, null, None;
    }
    var orderItems := DraftItems(cart.value);
    var subtotal := ItemsSubtotal(orderItems);
    var shipping := CartShipping(subtotal);
    var total := subtotal + shipping;
    order := new Order(newId, userId, total, orderItems, now, Some(now + DraftLifetime));
    session := Some(DraftSession(newId, total, if shipping != 0.0 then Some(shipping) else None));
    status, success := 200, true;
  }

  /** A draft is gone once thirty minutes have passed, and alive before. */
  lemma DraftExpiry(now: Time, later: Time)
    ensures Expired(Some(now + DraftLifetime), later) <==> later - now >= 1800000
  {
  }
}

=== FILE: categories.dfy ===
/**
 * Category administration: the category-wide offer that is applied only
 * where it lowers a price and can be reverted, soft delete and recover,
 * and list pagination (controllers/admin/categoryController.js).
 */
module Categories {
  import opened Wrappers
  import opened Models
  import Paging

  /** A category document's offer and visibility fields. */
  class Category {
    const id: CategoryId
    var offer: Option<real>
    var offerApplied: bool
    var isDeleted: bool
    var updatedAt: Time

    constructor (id: CategoryId, now: Time)
      ensures this.id == id && offer.None? && !offerApplied && !isDeleted && updatedAt == now
    {
      this.id := id;
      offer := None;
      offerApplied := false;
      isDeleted := false;
      updatedAt := now;
    }
  }

  /** JavaScript truthiness of an optional number: present and not 0. */
  predicate Truthy(x: Option<real>) {
    x.Some? && x.value != 0.0
  }

  /** `price - price * pct / 100`. */
  function Discounted(price: real, pct: real): (r: real)
    ensures pct > 0.0 && price > 0.0 ==> r < price
    ensures pct <= 100.0 && price >= 0.0 ==> r >= 0.0
  {
    price - (price * pct) / 100.0
  }

  /**
   * The category offer on one product: applied, remembering the old offer
   * price (or nothing) as the previous price, when the product has no offer
   * price or the discounted price is strictly lower; otherwise no change.
   */
  function ApplyCategoryOffer(p: Product, pct: real): (r: Product)
    ensures var c := Discounted(p.price, pct);
            (!Truthy(p.offerPrice) || c < p.offerPrice.value) ==>
              r == p.(offerPrice := Some(c), prevOfferPrice := if Truthy(p.offerPrice) then p.offerPrice else None)
    ensures Truthy(p.offerPrice) && Discounted(p.price, pct) >= p.offerPrice.value ==> r == p
  {
    var c := Discounted(p.price, pct);
    if !Truthy(p.offerPrice) || c < p.offerPrice.value then
      p.(prevOfferPrice := if Truthy(p.offerPrice) then p.offerPrice else None, offerPrice := Some(c))
    else p
  }

  /** The revert on one product: back to the previous offer price when that is truthy; the previous price is cleared. */
  function RemoveCategoryOffer(p: Product): (r: Product)
    ensures r.prevOfferPrice.None?
    ensures Truthy(p.prevOfferPrice) ==> r.offerPrice == p.prevOfferPrice
    ensures !Truthy(p.prevOfferPrice) ==> r.offerPrice == p.offerPrice
    ensures r.(offerPrice := p.offerPrice, prevOfferPrice := p.prevOfferPrice) == p
  {
    p.(offerPrice := if Truthy(p.prevOfferPrice) then p.prevOfferPrice else p.offerPrice, prevOfferPrice := None)
  }

  /** Adding a category offer never raises an existing offer price. */
  lemma AddOfferNeverRaises(p: Product, pct: real)
    requires Truthy(p.offerPrice)
    ensures ApplyCategoryOffer(p, pct).offerPrice.Some?
    ensures ApplyCategoryOffer(p, pct).offerPrice.value <= p.offerPrice.value
  {
  }

  /**
   * Add then remove restores a product that had a non-zero offer price and
   * no previous price, whether or not the offer was applied.
   */
  lemma AddThenRemoveRestores(p: Product, pct: real)
    requires Truthy(p.offerPrice) && p.prevOfferPrice.None?
    ensures RemoveCategoryOffer(ApplyCategoryOffer(p, pct)) == p
  {
  }

  /**
   * A product with no offer price keeps the discounted price after the
   * offer is removed: with nothing remembered there is nothing to revert to.
   */
  lemma AddThenRemoveKeepsDiscountWithoutOfferPrice(p: Product, pct: real)
    requires p.offerPrice.None?
    ensures RemoveCategoryOffer(ApplyCategoryOffer(p, pct)).offerPrice == Some(Discounted(p.price, pct))
  {
  }

  /** The effect on the whole catalogue: products of category `cid` take `f`, the others are unchanged. */
  function InCategory(p: Product, cid: CategoryId): bool {
    p.category == Some(cid)
  }

  /**
   * `addOffer`.  400 and nothing changed when the category id or the
   * percentage is missing or 0.  Otherwise every product of the category is
   * offered the discount first; then a missing category gives 404 (the
   * products stay changed), and an existing one records the percentage and
   * the applied flag.
   */
  method AddOffer(categoryId: Option<CategoryId>, pct: Option<real>, catalogue: array<Product>,
                  category: Category?, now: Time) returns (status: int)
    requires category != null && categoryId.Some? ==> category.id == categoryId.value
    modifies catalogue, category
    ensures categoryId.None? || !Truthy(pct) ==>
              status == 400 && catalogue[..] == old(catalogue[..])
              && (category != null ==> category.offer == old(category.offer) && category.offerApplied == old(category.offerApplied)
                                       && category.isDeleted == old(category.isDeleted) && category.updatedAt == old(category.updatedAt))
    ensures categoryId.Some? && Truthy(pct) ==>
              && (forall k :: 0 <= k < catalogue.Length ==>
                    catalogue[k] == if InCategory(old(catalogue[k]), categoryId.value)
                                    then ApplyCategoryOffer(old(catalogue[k]), pct.value) else old(catalogue[k]))
              && (category == null ==> status == 404)
              && (category != null ==> status == 200 && category.offer == pct && category.offerApplied
                                       && category.isDeleted == old(category.isDeleted) && category.updatedAt == now)
  {
    if categoryId.None? || !Truthy(pct) {
      return 400;
    }
    var i := 0;
    while i < catalogue.Length
      modifies catalogue
      invariant 0 <= i <= catalogue.Length
      invariant forall k :: 0 <= k < i ==>
                  catalogue[k] == if InCategory(old(catalogue[k]), categoryId.value)
                                  then ApplyCategoryOffer(old(catalogue[k]), pct.value) else old(catalogue[k])
      invariant forall k :: i <= k < catalogue.Length ==> catalogue[k] == old(catalogue[k])
    {
      var product := catalogue[i];
      var updated := product;
      if InCategory(product, categoryId.value) {
        var newOfferPrice := Discounted(product.price, pct.value);
        if !Truthy(product.offerPrice) || newOfferPrice < product.offerPrice.value {
          updated := product.(prevOfferPrice := if Truthy(product.offerPrice) then product.offerPrice else None,
                              offerPrice := Some(newOfferPrice));
        }
      }
      assert updated == if InCategory(product, categoryId.value) then ApplyCategoryOffer(product, pct.value) else product;
      catalogue[i] := updated;
      i := i + 1;
    }
    if category == null {
      return 404;
    }
    category.offer := pct;
    category.offerApplied := true;
    category.updatedAt := now;
    status := 200;
  }

  /**
   * `removeOffer`.  400 and nothing changed without a category id.
   * Otherwise every product of the category is reverted; then a missing
   * category fails with 500 (the products stay reverted), and an existing
   * one has its offer cleared.
   */
  method RemoveOffer(categoryId: Option<CategoryId>, catalogue: array<Product>, category: Category?, now: Time)
    returns (status: int)
    requires category != null && categoryId.Some? ==> category.id == categoryId.value
    modifies catalogue, category
    ensures categoryId.None? ==>
              status == 400 && catalogue[..] == old(catalogue[..])
              && (category != null ==> category.offer == old(category.offer) && category.offerApplied == old(category.offerApplied)
                                       && category.updatedAt == old(category.updatedAt))
    ensures categoryId.Some? ==>
              && (forall k :: 0 <= k < catalogue.Length ==>
                    catalogue[k] == if InCategory(old(catalogue[k]), categoryId.value)
                                    then RemoveCategoryOffer(old(catalogue[k])) else old(catalogue[k]))
              && (category == null ==> status == 500)
              && (category != null ==> status == 200 && category.offer.None? && !category.offerApplied
                                       && category.isDeleted == old(category.isDeleted) && category.updatedAt == now)
  {
    if categoryId.None? {
      return 400;
    }
    var i := 0;
    while i < catalogue.Length
      modifies catalogue
      invariant 0 <= i <= catalogue.Length
      invariant forall k :: 0 <= k < i ==>
                  catalogue[k] == if InCategory(old(catalogue[k]), categoryId.value)
                                  then RemoveCategoryOffer(old(catalogue[k])) else old(catalogue[k])
      invariant forall k :: i <= k < catalogue.Length ==> catalogue[k] == old(catalogue[k])
    {
      var product := catalogue[i];
      var updated := product;
      if InCategory(product, categoryId.value) {
        updated := product.(offerPrice := if Truthy(product.prevOfferPrice) then product.prevOfferPrice else product.offerPrice,
                            prevOfferPrice := None);
      }
      assert updated == if InCategory(product, categoryId.value) then RemoveCategoryOffer(product) else product;
      catalogue[i] := updated;
      i := i + 1;
    }
    if category == null {
      return 500;
    }
    category.offer := None;
    category.offerApplied := false;
    category.updatedAt := now;
    status := 200;
  }

  /** The category offer round trip over a catalogue: every product that had a non-zero offer price and no previous price is restored. */
  lemma CatalogueRoundTrip(before: seq<Product>, cid: CategoryId, pct: real, k: nat)
    requires k < |before| && Truthy(before[k].offerPrice) && before[k].prevOfferPrice.None?
    ensures var added := if InCategory(before[k], cid) then ApplyCategoryOffer(before[k], pct) else before[k];
            (if InCategory(added, cid) then RemoveCategoryOffer(added) else added) == before[k]
  {
    AddThenRemoveRestores(before[k], pct);
  }

  /**
   * `deleteCategory`: 404 for an unknown id, otherwise the category is
   * hidden.  `findByIdAndUpdate` sets `isDeleted` and, through the schema's
   * timestamps, `updatedAt`; nothing else is written.
   */
  method DeleteCategory(category: Category?, now: Time) returns (status: int)
    modifies category
    ensures category == null ==> status == 404
    ensures category != null ==> status == 200 && category.isDeleted
                                 && category.offer == old(category.offer) && category.offerApplied == old(category.offerApplied)
                                 && category.updatedAt == now
  {
    if category == null {
      return 404;
    }
    category.isDeleted := true;
    category.updatedAt := now;
    status := 200;
  }

  /** `recoverCategory`: 404 for an unknown id, otherwise the category is visible again; `isDeleted` and `updatedAt` are written. */
  method RecoverCategory(category: Category?, now: Time) returns (status: int)
    modifies category
    ensures category == null ==> status == 404
    ensures category != null ==> status == 200 && !category.isDeleted
                                 && category.offer == old(category.offer) && category.offerApplied == old(category.offerApplied)
                                 && category.updatedAt == now
  {
    if category == null {
      return 404;
    }
    category.isDeleted := false;
    category.updatedAt := now;
    status := 200;
  }

  /** The category list's pagination: page defaults to 1, limit to 5. */
  function CategoryPage(pageQuery: Option<int>, limitQuery: Option<int>, total: nat): (r: Paging.ListPage)
    ensures pageQuery.None? && limitQuery.None? ==> r.page == 1 && r.limit == 5 && r.skip == 0
    ensures r.limit > 0 ==> (r.totalPages - 1) * r.limit < total <= r.totalPages * r.limit
  {
    Paging.Paginate(pageQuery, limitQuery, 1, 5, total)
  }
}

=== FILE: coupons.dfy ===
/**
 * Admin coupon management: creating a coupon with required-field and
 * duplicate-code checks, updating, deleting and listing coupons.  The coupon
 * collection is a value; each handler returns the reply code and the new
 * collection.
 */
module Coupons {
  import opened Wrappers
  import opened Models
  import Sorting
  import Seqs

  /** The request body; every field may be absent. */
  datatype CouponForm = CouponForm(
    couponCode: Option<string>,
    validFrom: Option<string>,
    validUpto: Option<string>,
    discountPercentage: Option<real>,
    minPrice: Option<real>,
    maxDiscount: Option<real>,
    couponCount: Option<int>,
    status: Option<string>)

  /** A stored coupon: the submitted fields as given, with its timestamps. */
  datatype Coupon = Coupon(id: CouponId, fields: CouponForm, createdAt: Time, updatedAt: Time)

  /** JavaScript truthiness of a text or number field. */
  predicate TextGiven(v: Option<string>) { v.Some? && v.value != "" }
  predicate NumberGiven(v: Option<real>) { v.Some? && v.value != 0.0 }

  /** The six fields `addCoupon` demands; `couponCount` and `status` are optional. */
  predicate RequiredGiven(f: CouponForm) {
    TextGiven(f.couponCode) && TextGiven(f.validFrom) && TextGiven(f.validUpto)
    && NumberGiven(f.discountPercentage) && NumberGiven(f.minPrice) && NumberGiven(f.maxDiscount)
  }

  predicate CodeTaken(coupons: seq<Coupon>, code: Option<string>) {
    exists k :: 0 <= k < |coupons| && coupons[k].fields.couponCode == code
  }

  /** No two stored coupons share a code. */
  predicate UniqueCodes(coupons: seq<Coupon>) {
    forall i, j :: 0 <= i < j < |coupons| ==> coupons[i].fields.couponCode != coupons[j].fields.couponCode
  }

  /**
   * `addCoupon`: 400 when a required field is falsy, 400 when the code is
   * already used, otherwise 201 with a new coupon holding exactly the
   * submitted fields.  A refused request leaves the collection unchanged.
   */
  function AddCoupon(coupons: seq<Coupon>, f: CouponForm, freshId: CouponId, now: Time): (r: (int, seq<Coupon>))
    ensures !RequiredGiven(f) ==> r == (400, coupons)
    ensures RequiredGiven(f) && CodeTaken(coupons, f.couponCode) ==> r == (400, coupons)
    ensures r.0 == 201 <==> RequiredGiven(f) && !CodeTaken(coupons, f.couponCode)
    ensures r.0 == 201 ==> r.1 == coupons + [Coupon(freshId, f, now, now)]
  {
    if !RequiredGiven(f) then (400, coupons)
    else if CodeTaken(coupons, f.couponCode) then (400, coupons)
    else (201, coupons + [Coupon(freshId, f, now, now)])
  }

  /** Creating coupons keeps codes unique. */
  lemma AddCouponKeepsCodesUnique(coupons: seq<Coupon>, f: CouponForm, freshId: CouponId, now: Time)
    requires UniqueCodes(coupons)
    ensures UniqueCodes(AddCoupon(coupons, f, freshId, now).1)
  {
  }

  /** Submitting the same form twice creates one coupon: the second request is refused. */
  lemma {:induction false} SecondAddRefused(coupons: seq<Coupon>, f: CouponForm, id1: CouponId, id2: CouponId, now: Time)
    requires AddCoupon(coupons, f, id1, now).0 == 201
    ensures AddCoupon(AddCoupon(coupons, f, id1, now).1, f, id2, now) == (400, AddCoupon(coupons, f, id1, now).1)
  {
    var after := AddCoupon(coupons, f, id1, now).1;
    assert after[|coupons|].fields.couponCode == f.couponCode;
  }

  /** Position of the coupon with id `id` (`findById`). */
  function FindCoupon(coupons: seq<Coupon>, id: CouponId): (r: Option<nat>)
    ensures r.None? <==> forall k :: 0 <= k < |coupons| ==> coupons[k].id != id
    ensures r.Some? ==> r.value < |coupons| && coupons[r.value].id == id
  {
    if |coupons| == 0 then None
    else if coupons[|coupons| - 1].id == id then Some(|coupons| - 1)
    else FindCoupon(coupons[..|coupons| - 1], id)
  }

  /**
   * `updateCoupon`: 404 for an unknown id; otherwise 200, the coupon's
   * fields all replaced by the submitted ones and `updatedAt` set to `now`,
   * with its id and creation time and every other coupon untouched.  No
   * field is validated and the code is not checked for duplicates.
   */
  function UpdateCoupon(coupons: seq<Coupon>, id: CouponId, f: CouponForm, now: Time): (r: (int, seq<Coupon>))
    ensures (forall k :: 0 <= k < |coupons| ==> coupons[k].id != id) ==> r == (404, coupons)
    ensures r.0 == 200 <==> exists k :: 0 <= k < |coupons| && coupons[k].id == id
    ensures |r.1| == |coupons|
    ensures r.0 == 200 ==>
              exists k :: (0 <= k < |coupons| && coupons[k].id == id
                           && r.1[k] == Coupon(id, f, coupons[k].createdAt, now)
                           && forall j :: 0 <= j < |coupons| && j != k ==> r.1[j] == coupons[j])
  {
    match FindCoupon(coupons, id)
    case None => (404, coupons)
    case Some(k) => (200, coupons[k := Coupon(id, f, coupons[k].createdAt, now)])
  }

  /** Unlike creation, an update may give a coupon a code that another coupon already has. */
  lemma UpdateMayDuplicateCode()
    ensures var f := CouponForm(Some("SAVE10"), Some("a"), Some("b"), Some(10.0), Some(1.0), Some(1.0), None, None);
            var g := f.(couponCode := Some("SAVE20"));
            var cs := [Coupon(1, f, 0, 0), Coupon(2, g, 0, 0)];
            UniqueCodes(cs) && !UniqueCodes(UpdateCoupon(cs, 2, f, 5).1)
  {
    var f := CouponForm(Some("SAVE10"), Some("a"), Some("b"), Some(10.0), Some(1.0), Some(1.0), None, None);
    var g := f.(couponCode := Some("SAVE20"));
    var cs := [Coupon(1, f, 0, 0), Coupon(2, g, 0, 0)];
    assert g.couponCode != f.couponCode by { assert "SAVE20"[4] != "SAVE10"[4]; }
    var r := UpdateCoupon(cs, 2, f, 5).1;
    assert r[0].fields.couponCode == r[1].fields.couponCode;
  }

  /** `deleteCoupon`: always 200; the coupon with that id is gone and the rest keep their order. */
  function DeleteCoupon(coupons: seq<Coupon>, id: CouponId): (r: (int, seq<Coupon>))
    ensures r.0 == 200
    ensures forall c :: c in r.1 <==> c in coupons && c.id != id
    ensures |r.1| <= |coupons|
    ensures Seqs.Subsequence(r.1, coupons)
  {
    if |coupons| == 0 then (200, [])
    else
      var rest := DeleteCoupon(coupons[1..], id).1;
      assert coupons == [coupons[0]] + coupons[1..];
      assert ([coupons[0]] + rest)[1..] == rest;
      (200, if coupons[0].id == id then rest else [coupons[0]] + rest)
  }

  function CreatedAt(c: Coupon): int {
    c.createdAt
  }

  /** `coupon`: every stored coupon, newest first. */
  function ListCoupons(coupons: seq<Coupon>): (r: seq<Coupon>)
    ensures Sorting.SortedDesc(r, CreatedAt)
    ensures multiset(r) == multiset(coupons)
  {
    Sorting.SortDesc(coupons, CreatedAt)
  }

  /** The first coupon listed is the most recently created. */
  lemma {:induction false} ListStartsWithNewest(coupons: seq<Coupon>, c: Coupon)
    requires c in coupons
    ensures var r := ListCoupons(coupons);
            |r| > 0 && r[0].createdAt >= c.createdAt
  {
    var r := ListCoupons(coupons);
    assert c in multiset(r);
    var j :| 0 <= j < |r| && r[j] == c;
  }
}

=== FILE: invoice.dfy ===
/**
 * Invoice figures: the subtotal and flat discount of an order, the address
 * line, and the shipping and discount the two download handlers pass to
 * the PDF renderer.
 */
module Invoice {
  import opened Wrappers
  import opened Models
  import Text
  import Pricing
  import Carts

  /**
   * `calculateSubtotal`: Σ price × quantity over the order items, 0 for no
   * items.  An item without a stored price makes the sum `NaN` (`None`).
   */
  function Subtotal(items: seq<OrderItem>): (r: Option<real>)
    ensures r.Some? <==> forall k :: 0 <= k < |items| ==> items[k].price.Some?
    ensures |items| == 0 ==> r == Some(0.0)
    ensures r.Some? && (forall k :: 0 <= k < |items| ==> items[k].price.value >= 0.0 && items[k].quantity >= 0)
            ==> r.value >= 0.0
  {
    if forall k :: 0 <= k < |items| ==> items[k].price.Some? then
      SubtotalNonNegative(items);
      Some(Carts.ItemsSubtotal(items))
    else None
  }

  lemma {:induction false} SubtotalNonNegative(items: seq<OrderItem>)
    requires forall k :: 0 <= k < |items| ==> items[k].price.Some?
    ensures (forall k :: 0 <= k < |items| ==> items[k].price.value >= 0.0 && items[k].quantity >= 0)
            ==> Carts.ItemsSubtotal(items) >= 0.0
  {
    if |items| > 0 {
      var n := |items| - 1;
      SubtotalNonNegative(items[..n]);
      if forall k :: 0 <= k < |items| ==> items[k].price.value >= 0.0 && items[k].quantity >= 0 {
        Pricing.RealMulNonNegative(items[n].price.value, items[n].quantity as real);
      }
    }
  }

  /** The subtotal of two item lists together is the sum of their subtotals. */
  lemma {:induction false} SubtotalAppend(a: seq<OrderItem>, b: seq<OrderItem>)
    requires Subtotal(a).Some? && Subtotal(b).Some?
    ensures Subtotal(a + b) == Some(Subtotal(a).value + Subtotal(b).value)
  {
    if |b| == 0 {
      assert a + b == a;
    } else {
      var n, ab := |b| - 1, a + b;
      assert ab[..|ab| - 1] == a + b[..n] && ab[|ab| - 1] == b[n];
      assert Subtotal(b[..n]).Some?;
      SubtotalAppend(a, b[..n]);
      var last := b[n].price.value * b[n].quantity as real;
      assert Carts.ItemsSubtotal(ab) == Carts.ItemsSubtotal(a + b[..n]) + last;
      assert Carts.ItemsSubtotal(b) == Carts.ItemsSubtotal(b[..n]) + last;
    }
  }

  /** `calculateDiscount`: a flat 10% of the subtotal. */
  function Discount(items: seq<OrderItem>): (r: Option<real>)
    ensures r.Some? <==> Subtotal(items).Some?
    ensures r.Some? && Subtotal(items).value >= 0.0 ==> 0.0 <= r.value <= Subtotal(items).value
    ensures r.Some? ==> Subtotal(items).value - r.value == r.value * 9.0
  {
    match Subtotal(items)
    case None => None
    case Some(s) => Some(s * 0.1)
  }

  /** A missing street prints as `undefined` in the template. */
  function StreetText(street: Option<string>): string {
    if street.Some? then street.value else "undefined"
  }

  const NoAddress := "No Address Provided"

  /**
   * `getFullAddress`: the placeholder for a missing or empty list; otherwise
   * the first address only, as "houseName, street, city, state, pincode"
   * with the pincode in decimal and a missing street printed `undefined`.
   */
  function FullAddress(addresses: Option<seq<Address>>): (r: string)
    ensures addresses.None? || |addresses.value| == 0 ==> r == NoAddress
    ensures addresses.Some? && |addresses.value| > 0 ==>
              var a := addresses.value[0];
              r == a.houseName + ", " + StreetText(a.street) + ", " + a.city + ", " + a.state + ", "
                   + Text.NatToString(a.pincode)
  {
    if addresses.None? || |addresses.value| == 0 then NoAddress
    else
      var a := addresses.value[0];
      var head := a.houseName + ", ";
      var pin := Text.NatToString(a.pincode);
      head + (StreetText(a.street) + ", " + a.city + ", " + a.state + ", ") + pin
  }

  /** Only the first address is printed: the others do not change the line. */
  lemma OnlyFirstAddressPrinted(a: Address, rest: seq<Address>)
    ensures FullAddress(Some([a] + rest)) == FullAddress(Some([a]))
  {
  }

  /** The line opens with the house name and ends with the pincode, which reads back as the stored number. */
  lemma PrintedPincodeReadsBack(addresses: seq<Address>)
    requires |addresses| > 0
    ensures var r, a := FullAddress(Some(addresses)), addresses[0];
            var pin := Text.NatToString(a.pincode);
            |a.houseName| + 2 + |pin| <= |r| && r[..|a.houseName| + 2] == a.houseName + ", "
            && r[|r| - |pin|..] == pin && Text.DigitsValue(r[|r| - |pin|..]) == a.pincode
  {
    var r, a := FullAddress(Some(addresses)), addresses[0];
    var pin := Text.NatToString(a.pincode);
    var mid := StreetText(a.street) + ", " + a.city + ", " + a.state + ", ";
    assert r == (a.houseName + ", ") + mid + pin;
    assert r[..|a.houseName| + 2] == a.houseName + ", ";
    assert r[|r| - |pin|..] == pin;
    Text.NatToStringRoundTrip(a.pincode);
  }

  /** What the session holds for shipping: an amount, the text "Free Shipping", or nothing. */
  datatype ShippingShown = Amount(fee: real) | FreeShipping | Unset

  function SessionShipping(session: Option<Carts.DraftSession>): ShippingShown {
    match session
    case None => Unset
    case Some(s) => if s.shipping.Some? then Amount(s.shipping.value) else FreeShipping
  }

  /**
   * Whether the product table can be drawn: `item.productId.name` throws
   * for an item whose product document no longer exists (`existing` holds
   * the ids the populate finds), and `item.price.toFixed` for an item
   * without a price.
   */
  predicate Renderable(items: seq<OrderItem>, existing: set<ProductId>) {
    forall k :: 0 <= k < |items| ==> items[k].productId in existing && items[k].price.Some?
  }

  /**
   * A handler's outcome: 404 for an unknown order, 500 when rendering
   * throws, or the shipping and discount figures the PDF is rendered with.
   */
  datatype InvoiceReply = NotFound | ServerError | Pdf(shipping: real, discount: real)

  /**
   * `download`: the order named in the session, with the session's shipping
   * and a discount of order total minus the session's `mrp`.  Rendering
   * throws (500) when the session's shipping is not a number (the text
   * "Free Shipping", or no session values) or an item cannot be drawn.  The
   * session's order id and shipping are cleared after a rendered invoice,
   * so a second download finds no order.
   */
  function Download(order: Order?, session: Option<Carts.DraftSession>, existing: set<ProductId>): (r: InvoiceReply)
    reads order
    ensures order == null <==> r == NotFound
    ensures r.Pdf? <==> order != null && SessionShipping(session).Amount? && Renderable(order.orderItems, existing)
    ensures r.Pdf? ==> Amount(r.shipping) == SessionShipping(session)
                       && r.discount + session.value.mrp == order.totalAmount
  {
    if order == null then NotFound
    else if session.None? || session.value.shipping.None? || !Renderable(order.orderItems, existing) then ServerError
    else Pdf(session.value.shipping.value, order.totalAmount - session.value.mrp)
  }

  /**
   * `frontDownload`: shipping is always 100 and the discount is the flat
   * 10% of the subtotal; rendering throws (500) when an item cannot be drawn.
   */
  function FrontDownload(order: Order?, existing: set<ProductId>): (r: InvoiceReply)
    reads order
    ensures order == null <==> r == NotFound
    ensures r.Pdf? <==> order != null && Renderable(order.orderItems, existing)
    ensures r.Pdf? ==> r.shipping == 100.0 && Discount(order.orderItems) == Some(r.discount)
  {
    if order == null then NotFound
    else if !Renderable(order.orderItems, existing) then ServerError
    else Pdf(100.0, Discount(order.orderItems).value)
  }

  /**
   * A draft built from a cart can be drawn exactly when all its products
   * still exist and each had an offer price.
   */
  lemma DraftRenderable(cart: seq<Carts.DraftLine>, existing: set<ProductId>)
    ensures Renderable(Carts.DraftItems(cart), existing)
            <==> Carts.Priced(cart) && forall k :: 0 <= k < |cart| ==> cart[k].productId in existing
  {
    var items := Carts.DraftItems(cart);
    if Carts.Priced(cart) && forall k :: 0 <= k < |cart| ==> cart[k].productId in existing {
      assert forall k :: 0 <= k < |items| ==> items[k].productId == cart[k].productId && items[k].price.Some?;
    } else if !Carts.Priced(cart) {
      var k :| 0 <= k < |cart| && cart[k].offerPrice.None?;
      assert items[k].price.None?;
    } else {
      var k :| 0 <= k < |cart| && cart[k].productId !in existing;
      assert items[k].productId == cart[k].productId;
    }
  }

  /**
   * Placing an order from a non-empty cart and downloading its invoice at
   * once.  When a product has no offer price, no order is placed and the
   * session names none, so the download finds no order.  Otherwise, when
   * the cart's shipping band charges a fee and every product still exists,
   * the invoice shows that fee and no discount, because the session's `mrp`
   * is the order's own total.  When the band is free, the session holds the
   * text "Free Shipping" and rendering fails with 500.
   */
  method PlaceThenDownload(cart: seq<Carts.DraftLine>, userId: UserId, newId: OrderId, now: Time,
                           existing: set<ProductId>)
    returns (reply: InvoiceReply)
    requires |cart| > 0
    ensures !Carts.Priced(cart) ==> reply == NotFound
    ensures Carts.Priced(cart) ==>
              var fee := Pricing.CartShipping(Carts.ItemsSubtotal(Carts.DraftItems(cart)));
              && (reply.Pdf? <==> fee != 0.0 && forall k :: 0 <= k < |cart| ==> cart[k].productId in existing)
              && (reply.Pdf? ==> reply.shipping == fee && reply.discount == 0.0)
              && (fee == 0.0 ==> reply == ServerError)
  {
    var status, success, order, session := Carts.OrderPlace(Some(cart), userId, newId, now);
    DraftRenderable(cart, existing);
    reply := Download(order, session, existing);
  }

  /** As written: once the band is free, a placed order's invoice always fails, whatever it holds. */
  lemma FreeShippingInvoiceFails(order: Order, id: OrderId, mrp: real, existing: set<ProductId>)
    ensures Download(order, Some(Carts.DraftSession(id, mrp, None)), existing) == ServerError
  {
  }

  /**
   * The shipping figure as evidently intended: the "Free Shipping" text
   * drawn as a zero fee; with no session values there is still no figure.
   */
  function ShippingFigure(shown: ShippingShown): (r: Option<real>)
    ensures r.None? <==> shown == Unset
    ensures shown.Amount? ==> r == Some(shown.fee)
    ensures shown == FreeShipping ==> r == Some(0.0)
  {
    match shown
    case Amount(fee) => Some(fee)
    case FreeShipping => Some(0.0)
    case Unset => None
  }

  /** `download` with the free-shipping text drawn as a zero fee. */
  function DownloadShowingFreeShipping(order: Order?, session: Option<Carts.DraftSession>, existing: set<ProductId>)
    : (r: InvoiceReply)
    reads order
    ensures order == null <==> r == NotFound
    ensures r.Pdf? <==> order != null && session.Some? && Renderable(order.orderItems, existing)
    ensures r.Pdf? ==> Some(r.shipping) == ShippingFigure(SessionShipping(session))
                       && r.discount + session.value.mrp == order.totalAmount
    ensures SessionShipping(session).Amount? ==> r == Download(order, session, existing)
  {
    if order == null then NotFound
    else if session.None? || !Renderable(order.orderItems, existing) then ServerError
    else Pdf(ShippingFigure(SessionShipping(session)).value, order.totalAmount - session.value.mrp)
  }

  /**
   * With the intended reading, every order placed from a cart whose
   * products all exist gets its invoice, showing the band's fee (0 when
   * free) and no discount.
   */
  lemma {:induction false} PlacedOrderInvoiceRenders(cart: seq<Carts.DraftLine>, order: Order,
                                                     session: Carts.DraftSession, existing: set<ProductId>)
    requires Carts.Priced(cart) && order.orderItems == Carts.DraftItems(cart)
    requires forall k :: 0 <= k < |cart| ==> cart[k].productId in existing
    requires session.mrp == order.totalAmount
    requires var fee := Pricing.CartShipping(Carts.ItemsSubtotal(order.orderItems));
             session.shipping == if fee != 0.0 then Some(fee) else None
    ensures var r := DownloadShowingFreeShipping(order, Some(session), existing);
            r == Pdf(Pricing.CartShipping(Carts.ItemsSubtotal(order.orderItems)), 0.0)
  {
    DraftRenderable(cart, existing);
  }
}

=== FILE: models.dfy ===
/**
 * The document shapes the controllers read and write: orders, products,
 * offers and users, with the enums, defaults and validators their schemas
 * declare.  Identifiers are naturals; times are milliseconds since the epoch.
 */
module Models {
  import opened Wrappers
  import Seqs
  import Text

  type ProductId = nat
  type CategoryId = nat
  type UserId = nat
  type OrderId = nat
  type AddressId = nat
  type OfferId = nat
  type CouponId = nat
  type Time = int

  /** Thirty minutes, the lifetime of a draft order. */
  const DraftLifetime: Time := 30 * 60 * 1000

  // ---------------------------------------------------------------- orders

  datatype OrderStatus = Pending | Cancelled | Shipping | Completed | Returned | Requested | Rejected

  function StatusName(s: OrderStatus): string {
    match s
    case Pending => "Pending"
    case Cancelled => "Cancelled"
    case Shipping => "Shipping"
    case Completed => "Completed"
    case Returned => "Returned"
    case Requested => "Requested"
    case Rejected => "Rejected"
  }

  /** The status enum check a save applies: only the seven names are accepted. */
  function ParseStatus(s: string): (r: Option<OrderStatus>)
    ensures r.None? ==> forall st :: StatusName(st) != s
    ensures r.Some? ==> StatusName(r.value) == s
  {
    if s == "Pending" then Some(Pending)
    else if s == "Cancelled" then Some(Cancelled)
    else if s == "Shipping" then Some(Shipping)
    else if s == "Completed" then Some(Completed)
    else if s == "Returned" then Some(Returned)
    else if s == "Requested" then Some(Requested)
    else if s == "Rejected" then Some(Rejected)
    else
      assert forall st :: StatusName(st) != s by {
        forall st ensures StatusName(st) != s { }
      }
      None
  }

  datatype PaymentMethod = CashOnDelivery | NetBanking

  function MethodName(m: PaymentMethod): string {
    match m
    case CashOnDelivery => "Cash on Delivery"
    case NetBanking => "Net Banking"
  }

  /** The payment-method enum check a save applies. */
  function ParseMethod(s: string): (r: Option<PaymentMethod>)
    ensures r.None? ==> forall m :: MethodName(m) != s
    ensures r.Some? ==> MethodName(r.value) == s
  {
    if s == "Cash on Delivery" then Some(CashOnDelivery)
    else if s == "Net Banking" then Some(NetBanking)
    else
      assert forall m :: MethodName(m) != s by {
        forall m ensures MethodName(m) != s { }
      }
      None
  }

  datatype PaymentStatus = PaymentPending | PaymentCompleted | PaymentFailed

  function PaymentStatusName(p: PaymentStatus): string {
    match p
    case PaymentPending => "Pending"
    case PaymentCompleted => "Completed"
    case PaymentFailed => "Failed"
  }

  /** The payment-status enum check a save applies. */
  function ParsePaymentStatus(s: string): (r: Option<PaymentStatus>)
    ensures r.None? ==> forall p :: PaymentStatusName(p) != s
    ensures r.Some? ==> PaymentStatusName(r.value) == s
  {
    if s == "Pending" then Some(PaymentPending)
    else if s == "Completed" then Some(PaymentCompleted)
    else if s == "Failed" then Some(PaymentFailed)
    else
      assert forall p :: PaymentStatusName(p) != s by {
        forall p ensures PaymentStatusName(p) != s { }
      }
      None
  }

  /** Every name the enums list parses back to the value it names. */
  lemma EnumRoundTrips(st: OrderStatus, m: PaymentMethod, p: PaymentStatus)
    ensures ParseStatus(StatusName(st)) == Some(st)
    ensures ParseMethod(MethodName(m)) == Some(m)
    ensures ParsePaymentStatus(PaymentStatusName(p)) == Some(p)
  {
  }

  /** An order line: product, quantity and the unit price captured when the order was drafted; there is no size. */
  datatype OrderItem = OrderItem(productId: ProductId, quantity: int, price: Option<real>)

  /** The mutable fields of an order: everything but its id, owner, total, items and creation time. */
  datatype OrderState = OrderState(
    status: OrderStatus,
    paymentMethod: PaymentMethod,
    paymentStatus: PaymentStatus,
    addressId: Option<AddressId>,
    expiresAt: Option<Time>,
    refundReason: Option<string>,
    razorpayOrderId: Option<string>,
    razorpayPaymentId: Option<string>,
    coupon: Option<CouponId>)

  /** The TTL index deletes an order document once its `expiresAt` has passed; one without `expiresAt` is kept. */
  predicate Expired(expiresAt: Option<Time>, now: Time) {
    expiresAt.Some? && expiresAt.value <= now
  }

  /** An order document. */
  class Order {
    const id: OrderId
    const userId: UserId
    const totalAmount: real
    const orderItems: seq<OrderItem>
    const createdAt: Time
    var addressId: Option<AddressId>
    var status: OrderStatus
    var paymentMethod: PaymentMethod
    var paymentStatus: PaymentStatus
    var refundReason: Option<string>
    var razorpayOrderId: Option<string>
    var razorpayPaymentId: Option<string>
    var coupon: Option<CouponId>
    var expiresAt: Option<Time>

    function State(): OrderState
      reads this
    {
      OrderState(status, paymentMethod, paymentStatus, addressId, expiresAt,
                 refundReason, razorpayOrderId, razorpayPaymentId, coupon)
    }

    /**
     * A new order with the given required and optional fields; status,
     * payment method and payment status take their schema defaults and the
     * reference fields start null.
     */
    constructor (id: OrderId, userId: UserId, totalAmount: real, orderItems: seq<OrderItem>,
                 createdAt: Time, expiresAt: Option<Time>)
      ensures this.id == id && this.userId == userId && this.totalAmount == totalAmount
      ensures this.orderItems == orderItems && this.createdAt == createdAt
      ensures State() == OrderState(Pending, CashOnDelivery, PaymentPending, None, expiresAt, None, None, None, None)
    {
      this.id := id;
      this.userId := userId;
      this.totalAmount := totalAmount;
      this.orderItems := orderItems;
      this.createdAt := createdAt;
      this.expiresAt := expiresAt;
      addressId := None;
      status := Pending;
      paymentMethod := CashOnDelivery;
      paymentStatus := PaymentPending;
      refundReason := None;
      razorpayOrderId := None;
      razorpayPaymentId := None;
      coupon := None;
    }
  }

  // -------------------------------------------------------------- products

  /** Stock of one size. */
  datatype StockEntry = StockEntry(size: string, quantity: int)

  /**
   * A stock entry as the schema stores it: the size is trimmed and required
   * (non-empty), the quantity defaults to 0 and may not be negative.
   */
  function MakeStockEntry(size: string, quantity: Option<int>): (r: Option<StockEntry>)
    ensures r.Some? <==> Text.Trim(size) != [] && quantity.GetOr(0) >= 0
    ensures r.Some? ==> r.value.quantity >= 0 && Text.Trim(r.value.size) == r.value.size
    ensures r.Some? ==> r.value.quantity == quantity.GetOr(0)
  {
    var t := Text.Trim(size);
    if t != [] && quantity.GetOr(0) >= 0 then
      Text.TrimIdempotent(size);
      Some(StockEntry(t, quantity.GetOr(0)))
    else None
  }

  /** Index of the first stock entry of size `size` (`stockManagement.find`). */
  function FindSize(entries: seq<StockEntry>, size: string): (r: Option<nat>)
    ensures r.None? ==> forall k :: 0 <= k < |entries| ==> entries[k].size != size
    ensures r.Some? ==> r.value < |entries| && entries[r.value].size == size
                        && forall k :: 0 <= k < r.value ==> entries[k].size != size
  {
    Seqs.FirstIndex(entries, (e: StockEntry) => e.size, size)
  }

  /** Key of an entry in a product's offer history. */
  datatype HistoryKey = First | OfferKey(offer: OfferId)

  /** What the offer engine remembers about an offer: its rule and a price. */
  datatype HistoryEntry = HistoryEntry(discountType: Option<DiscountType>, discountValue: Option<real>, price: Option<real>)

  /**
   * A product document.  `prevOfferPrice` is the single number the category
   * offer keeps; `offerHistory` is the insertion-ordered map the offer engine
   * keeps under the same field name (absent until first written).
   */
  datatype Product = Product(
    id: ProductId,
    name: Option<string>,
    description: Option<string>,
    productType: Option<string>,
    brand: Option<string>,
    warranty: Option<string>,
    returnPolicy: Option<string>,
    price: real,
    offerPrice: Option<real>,
    prevOfferPrice: Option<real>,
    offerHistory: Option<seq<(HistoryKey, HistoryEntry)>>,
    images: seq<Option<string>>,
    tags: seq<string>,
    stockManagement: seq<StockEntry>,
    category: Option<CategoryId>,
    isDeleted: bool,
    rating: real)

  /** A new product: not deleted, rated 0, no previous offer price. */
  function NewProduct(id: ProductId, name: string, description: string, productType: string,
                      brand: Option<string>, warranty: Option<string>, returnPolicy: Option<string>,
                      price: real, offerPrice: Option<real>,
                      images: seq<string>, tags: seq<string>, stock: seq<StockEntry>,
                      category: Option<CategoryId>): (p: Product)
    ensures !p.isDeleted && p.rating == 0.0 && p.prevOfferPrice.None? && p.offerHistory.None?
    ensures p.name == Some(name) && p.description == Some(description) && p.productType == Some(productType)
    ensures p.brand == brand && p.warranty == warranty && p.returnPolicy == returnPolicy
    ensures p.price == price && p.offerPrice == offerPrice && p.stockManagement == stock
    ensures p.tags == tags && p.category == category
    ensures |p.images| == |images| && forall i :: 0 <= i < |images| ==> p.images[i] == Some(images[i])
  {
    Product(id, Some(name), Some(description), Some(productType), brand, warranty, returnPolicy,
            price, offerPrice, None, None, seq(|images|, i requires 0 <= i < |images| => Some(images[i])),
            tags, stock, category, false, 0.0)
  }

  // ---------------------------------------------------------------- offers

  datatype DiscountType = Percentage | Fixed

  function ParseDiscountType(s: string): (r: Option<DiscountType>)
    ensures r == Some(Percentage) <==> s == "percentage"
    ensures r == Some(Fixed) <==> s == "fixed"
  {
    if s == "percentage" then Some(Percentage) else if s == "fixed" then Some(Fixed) else None
  }

  datatype OfferScope = ProductScope | CategoryScope

  function ParseScope(s: string): (r: Option<OfferScope>)
    ensures r == Some(ProductScope) <==> s == "product"
    ensures r == Some(CategoryScope) <==> s == "category"
  {
    if s == "product" then Some(ProductScope) else if s == "category" then Some(CategoryScope) else None
  }

  datatype Offer = Offer(
    id: OfferId,
    name: string,
    discountType: DiscountType,
    discountValue: real,
    scope: Option<OfferScope>,
    productId: Option<ProductId>,
    categoryId: Option<CategoryId>,
    startDate: Time,
    endDate: Time,
    expiresAt: Time)

  /**
   * A new offer document.  `expiresAt` defaults to the end date, so the TTL
   * index removes the offer exactly when its end date has passed; the target
   * id is kept only for the matching scope.
   */
  function NewOffer(id: OfferId, name: string, discountType: DiscountType, discountValue: real,
                    scope: Option<OfferScope>, productId: ProductId, categoryId: CategoryId,
                    startDate: Time, endDate: Time): (o: Offer)
    ensures forall now :: Expired(Some(o.expiresAt), now) <==> endDate <= now
    ensures o.productId.Some? <==> scope == Some(ProductScope)
    ensures o.categoryId.Some? <==> scope == Some(CategoryScope)
  {
    Offer(id, name, discountType, discountValue, scope,
          if scope == Some(ProductScope) then Some(productId) else None,
          if scope == Some(CategoryScope) then Some(categoryId) else None,
          startDate, endDate, endDate)
  }

  // ----------------------------------------------------------------- users

  /** An address-book entry; `pincode` is stored as a number. */
  datatype Address = Address(
    id: AddressId,
    houseName: string,
    street: Option<string>,
    country: string,
    state: string,
    district: string,
    city: string,
    houseNumber: Option<int>,
    landmark: Option<string>,
    pincode: nat)

  /** A user document. */
  class User {
    const id: UserId
    const email: string
    var name: Option<string>
    var address: seq<Address>
    var role: string
    var isDeleted: bool
    var isValid: bool

    /** A new user: role "user", not banned, not verified, no addresses. */
    constructor (id: UserId, email: string, name: Option<string>)
      ensures this.id == id && this.email == email && this.name == name
      ensures role == "user" && !isDeleted && !isValid && address == []
    {
      this.id := id;
      this.email := email;
      this.name := name;
      address := [];
      role := "user";
      isDeleted := false;
      isValid := false;
    }
  }
}

=== FILE: offers.dfy ===
/**
 * The offer engine (controllers/admin/offerController.js): discounts, and
 * the per-product history of offers kept as an insertion-ordered map from
 * offer id (or 'first') to the price that offer gave.
 */
module Offers {
  import opened Wrappers
  import opened Models
  import Pricing

  type History = seq<(HistoryKey, HistoryEntry)>

  // ------------------------------------------------------- the history map

  function Keys(h: History): set<HistoryKey> {
    if |h| == 0 then {} else {h[0].0} + Keys(h[1..])
  }

  lemma {:induction false} KeyAt(h: History, i: nat)
    requires i < |h|
    ensures h[i].0 in Keys(h)
  {
    if i > 0 {
      KeyAt(h[1..], i - 1);
    }
  }

  /** A map has each key at most once. */
  predicate KeysUnique(h: History) {
    forall i, j :: 0 <= i < j < |h| ==> h[i].0 != h[j].0
  }

  lemma {:induction false} KeysUniqueHead(h: History)
    requires KeysUnique(h) && |h| > 0
    ensures h[0].0 !in Keys(h[1..]) && KeysUnique(h[1..])
  {
    if h[0].0 in Keys(h[1..]) {
      var i := KeyIndex(h[1..], h[0].0);
    }
  }

  lemma {:induction false} KeyIndex(h: History, k: HistoryKey) returns (i: nat)
    requires k in Keys(h)
    ensures i < |h| && h[i].0 == k
  {
    if h[0].0 == k {
      i := 0;
    } else {
      var j := KeyIndex(h[1..], k);
      i := j + 1;
    }
  }

  /** `map.get(k)`. */
  function Get(h: History, k: HistoryKey): (r: Option<HistoryEntry>)
    ensures r.Some? <==> k in Keys(h)
  {
    if |h| == 0 then None
    else if h[0].0 == k then Some(h[0].1)
    else
      Get(h[1..], k)
  }

  /** `map.set(k, v)`: an existing key keeps its position, a new key goes last. */
  function Set(h: History, k: HistoryKey, v: HistoryEntry): (r: History)
    ensures Keys(r) == Keys(h) + {k}
    ensures k !in Keys(h) ==> r == h + [(k, v)]
    ensures k in Keys(h) ==> |r| == |h|
    ensures Get(r, k) == Some(v)
    ensures forall j :: j != k ==> Get(r, j) == Get(h, j)
    ensures KeysUnique(h) ==> KeysUnique(r)
  {
    if |h| == 0 then
      [(k, v)]
    else
      if h[0].0 == k then
        assert h[1..] == ([(k, v)] + h[1..])[1..];
        [(k, v)] + h[1..]
      else
        var rest := Set(h[1..], k, v);
        var r := [h[0]] + rest;
        assert r[1..] == rest;
        assert k !in Keys(h) ==> r == h + [(k, v)] by {
          if k !in Keys(h) {
            assert h == [h[0]] + h[1..];
          }
        }
        assert KeysUnique(h) ==> KeysUnique(r) by {
          if KeysUnique(h) {
            KeysUniqueHead(h);
            forall j | 0 < j < |r| ensures r[0].0 != r[j].0 {
              KeyAt(rest, j - 1);
            }
          }
        }
        r
  }

  /** `map.delete(k)`: the other entries stay, in order. */
  function Delete(h: History, k: HistoryKey): (r: History)
    ensures Keys(r) == Keys(h) - {k}
    ensures k !in Keys(h) ==> r == h
    ensures forall j :: j != k ==> Get(r, j) == Get(h, j)
    ensures KeysUnique(h) ==> KeysUnique(r)
    ensures |r| <= |h|
  {
    if |h| == 0 then h
    else
      var rest := Delete(h[1..], k);
      if h[0].0 == k then rest
      else
        var r := [h[0]] + rest;
        assert r[1..] == rest;
        assert k !in Keys(h) ==> r == h by {
          if k !in Keys(h) {
            assert h == [h[0]] + h[1..];
          }
        }
        assert KeysUnique(h) ==> KeysUnique(r) by {
          if KeysUnique(h) {
            KeysUniqueHead(h);
            forall j | 0 < j < |r| ensures r[0].0 != r[j].0 {
              KeyAt(rest, j - 1);
            }
          }
        }
        r
  }

  /** Deleting a key just set, that was not there before, gives back the map. */
  lemma {:induction false} DeleteUndoesSet(h: History, k: HistoryKey, v: HistoryEntry)
    requires k !in Keys(h)
    ensures Delete(Set(h, k, v), k) == h
  {
    DeleteAppend(h, k, v);
  }

  lemma {:induction false} DeleteAppend(h: History, k: HistoryKey, v: HistoryEntry)
    requires k !in Keys(h)
    ensures Delete(h + [(k, v)], k) == h
  {
    if |h| > 0 {
      DeleteAppend(h[1..], k, v);
      assert (h + [(k, v)])[1..] == h[1..] + [(k, v)];
      assert h == [h[0]] + h[1..];
    } else {
      assert Delete([], k) == [];
    }
  }

  /** `Array.from(map.values()).pop()`: the value of the last entry. */
  function LastValue(h: History): (r: Option<HistoryEntry>)
    ensures r.Some? <==> |h| > 0
    ensures r.Some? ==> r.value == h[|h| - 1].1 && exists k :: 0 <= k < |h| && h[k].1 == r.value
  {
    if |h| == 0 then None else Some(h[|h| - 1].1)
  }

  // ------------------------------------------------------------- discounts

  /** The amount taken off: `price * v / 100` for a percentage, `v` for a fixed offer. */
  function Discount(dt: DiscountType, price: real, v: real): (d: real)
    ensures dt == Percentage && 0.0 <= v <= 100.0 && price >= 0.0 ==> 0.0 <= d <= price
    ensures dt == Fixed ==> d == v
  {
    match dt
    case Percentage =>
      PercentOfPrice(price, v);
      (price * v) / 100.0
    case Fixed => v
  }

  lemma PercentOfPrice(price: real, v: real)
    ensures 0.0 <= v <= 100.0 && price >= 0.0 ==> 0.0 <= (price * v) / 100.0 <= price
  {
    if 0.0 <= v <= 100.0 && price >= 0.0 {
      Pricing.RealMulNonNegative(price, v);
      Pricing.RealMulNonNegative(price, 100.0 - v);
    }
  }

  /** The history entry of a new offer: its rule and the price it gives. */
  function OfferEntry(dt: DiscountType, v: int, price: real): HistoryEntry {
    HistoryEntry(Some(dt), Some(v as real), Some(price - Discount(dt, price, v as real)))
  }

  /**
   * A product-scope offer on one product.  With no history yet the history
   * becomes {'first' ↦ the current offer price} and holds no entry for the
   * new offer; otherwise the new offer's entry is set.  The offer price
   * becomes price − discount either way.
   */
  function ApplyProductOffer(p: Product, id: OfferId, dt: DiscountType, v: int): (r: Product)
    ensures r.offerPrice == Some(p.price - Discount(dt, p.price, v as real))
    ensures p.offerHistory.None? ==> r.offerHistory == Some([(First, HistoryEntry(None, None, p.offerPrice))])
    ensures p.offerHistory.Some? ==> r.offerHistory == Some(Set(p.offerHistory.value, OfferKey(id), OfferEntry(dt, v, p.price)))
    ensures r.(offerPrice := p.offerPrice, offerHistory := p.offerHistory) == p
  {
    var price := p.price - Discount(dt, p.price, v as real);
    var history := if p.offerHistory.None? then [(First, HistoryEntry(None, None, p.offerPrice))]
                   else Set(p.offerHistory.value, OfferKey(id), OfferEntry(dt, v, p.price));
    p.(offerHistory := Some(history), offerPrice := Some(price))
  }

  /** A category-scope offer on one product: the offer's entry is set (in a new map if needed) and the price lowered. */
  function ApplyCategoryOfferEntry(p: Product, id: OfferId, dt: DiscountType, v: int): (r: Product)
    ensures r.offerPrice == Some(p.price - Discount(dt, p.price, v as real))
    ensures r.offerHistory.Some? && Get(r.offerHistory.value, OfferKey(id)) == Some(OfferEntry(dt, v, p.price))
    ensures r.(offerPrice := p.offerPrice, offerHistory := p.offerHistory) == p
  {
    var history := Set(if p.offerHistory.None? then [] else p.offerHistory.value, OfferKey(id), OfferEntry(dt, v, p.price));
    p.(offerHistory := Some(history), offerPrice := Some(p.price - Discount(dt, p.price, v as real)))
  }

  /**
   * Deleting offer `id` from one product: when its history has the offer,
   * the entry is removed and the offer price becomes the last remaining
   * entry's price, or the base price when none remain; otherwise nothing
   * changes.
   */
  function RevertOffer(p: Product, id: OfferId): (r: Product)
    ensures p.offerHistory.None? || OfferKey(id) !in Keys(p.offerHistory.value) ==> r == p
    ensures p.offerHistory.Some? && OfferKey(id) in Keys(p.offerHistory.value) ==>
              var h := Delete(p.offerHistory.value, OfferKey(id));
              && r.offerHistory == Some(h)
              && OfferKey(id) !in Keys(h)
              && r.offerPrice == (if |h| > 0 then h[|h| - 1].1.price else Some(p.price))
    ensures r.(offerPrice := p.offerPrice, offerHistory := p.offerHistory) == p
  {
    if p.offerHistory.Some? && OfferKey(id) in Keys(p.offerHistory.value) then
      var h := Delete(p.offerHistory.value, OfferKey(id));
      var last := LastValue(h);
      p.(offerHistory := Some(h), offerPrice := if last.Some? then last.value.price else Some(p.price))
    else p
  }

  /** The offer price agrees with the last entry of the history. */
  predicate Consistent(p: Product) {
    p.offerHistory.Some? && |p.offerHistory.value| > 0
    && p.offerHistory.value[|p.offerHistory.value| - 1].1.price == p.offerPrice
  }

  /** Creating a product offer and deleting it restores a product whose price agrees with its history. */
  lemma ProductOfferRoundTrip(p: Product, id: OfferId, dt: DiscountType, v: int)
    requires Consistent(p) && OfferKey(id) !in Keys(p.offerHistory.value)
    ensures RevertOffer(ApplyProductOffer(p, id, dt, v), id) == p
  {
    DeleteUndoesSet(p.offerHistory.value, OfferKey(id), OfferEntry(dt, v, p.price));
  }

  /** A new product offer leaves the product consistent when it already had a history. */
  lemma ProductOfferKeepsConsistent(p: Product, id: OfferId, dt: DiscountType, v: int)
    requires p.offerHistory.Some? && OfferKey(id) !in Keys(p.offerHistory.value)
    ensures Consistent(ApplyProductOffer(p, id, dt, v))
  {
  }

  /**
   * The first product offer on a product is never undone: no entry is
   * recorded for it, so deleting it leaves the discounted price in place.
   */
  lemma FirstProductOfferNotUndone(p: Product, id: OfferId, dt: DiscountType, v: int)
    requires p.offerHistory.None?
    ensures RevertOffer(ApplyProductOffer(p, id, dt, v), id) == ApplyProductOffer(p, id, dt, v)
  {
  }

  /**
   * A category offer on a product with no history, once deleted, sets the
   * offer price to the base price, whatever offer price the product had before.
   */
  lemma CategoryOfferRevertsToBasePrice(p: Product, id: OfferId, dt: DiscountType, v: int)
    requires p.offerHistory.None?
    ensures RevertOffer(ApplyCategoryOfferEntry(p, id, dt, v), id).offerPrice == Some(p.price)
  {
    DeleteUndoesSet([], OfferKey(id), OfferEntry(dt, v, p.price));
  }

  // ------------------------------------------------------------- handlers

  /** The per-product loop over the products of category `cid`: each takes `f`, every other product is unchanged. */
  method ForCategory(catalogue: array<Product>, cid: Option<CategoryId>, f: Product -> Product)
    modifies catalogue
    ensures forall k :: 0 <= k < catalogue.Length ==>
              catalogue[k] == if old(catalogue[k]).category == cid then f(old(catalogue[k])) else old(catalogue[k])
  {
    var i := 0;
    while i < catalogue.Length
      invariant 0 <= i <= catalogue.Length
      invariant forall k :: 0 <= k < i ==>
                  catalogue[k] == if old(catalogue[k]).category == cid then f(old(catalogue[k])) else old(catalogue[k])
      invariant forall k :: i <= k < catalogue.Length ==> catalogue[k] == old(catalogue[k])
    {
      if catalogue[i].category == cid {
        catalogue[i] := f(catalogue[i]);
      }
      i := i + 1;
    }
  }

  /** `type === 'product' ? productId : null` and its category twin, from a scope string. */
  function ScopeOf(typ: Option<string>): (r: Option<Option<OfferScope>>)
    ensures typ.None? ==> r == Some(None)
    ensures typ.Some? ==> (r.Some? <==> typ.value == "product" || typ.value == "category")
    ensures r.Some? && r.value.Some? ==> typ == Some(if r.value.value == ProductScope then "product" else "category")
  {
    if typ.None? then Some(None)
    else
      var s := ParseScope(typ.value);
      if s.None? then None else Some(s)
  }

  /**
   * `createOffer`.  A discount type or a scope outside its enum fails
   * validation: 500 and no change.  Otherwise the offer is created; a
   * product offer is applied to the product found (if any), a category offer
   * to every product of the category; no other product changes.
   */
  method CreateOffer(id: OfferId, name: string, typ: Option<string>, productId: ProductId, categoryId: CategoryId,
                     discountType: string, v: int, startDate: Time, endDate: Time,
                     catalogue: array<Product>, productIndex: Option<nat>) returns (status: int, offer: Option<Offer>)
    requires productIndex.Some? ==> productIndex.value < catalogue.Length && catalogue[productIndex.value].id == productId
    modifies catalogue
    ensures ParseDiscountType(discountType).None? || ScopeOf(typ).None? ==>
              status == 500 && offer.None? && catalogue[..] == old(catalogue[..])
    ensures ParseDiscountType(discountType).Some? && ScopeOf(typ).Some? ==>
              var dt := ParseDiscountType(discountType).value;
              var scope := ScopeOf(typ).value;
              && status == 200
              && offer == Some(NewOffer(id, name, dt, v as real, scope, productId, categoryId, startDate, endDate))
              && (scope == Some(ProductScope) ==>
                    forall k :: 0 <= k < catalogue.Length ==>
                      catalogue[k] == if productIndex == Some(k) then ApplyProductOffer(old(catalogue[k]), id, dt, v) else old(catalogue[k]))
              && (scope == Some(CategoryScope) ==>
                    forall k :: 0 <= k < catalogue.Length ==>
                      catalogue[k] == if old(catalogue[k]).category == Some(categoryId)
                                      then ApplyCategoryOfferEntry(old(catalogue[k]), id, dt, v) else old(catalogue[k]))
              && (scope.None? ==> catalogue[..] == old(catalogue[..]))
  {
    var dt := ParseDiscountType(discountType);
    var scope := ScopeOf(typ);
    if dt.None? || scope.None? {
      return 500, None;
    }
    offer := Some(NewOffer(id, name, dt.value, v as real, scope.value, productId, categoryId, startDate, endDate));
    status := 200;
    if scope.value == Some(ProductScope) {
      if productIndex.Some? {
        var i := productIndex.value;
        catalogue[i] := ApplyProductOffer(catalogue[i], id, dt.value, v);
      }
    } else if scope.value == Some(CategoryScope) {
      ForCategory(catalogue, Some(categoryId), p => ApplyCategoryOfferEntry(p, id, dt.value, v));
    }
  }

  /**
   * The price `updateOffer` sets: `price * (1 - v / 100)` for a percentage,
   * `price - v` for a fixed offer, nothing for any other type.  For a valid
   * type it is the same price a new offer would give.
   */
  function UpdatedPrice(discountType: string, price: real, v: real): (r: Option<real>)
    ensures ParseDiscountType(discountType).None? ==> r.None?
    ensures ParseDiscountType(discountType).Some? ==>
              r == Some(price - Discount(ParseDiscountType(discountType).value, price, v))
  {
    if discountType == "percentage" then Some(price * (1.0 - v / 100.0))
    else if discountType == "fixed" then Some(price - v)
    else None
  }

  /** `updateOffer` on one product: the previous offer price is recorded under the offer id, then the new price set. */
  function UpdateProductOffer(p: Product, id: OfferId, discountType: string, v: real): (r: Product)
    ensures r.offerHistory.Some?
    ensures Get(r.offerHistory.value, OfferKey(id)) == Some(HistoryEntry(ParseDiscountType(discountType), Some(v), p.offerPrice))
    ensures r.offerPrice == UpdatedPrice(discountType, p.price, v)
    ensures r.(offerPrice := p.offerPrice, offerHistory := p.offerHistory) == p
  {
    var entry := HistoryEntry(ParseDiscountType(discountType), Some(v), p.offerPrice);
    p.(offerHistory := Some(Set(if p.offerHistory.None? then [] else p.offerHistory.value, OfferKey(id), entry)),
       offerPrice := UpdatedPrice(discountType, p.price, v))
  }

  /**
   * `updateOffer`.  404 and no change for an unknown offer.  Otherwise the
   * product found (product scope) or every product of the category
   * (category scope) records its previous price under the offer's id and
   * takes the new price; no other product changes.
   */
  method UpdateOffer(existing: Option<Offer>, typ: Option<string>, categoryId: CategoryId, discountType: string, v: real,
                     catalogue: array<Product>, productIndex: Option<nat>) returns (status: int)
    requires productIndex.Some? ==> productIndex.value < catalogue.Length
    modifies catalogue
    ensures existing.None? ==> status == 404 && catalogue[..] == old(catalogue[..])
    ensures existing.Some? ==> status == 200
    ensures existing.Some? ==>
              forall k :: 0 <= k < catalogue.Length ==>
                catalogue[k] == if (typ == Some("product") && productIndex == Some(k))
                                   || (typ == Some("category") && old(catalogue[k]).category == Some(categoryId))
                                then UpdateProductOffer(old(catalogue[k]), existing.value.id, discountType, v)
                                else old(catalogue[k])
  {
    if existing.None? {
      return 404;
    }
    var id := existing.value.id;
    if typ == Some("product") {
      if productIndex.Some? {
        var i := productIndex.value;
        catalogue[i] := UpdateProductOffer(catalogue[i], id, discountType, v);
      }
    } else if typ == Some("category") {
      ForCategory(catalogue, Some(categoryId), p => UpdateProductOffer(p, id, discountType, v));
    }
    status := 200;
  }

  /**
   * The offer record `updateOffer` writes: every submitted field, but
   * `expiresAt` is only a creation default and keeps its old value.
   */
  function RewriteOffer(o: Offer, name: string, scope: Option<OfferScope>, productId: ProductId, categoryId: CategoryId,
                        dt: DiscountType, v: int, startDate: Time, endDate: Time): (r: Offer)
    ensures r.id == o.id && r.expiresAt == o.expiresAt && r.endDate == endDate
    ensures r.productId.Some? <==> scope == Some(ProductScope)
    ensures r.categoryId.Some? <==> scope == Some(CategoryScope)
  {
    Offer(o.id, name, dt, v as real, scope,
          if scope == Some(ProductScope) then Some(productId) else None,
          if scope == Some(CategoryScope) then Some(categoryId) else None,
          startDate, endDate, o.expiresAt)
  }

  /** Moving an offer's end date does not move its expiry: it is still removed at the original end date. */
  lemma RewrittenOfferExpiresAtOriginalEnd(o: Offer, name: string, scope: Option<OfferScope>, productId: ProductId,
                                           categoryId: CategoryId, dt: DiscountType, v: int, startDate: Time, endDate: Time, now: Time)
    requires o.expiresAt == o.endDate
    ensures var r := RewriteOffer(o, name, scope, productId, categoryId, dt, v, startDate, endDate);
            Expired(Some(r.expiresAt), now) <==> o.endDate <= now
  {
  }

  /**
   * `deleteOffer`.  404 and no change for an unknown offer.  Otherwise the
   * offer's product (product scope) or the products of its category
   * (category scope) drop the offer from their history and fall back to the
   * last remaining price; products without the offer in their history, and
   * all other products, are unchanged.
   */
  method DeleteOffer(offer: Option<Offer>, catalogue: array<Product>, productIndex: Option<nat>) returns (status: int)
    requires productIndex.Some? ==> productIndex.value < catalogue.Length
    requires offer.Some? && productIndex.Some? ==> offer.value.productId == Some(catalogue[productIndex.value].id)
    modifies catalogue
    ensures offer.None? ==> status == 404 && catalogue[..] == old(catalogue[..])
    ensures offer.Some? ==>
              status == 200 &&
              forall k :: 0 <= k < catalogue.Length ==>
                catalogue[k] == if (offer.value.scope == Some(ProductScope) && productIndex == Some(k))
                                   || (offer.value.scope == Some(CategoryScope) && old(catalogue[k]).category == offer.value.categoryId)
                                then RevertOffer(old(catalogue[k]), offer.value.id)
                                else old(catalogue[k])
  {
    if offer.None? {
      return 404;
    }
    var o := offer.value;
    if o.scope == Some(ProductScope) {
      if productIndex.Some? {
        var i := productIndex.value;
        catalogue[i] := RevertOffer(catalogue[i], o.id);
      }
    } else if o.scope == Some(CategoryScope) {
      ForCategory(catalogue, o.categoryId, p => RevertOffer(p, o.id));
    }
    status := 200;
  }

  // ------------------------------------- as written: `prevOfferPrice` a Number
  //
  // The schema declares `prevOfferPrice` as one Number.  Assigning a Map or
  // a plain object to it fails the cast without throwing: the field keeps
  // its old value and the document records a cast error that makes its
  // save fail.  The handlers below are the code as it then behaves; the
  // handlers above are the evident intent, a history map beside the number.

  /** `!product.prevOfferPrice` is false: the stored number is present and not 0. */
  predicate PrevTruthy(p: Product) {
    p.prevOfferPrice.Some? && p.prevOfferPrice.value != 0.0
  }

  /** Some product of the catalogue belongs to category `cid`. */
  predicate HasProductIn(catalogue: seq<Product>, cid: CategoryId) {
    exists k :: 0 <= k < |catalogue| && catalogue[k].category == Some(cid)
  }

  /**
   * `createOffer` as it runs: after the offer is created, the first product
   * it reaches calls `.set` on the field, which holds `undefined` or a
   * number, and throws before anything is saved.  So the reply is 500
   * whenever the offer reaches a product, and no product ever changes.
   */
  function CreateOfferAsWritten(id: OfferId, name: string, typ: Option<string>, productId: ProductId,
                                categoryId: CategoryId, discountType: string, v: int, startDate: Time, endDate: Time,
                                catalogue: seq<Product>, productIndex: Option<nat>)
    : (r: (int, Option<Offer>, seq<Product>))
    ensures r.2 == catalogue
    ensures ParseDiscountType(discountType).None? || ScopeOf(typ).None? ==> r.0 == 500 && r.1.None?
    ensures ParseDiscountType(discountType).Some? && ScopeOf(typ).Some? ==>
              var scope := ScopeOf(typ).value;
              && r.1 == Some(NewOffer(id, name, ParseDiscountType(discountType).value, v as real, scope,
                                      productId, categoryId, startDate, endDate))
              && (r.0 == 500 <==> (scope == Some(ProductScope) && productIndex.Some?)
                                  || (scope == Some(CategoryScope) && HasProductIn(catalogue, categoryId)))
              && (r.0 != 500 ==> r.0 == 200)
  {
    var dt := ParseDiscountType(discountType);
    var scope := ScopeOf(typ);
    if dt.None? || scope.None? then (500, None, catalogue)
    else
      var offer := NewOffer(id, name, dt.value, v as real, scope.value, productId, categoryId, startDate, endDate);
      var throws := (scope.value == Some(ProductScope) && productIndex.Some?)
                    || (scope.value == Some(CategoryScope) && HasProductIn(catalogue, categoryId));
      (if throws then 500 else 200, Some(offer), catalogue)
  }

  /**
   * A percentage offer on a product whose price it would lower: as written
   * the reply is 500 and the product keeps its price, where the intended
   * handler gives it the discounted price.
   */
  lemma CreateOfferNeverApplies(p: Product, id: OfferId, v: int)
    requires p.offerPrice != Some(p.price - Discount(Percentage, p.price, v as real))
    ensures var r := CreateOfferAsWritten(id, "sale", Some("product"), p.id, 0, "percentage", v, 0, 1, [p], Some(0));
            r.0 == 500 && r.2[0] == p && r.2[0].offerPrice != ApplyProductOffer(p, id, Percentage, v).offerPrice
  {
    assert ParseScope("product") == Some(ProductScope);
  }

  /** The one change `updateOffer` manages on a product as it runs: the new offer price, history untouched. */
  function Repriced(p: Product, discountType: string, v: real): (r: Product)
    ensures r.offerPrice == UpdatedPrice(discountType, p.price, v)
    ensures r.(offerPrice := p.offerPrice) == p
  {
    p.(offerPrice := UpdatedPrice(discountType, p.price, v))
  }

  /**
   * Position of the first product of category `cid` whose `prevOfferPrice`
   * is not truthy, or `|ps|` when there is none.
   */
  function FirstFailing(ps: seq<Product>, cid: CategoryId): (n: nat)
    ensures n <= |ps|
    ensures forall k :: 0 <= k < n && ps[k].category == Some(cid) ==> PrevTruthy(ps[k])
    ensures n < |ps| ==> ps[n].category == Some(cid) && !PrevTruthy(ps[n])
  {
    if |ps| == 0 then 0
    else if ps[0].category == Some(cid) && !PrevTruthy(ps[0]) then 0
    else 1 + FirstFailing(ps[1..], cid)
  }

  /**
   * The category loop of `updateOffer` as it runs, over the products in
   * stored order: each product of category `cid` takes the new price until
   * the first one without a truthy `prevOfferPrice`, which fails (the
   * property write on `undefined` throws, or the save of a recorded cast
   * error is refused); that one and those after it are unchanged.
   */
  function UpdateCategoryAsWritten(ps: seq<Product>, cid: CategoryId, discountType: string, v: real)
    : (r: (bool, seq<Product>))
    ensures |r.1| == |ps|
    ensures r.0 <==> FirstFailing(ps, cid) == |ps|
    ensures forall k :: 0 <= k < |ps| ==>
              r.1[k] == if k < FirstFailing(ps, cid) && ps[k].category == Some(cid)
                        then Repriced(ps[k], discountType, v) else ps[k]
    decreases |ps|
  {
    if |ps| == 0 then (true, [])
    else if ps[0].category == Some(cid) && !PrevTruthy(ps[0]) then (false, ps)
    else
      var rest := UpdateCategoryAsWritten(ps[1..], cid, discountType, v);
      var head := if ps[0].category == Some(cid) then Repriced(ps[0], discountType, v) else ps[0];
      assert forall k :: 1 <= k < |ps| ==> ps[1..][k - 1] == ps[k];
      (rest.0, [head] + rest.1)
  }

  /**
   * `updateOffer` as it runs: 404 for an unknown offer; for a product offer
   * the product found takes the new price when its `prevOfferPrice` is
   * truthy and fails with 500 otherwise; for a category offer see
   * `UpdateCategoryAsWritten`.  No history entry is ever recorded.
   */
  function UpdateOfferAsWritten(existing: Option<Offer>, typ: Option<string>, categoryId: CategoryId,
                                discountType: string, v: real, catalogue: seq<Product>, productIndex: Option<nat>)
    : (r: (int, seq<Product>))
    requires productIndex.Some? ==> productIndex.value < |catalogue|
    ensures |r.1| == |catalogue|
    ensures existing.None? ==> r == (404, catalogue)
    ensures forall k :: 0 <= k < |catalogue| ==> r.1[k].offerHistory == catalogue[k].offerHistory
    ensures existing.Some? && typ == Some("product") && productIndex.Some? ==>
              var p := catalogue[productIndex.value];
              if PrevTruthy(p) then r == (200, catalogue[productIndex.value := Repriced(p, discountType, v)])
              else r == (500, catalogue)
    ensures existing.Some? && typ == Some("category") ==>
              var loop := UpdateCategoryAsWritten(catalogue, categoryId, discountType, v);
              r == (if loop.0 then 200 else 500, loop.1)
  {
    if existing.None? then (404, catalogue)
    else if typ == Some("product") && productIndex.Some? then
      var i := productIndex.value;
      if PrevTruthy(catalogue[i]) then (200, catalogue[i := Repriced(catalogue[i], discountType, v)]) else (500, catalogue)
    else if typ == Some("category") then
      var loop := UpdateCategoryAsWritten(catalogue, categoryId, discountType, v);
      (if loop.0 then 200 else 500, loop.1)
    else (200, catalogue)
  }

  /**
   * A product with no `prevOfferPrice`: as written its offer update fails
   * with 500 and the product keeps its price, where the intended handler
   * records the previous price under the offer's id.
   */
  lemma UpdateOfferFailsWithoutPrevious(o: Offer, p: Product, v: real)
    requires p.prevOfferPrice.None?
    ensures UpdateOfferAsWritten(Some(o), Some("product"), 0, "fixed", v, [p], Some(0)) == (500, [p])
    ensures Get(UpdateProductOffer(p, o.id, "fixed", v).offerHistory.value, OfferKey(o.id)).Some?
  {
  }

  /**
   * `deleteOffer` as it runs: a product the offer reaches whose
   * `prevOfferPrice` is truthy gets `.has` called on a number, which
   * throws: 500 and the offer is kept.  Products without one are skipped.
   * No product ever changes; the offer is deleted when nothing throws.
   */
  function DeleteOfferAsWritten(offer: Option<Offer>, catalogue: seq<Product>, productIndex: Option<nat>)
    : (r: (int, seq<Product>))
    requires productIndex.Some? ==> productIndex.value < |catalogue|
    ensures r.1 == catalogue
    ensures offer.None? ==> r.0 == 404
    ensures offer.Some? ==>
              (r.0 == 500 <==> (offer.value.scope == Some(ProductScope) && productIndex.Some?
                                && PrevTruthy(catalogue[productIndex.value]))
                               || (offer.value.scope == Some(CategoryScope)
                                   && exists k :: 0 <= k < |catalogue| && catalogue[k].category == offer.value.categoryId
                                                  && PrevTruthy(catalogue[k])))
              && (r.0 != 500 ==> r.0 == 200)
  {
    if offer.None? then (404, catalogue)
    else
      var o := offer.value;
      var throws := (o.scope == Some(ProductScope) && productIndex.Some? && PrevTruthy(catalogue[productIndex.value]))
                    || (o.scope == Some(CategoryScope)
                        && exists k :: 0 <= k < |catalogue| && catalogue[k].category == o.categoryId && PrevTruthy(catalogue[k]));
      (if throws then 500 else 200, catalogue)
  }

  /**
   * Deleting a product offer from a product a category offer has touched
   * (its `prevOfferPrice` is a non-zero number) fails with 500 as written,
   * and in no case does the handler revert a product, where the intended
   * handler drops the offer's history entry.
   */
  lemma DeleteOfferNeverReverts(o: Offer, p: Product)
    requires o.scope == Some(ProductScope)
    requires p.offerHistory.Some? && OfferKey(o.id) in Keys(p.offerHistory.value)
    ensures PrevTruthy(p) ==> DeleteOfferAsWritten(Some(o), [p], Some(0)).0 == 500
    ensures DeleteOfferAsWritten(Some(o), [p], Some(0)).1 == [p]
    ensures RevertOffer(p, o.id) != p
  {
    var h := Delete(p.offerHistory.value, OfferKey(o.id));
    assert OfferKey(o.id) !in Keys(h);
  }
}

=== FILE: orders.dfy ===
/**
 * Checkout, confirmation and user cancellation of an order
 * (controllers/user/orderCheckController.js).
 */
module Orders {
  import opened Wrappers
  import opened Models
  import opened Pricing
  import Carts

  // -------------------------------------------------------------- checkout

  /** A populated product as checkout reads it. */
  datatype CheckoutProduct = CheckoutProduct(price: real, offerPrice: Option<real>, cashOnDelivery: bool)

  /** An order item with its product, absent when the product no longer exists. */
  datatype CheckoutLine = CheckoutLine(product: Option<CheckoutProduct>, quantity: int)

  /** What the checkout page shows. */
  datatype CheckoutView = CheckoutView(
    hasOrder: bool,
    subtotal: real,
    shipping: real,
    totalAmount: real,
    offerTotal: real,
    mrp: real,
    condition: bool)

  /** `offerPrice || price`: the offer price unless it is missing or 0. */
  function UnitPrice(p: CheckoutProduct): (r: real)
    ensures r == p.price || (p.offerPrice == Some(r) && r != 0.0)
    ensures p.offerPrice.None? || p.offerPrice == Some(0.0) ==> r == p.price
  {
    if p.offerPrice.Some? && p.offerPrice.value != 0.0 then p.offerPrice.value else p.price
  }

  function LineSubtotal(l: CheckoutLine): real {
    if l.product.Some? then UnitPrice(l.product.value) * l.quantity as real else 0.0
  }

  function LineMrp(l: CheckoutLine): real {
    if l.product.Some? then l.product.value.price * l.quantity as real else 0.0
  }

  /** Σ unit price × quantity over the lines whose product exists. */
  function CheckoutSubtotal(lines: seq<CheckoutLine>): real {
    if |lines| == 0 then 0.0
    else
      CheckoutSubtotal(lines[..|lines| - 1]) + LineSubtotal(lines[|lines| - 1])
  }

  /** Σ price × quantity over the lines whose product exists. */
  function CheckoutMrp(lines: seq<CheckoutLine>): real {
    if |lines| == 0 then 0.0
    else
      CheckoutMrp(lines[..|lines| - 1]) + LineMrp(lines[|lines| - 1])
  }

  /** Cash on delivery is offered when some line's product allows it. */
  predicate CodAvailable(lines: seq<CheckoutLine>) {
    exists k :: 0 <= k < |lines| && lines[k].product.Some? && lines[k].product.value.cashOnDelivery
  }

  /**
   * `checkout`: with no order or no items every figure is 0; otherwise the
   * subtotal, MRP, offer total, strict-band shipping, total and the COD
   * condition over the order's items.
   */
  method Checkout(order: Option<seq<CheckoutLine>>) returns (v: CheckoutView)
    ensures order.None? || |order.value| == 0 ==> v == CheckoutView(false, 0.0, 0.0, 0.0, 0.0, 0.0, false)
    ensures order.Some? && |order.value| > 0 ==>
              && v.hasOrder
              && v.subtotal == CheckoutSubtotal(order.value) && v.mrp == CheckoutMrp(order.value)
              && v.offerTotal == v.mrp - v.subtotal
              && v.shipping == ShippingFee(v.subtotal) && v.totalAmount == v.subtotal + v.shipping
              && (v.condition <==> CodAvailable(order.value))
  {
    if order.None? || |order.value| == 0 {
      return CheckoutView(false, 0.0, 0.0, 0.0, 0.0, 0.0, false);
    }
    var subtotal, mrp := CheckoutTotals(order.value);
    var condition := CodCondition(order.value);
    var offerTotal := mrp - subtotal;
    var shipping := ShippingFee(subtotal);
    v := CheckoutView(true, subtotal, shipping, subtotal + shipping, offerTotal, mrp, condition);
  }

  /** The totals loop of `checkout`. */
  method CheckoutTotals(lines: seq<CheckoutLine>) returns (subtotal: real, mrp: real)
    ensures subtotal == CheckoutSubtotal(lines) && mrp == CheckoutMrp(lines)
  {
    subtotal, mrp := 0.0, 0.0;
    var i := 0;
    while i < |lines|
      invariant i <= |lines|
      invariant subtotal == CheckoutSubtotal(lines[..i]) && mrp == CheckoutMrp(lines[..i])
    {
      assert lines[..i + 1][..i] == lines[..i];
      var product := lines[i].product;
      if product.Some? {
        subtotal := subtotal + UnitPrice(product.value) * lines[i].quantity as real;
        mrp := mrp + product.value.price * lines[i].quantity as real;
      }
      assert subtotal == CheckoutSubtotal(lines[..i]) + LineSubtotal(lines[i]);
      i := i + 1;
    }
    assert lines[..i] == lines;
  }

  /** The cash-on-delivery loop of `checkout`. */
  method CodCondition(lines: seq<CheckoutLine>) returns (condition: bool)
    ensures condition <==> CodAvailable(lines)
  {
    condition := false;
    var i := 0;
    while i < |lines|
      invariant i <= |lines|
      invariant condition <==> exists k :: 0 <= k < i && lines[k].product.Some? && lines[k].product.value.cashOnDelivery
    {
      if lines[i].product.Some? && lines[i].product.value.cashOnDelivery {
        condition := true;
      }
      i := i + 1;
    }
  }

  /** A line is fairly priced when its quantity is not negative and a set offer price lies between 0 and the price. */
  predicate FairLine(l: CheckoutLine) {
    l.product.Some? ==>
      l.quantity >= 0 && l.product.value.price >= 0.0 &&
      (l.product.value.offerPrice.Some? ==> 0.0 <= l.product.value.offerPrice.value <= l.product.value.price)
  }

  lemma FairLineDiscount(l: CheckoutLine)
    requires FairLine(l)
    ensures 0.0 <= LineSubtotal(l) <= LineMrp(l)
  {
    if l.product.Some? {
      var q := l.quantity as real;
      var u := UnitPrice(l.product.value);
      RealMulNonNegative(u, q);
      RealMulNonNegative(l.product.value.price - u, q);
      assert (l.product.value.price - u) * q == l.product.value.price * q - u * q;
    }
  }

  /** When no offer price exceeds its price, the checkout discount is never negative. */
  lemma {:induction false} CheckoutDiscountNonNegative(lines: seq<CheckoutLine>)
    requires forall k :: 0 <= k < |lines| ==> FairLine(lines[k])
    ensures 0.0 <= CheckoutSubtotal(lines) <= CheckoutMrp(lines)
  {
    if |lines| > 0 {
      var n := |lines| - 1;
      assert forall k :: 0 <= k < n ==> lines[..n][k] == lines[k];
      CheckoutDiscountNonNegative(lines[..n]);
      FairLineDiscount(lines[n]);
    }
  }

  /**
   * Checkout line `l` reads draft line `d`: same quantity, the product still
   * exists, and its offer price is the one the draft recorded, set and not
   * 0 (so `offerPrice || price` picks it).
   */
  predicate ReadsDraftLine(d: Carts.DraftLine, l: CheckoutLine) {
    && l.product.Some? && l.quantity == d.quantity
    && d.offerPrice.Some? && d.offerPrice.value != 0.0 && l.product.value.offerPrice == d.offerPrice
  }

  /** Checkout's subtotal over a draft's lines is the draft's item subtotal. */
  lemma {:induction false} CheckoutSubtotalOfDraft(cart: seq<Carts.DraftLine>, lines: seq<CheckoutLine>)
    requires |lines| == |cart|
    requires forall k :: 0 <= k < |cart| ==> ReadsDraftLine(cart[k], lines[k])
    ensures Carts.Priced(cart)
    ensures CheckoutSubtotal(lines) == Carts.ItemsSubtotal(Carts.DraftItems(cart))
  {
    if |cart| > 0 {
      var n := |cart| - 1;
      assert forall k :: 0 <= k < n ==> cart[..n][k] == cart[k] && lines[..n][k] == lines[k];
      CheckoutSubtotalOfDraft(cart[..n], lines[..n]);
      assert Carts.DraftItems(cart)[..n] == Carts.DraftItems(cart[..n]);
      assert UnitPrice(lines[n].product.value) == cart[n].offerPrice.value;
    }
  }

  /**
   * Checking out the order placed from `cart`: on a whole-rupee subtotal
   * the checkout total (subtotal plus the strict-band fee) equals the total
   * the draft recorded with the cart's bands.
   */
  lemma CheckoutTotalMatchesDraft(cart: seq<Carts.DraftLine>, lines: seq<CheckoutLine>, rupees: int)
    requires |lines| == |cart|
    requires forall k :: 0 <= k < |cart| ==> ReadsDraftLine(cart[k], lines[k])
    requires CheckoutSubtotal(lines) == rupees as real
    ensures Carts.Priced(cart)
    ensures var draftSubtotal := Carts.ItemsSubtotal(Carts.DraftItems(cart));
            CheckoutSubtotal(lines) + ShippingFee(CheckoutSubtotal(lines)) == draftSubtotal + CartShipping(draftSubtotal)
  {
    CheckoutSubtotalOfDraft(cart, lines);
    CartShippingOnWholeRupees(rupees);
  }

  // ---------------------------------------------------------- confirmation

  /**
   * The state `done` gives a draft: the address bound, the payment method
   * recorded, status Shipping for every method, payment Completed only for
   * Net Banking (otherwise unchanged), and no expiry; the refund reason,
   * Razorpay ids and coupon are kept.
   */
  function Confirm(s: OrderState, addressId: AddressId, pm: PaymentMethod): (r: OrderState)
    ensures r.status == Shipping && r.addressId == Some(addressId) && r.paymentMethod == pm
    ensures r.expiresAt.None?
    ensures pm == NetBanking ==> r.paymentStatus == PaymentCompleted
    ensures pm != NetBanking ==> r.paymentStatus == s.paymentStatus
    ensures r.(status := s.status, paymentMethod := s.paymentMethod, paymentStatus := s.paymentStatus,
               addressId := s.addressId, expiresAt := s.expiresAt) == s
  {
    s.(status := Shipping, paymentMethod := pm,
       paymentStatus := if pm == NetBanking then PaymentCompleted else s.paymentStatus,
       addressId := Some(addressId), expiresAt := None)
  }

  /** A confirmed order never expires, whatever the clock says. */
  lemma ConfirmedIsPermanent(s: OrderState, addressId: AddressId, pm: PaymentMethod, now: Time)
    ensures !Expired(Confirm(s, addressId, pm).expiresAt, now)
  {
  }

  /** Confirming twice with the same inputs is the same as confirming once. */
  lemma ConfirmIdempotent(s: OrderState, addressId: AddressId, pm: PaymentMethod)
    ensures Confirm(Confirm(s, addressId, pm), addressId, pm) == Confirm(s, addressId, pm)
  {
  }

  /** A fresh draft confirmed with cash on delivery stays payment-pending; with Net Banking it is paid. */
  lemma ConfirmDraft(now: Time, addressId: AddressId, pm: PaymentMethod)
    ensures var draft := OrderState(Pending, CashOnDelivery, PaymentPending, None, Some(now + DraftLifetime), None, None, None, None);
            var c := Confirm(draft, addressId, pm);
            (c.paymentStatus == PaymentCompleted <==> pm == NetBanking)
            && (c.paymentStatus == PaymentPending <==> pm == CashOnDelivery)
  {
  }

  /** Some address of the list carries `id` (`user.address.id(addressId)`). */
  predicate HasAddress(addresses: seq<Address>, id: AddressId) {
    exists k :: 0 <= k < |addresses| && addresses[k].id == id
  }

  /**
   * `done`.  400 when userId or addressId is missing; 404 when the user,
   * the address or the order is missing; 500 with nothing written when the
   * payment method is missing or not in the enum.  Otherwise the order is
   * confirmed and saved; then the cart is emptied, or, with no cart, the
   * reply is 500 after the order was already saved.
   */
  method Done(userId: Option<UserId>, addressId: Option<AddressId>, paymentMethod: Option<string>,
              user: User?, order: Order?, cart: Carts.Cart?) returns (status: int)
    modifies order, cart
    ensures status == 400 <==> userId.None? || addressId.None?
    ensures status == 404 <==> userId.Some? && addressId.Some?
                               && (user == null || !HasAddress(user.address, addressId.value) || order == null)
    ensures var confirmable := userId.Some? && addressId.Some? && user != null && HasAddress(user.address, addressId.value)
                               && order != null && paymentMethod.Some? && ParseMethod(paymentMethod.value).Some?;
            && (order != null && !confirmable ==> order.State() == old(order.State()))
            && (confirmable ==> order.State() == Confirm(old(order.State()), addressId.value, ParseMethod(paymentMethod.value).value))
            && (status == 200 <==> confirmable && cart != null)
            && (cart != null ==> cart.items == if status == 200 then [] else old(cart.items))
    ensures status in {200, 400, 404, 500}
  {
    if userId.None? || addressId.None? {
      return 400;
    }
    if user == null {
      return 404;
    }
    if !HasAddress(user.address, addressId.value) {
      return 404;
    }
    if order == null {
      return 404;
    }
    if paymentMethod.None? {
      return 500;
    }
    var chosen := ParseMethod(paymentMethod.value);
    if chosen.None? {
      return 500;
    }
    order.addressId := addressId;
    order.paymentMethod := chosen.value;
    order.status := Shipping;
    if chosen.value == NetBanking {
      order.paymentStatus := PaymentCompleted;
    }
    order.expiresAt := None;
    if cart == null {
      return 500;
    }
    cart.items := [];
    status := 200;
  }

  // ---------------------------------------------------------- cancellation

  /** The user's cancel: only a Pending order can be cancelled. */
  function UserCancel(s: OrderStatus): (r: Option<OrderStatus>)
    ensures r.Some? <==> s == Pending
    ensures r.Some? ==> r.value == Cancelled
  {
    if s == Pending then Some(Cancelled) else None
  }

  /** Once confirmed, an order can no longer be cancelled by its user. */
  lemma ConfirmedNotUserCancellable(s: OrderState, addressId: AddressId, pm: PaymentMethod)
    ensures UserCancel(Confirm(s, addressId, pm).status).None?
  {
  }

  /**
   * `cancelOrder`: a missing order fails with 500; a Pending order becomes
   * Cancelled; any other status gets 400 and the order is unchanged.
   */
  method CancelOrder(order: Order?) returns (status: int)
    modifies order
    ensures order == null ==> status == 500
    ensures order != null && old(order.status) == Pending ==> status == 200 && order.State() == old(order.State()).(status := Cancelled)
    ensures order != null && old(order.status) != Pending ==> status == 400 && order.State() == old(order.State())
  {
    if order == null {
      return 500;
    }
    var next := UserCancel(order.status);
    if next.Some? {
      order.status := next.value;
      status := 200;
    } else {
      status := 400;
    }
  }
}

=== FILE: paging.dfy ===
/**
 * Pagination arithmetic shared by the storefront and admin lists:
 * `skip = (page - 1) * limit`, `totalPages = Math.ceil(total / limit)`,
 * and JavaScript's `Array.prototype.slice` for in-memory pages.
 */
module Paging {
  import opened Wrappers

  /** `parseInt(q) || d`: an absent, unparsable (NaN) or zero value falls back to `d`. */
  function ParamOr(q: Option<int>, d: int): (r: int)
    ensures q.Some? && q.value != 0 ==> r == q.value
    ensures q.None? || q.value == 0 ==> r == d
  {
    if q.Some? && q.value != 0 then q.value else d
  }

  /** The pagination figures a list handler computes. */
  datatype ListPage = ListPage(page: int, limit: int, skip: int, totalPages: int)

  /**
   * `page = parseInt(q.page) || dPage`, `limit = parseInt(q.limit) || dLimit`,
   * `skip = (page - 1) * limit`, `totalPages = Math.ceil(total / limit)`.
   * The limit is never 0, and for a positive limit `totalPages` pages of
   * `limit` items hold exactly the `total` items with the last page non-empty.
   */
  function Paginate(pageQuery: Option<int>, limitQuery: Option<int>, dPage: int, dLimit: int, total: nat): (r: ListPage)
    requires dLimit != 0
    ensures r.page == ParamOr(pageQuery, dPage) && r.limit == ParamOr(limitQuery, dLimit)
    ensures r.limit != 0 && r.skip == (r.page - 1) * r.limit
    ensures r.limit > 0 ==> (r.totalPages - 1) * r.limit < total <= r.totalPages * r.limit
    ensures r.limit > 0 && total == 0 ==> r.totalPages == 0
  {
    var page := ParamOr(pageQuery, dPage);
    var limit := ParamOr(limitQuery, dLimit);
    ListPage(page, limit, Skip(page, limit), CeilDiv(total, limit))
  }

  /** Number of items before page `page`. */
  function Skip(page: int, limit: int): int {
    (page - 1) * limit
  }

  /** `Math.ceil(n / d)` for a count `n` and a non-zero divisor `d`. */
  function CeilDiv(n: nat, d: int): (r: int)
    requires d != 0
    ensures d > 0 ==> (r - 1) * d < n <= r * d
    ensures d < 0 ==> r * d <= n < (r - 1) * d
  {
    if d > 0 then
      var q, m := (n + d - 1) / d, (n + d - 1) % d;
      assert q * d + m == n + d - 1 && 0 <= m < d;
      assert (q - 1) * d == q * d - d;
      q
    else
      var e := -d;
      var q, m := n / e, n % e;
      assert q * e + m == n && 0 <= m < e;
      assert -q * d == q * e;
      assert (-q - 1) * d == q * e + e;
      -q
  }

  /** Slice's relative index: a negative index counts from the end; the result is clamped to [0, len]. */
  function RelIndex(i: int, len: nat): (k: nat)
    ensures k <= len
    ensures 0 <= i <= len ==> k == i
    ensures i > len ==> k == len
    ensures i < 0 ==> k == if len + i < 0 then 0 else len + i
  {
    if i < 0 then (if len + i < 0 then 0 else len + i) else if i <= len then i else len
  }

  /** `s.slice(start, end)`. */
  function JsSlice<T>(s: seq<T>, start: int, end: int): (r: seq<T>)
    ensures |r| <= |s|
    ensures 0 <= start <= end ==> |r| <= end - start
    ensures 0 <= start ==> forall k :: 0 <= k < |r| ==> start + k < |s| && r[k] == s[start + k]
    ensures 0 <= start < end && start < |s| ==> |r| == (if end <= |s| then end else |s|) - start
  {
    var a, b := RelIndex(start, |s|), RelIndex(end, |s|);
    if a < b then s[a..b] else []
  }

  /** Page `page` of `s`: `s.slice((page - 1) * limit, (page - 1) * limit + limit)`. */
  function PageOf<T>(s: seq<T>, page: int, limit: int): (r: seq<T>)
    ensures page >= 1 && limit >= 0 ==> |r| <= limit
  {
    var off := Skip(page, limit);
    assert page >= 1 && limit >= 0 ==> off >= 0 by {
      if page >= 1 && limit >= 0 { MulNonNegative(page - 1, limit); }
    }
    JsSlice(s, off, off + limit)
  }

  /** Where page `page` starts and ends in a list of length `len`. */
  function PageStart(len: nat, page: int, limit: int): nat {
    RelIndex(Skip(page, limit), len)
  }

  function PageEnd(len: nat, page: int, limit: int): nat {
    var e := RelIndex(Skip(page, limit) + limit, len);
    if e < PageStart(len, page, limit) then PageStart(len, page, limit) else e
  }

  /** Any page is one contiguous run of the list (possibly empty). */
  lemma PageRun<T>(s: seq<T>, page: int, limit: int)
    ensures PageStart(|s|, page, limit) <= PageEnd(|s|, page, limit) <= |s|
    ensures PageOf(s, page, limit) == s[PageStart(|s|, page, limit)..PageEnd(|s|, page, limit)]
  {
    var off := Skip(page, limit);
    assert PageOf(s, page, limit) == JsSlice(s, off, off + limit);
  }

  lemma PageIsSlice<T>(s: seq<T>, page: int, limit: int)
    requires page >= 1 && limit >= 0
    ensures var off := Skip(page, limit);
            var a := if off <= |s| then off else |s|;
            var b := if off + limit <= |s| then off + limit else |s|;
            0 <= off && PageOf(s, page, limit) == s[a..b]
  {
    var off := Skip(page, limit);
    MulNonNegative(page - 1, limit);
    assert PageOf(s, page, limit) == JsSlice(s, off, off + limit);
  }

  lemma MulNonNegative(a: int, b: int)
    requires a >= 0 && b >= 0
    ensures a * b >= 0
  {
  }

  /**
   * Every item lies on exactly the page its index determines, and that page
   * is between 1 and `totalPages`.
   */
  lemma {:induction false} ItemOnPage<T>(s: seq<T>, limit: int, i: int)
    requires limit > 0 && 0 <= i < |s|
    ensures 1 <= i / limit + 1 <= CeilDiv(|s|, limit)
    ensures var page := PageOf(s, i / limit + 1, limit);
            i % limit < |page| && page[i % limit] == s[i]
  {
    var p, k := i / limit + 1, i % limit;
    var off := Skip(p, limit);
    assert off + k == i by { assert (i / limit) * limit + i % limit == i; }
    assert off >= 0 by { MulNonNegative(i / limit, limit); }
    var t := CeilDiv(|s|, limit);
    assert (p - 1) * limit < t * limit;
    MulCancel(p - 1, t, limit);
  }

  lemma MulCancel(a: int, b: int, c: int)
    requires c > 0 && a * c < b * c
    ensures a < b
  {
    if a >= b {
      MulMonotoneInt(b, a, c);
    }
  }

  lemma MulMonotoneInt(a: int, b: int, c: int)
    requires a <= b && c >= 0
    ensures a * c <= b * c
  {
  }

  /** Pages 1 to `totalPages` are all non-empty, and the page after the last is empty. */
  lemma {:induction false} TotalPagesExact<T>(s: seq<T>, limit: int, page: int)
    requires limit > 0 && page >= 1
    ensures page <= CeilDiv(|s|, limit) <==> |PageOf(s, page, limit)| > 0
  {
    var t := CeilDiv(|s|, limit);
    var off := Skip(page, limit);
    MulNonNegative(page - 1, limit);
    if page <= t {
      MulMonotoneInt(page - 1, t - 1, limit);
      assert off < |s|;
    } else {
      MulMonotoneInt(t, page - 1, limit);
      assert off >= |s|;
    }
  }
  function Abs(n: int): nat {
    if n < 0 then -n else n
  }

  /**
   * A query's `.skip(skip).limit(limit)` over the matching documents `s`:
   * the server refuses a negative skip (`None`); a limit of 0 means no limit
   * and a negative limit counts by its magnitude.
   */
  function DbPage<T>(s: seq<T>, skip: int, limit: int): (r: Option<seq<T>>)
    ensures r.None? <==> skip < 0
    ensures r.Some? ==> forall k :: 0 <= k < |r.value| ==> skip + k < |s| && r.value[k] == s[skip + k]
    ensures r.Some? && limit != 0 ==> |r.value| <= Abs(limit)
    ensures r.Some? && skip < |s| ==>
              |r.value| == if limit != 0 && skip + Abs(limit) < |s| then Abs(limit) else |s| - skip
  {
    if skip < 0 then None
    else if skip >= |s| then Some([])
    else if limit != 0 && skip + Abs(limit) < |s| then Some(s[skip..skip + Abs(limit)])
    else Some(s[skip..])
  }

  /** For a positive page and limit, the database page is the in-memory page `PageOf`. */
  lemma DbPageIsPageOf<T>(s: seq<T>, page: int, limit: int)
    requires page >= 1 && limit > 0
    ensures DbPage(s, Skip(page, limit), limit) == Some(PageOf(s, page, limit))
  {
    var off := Skip(page, limit);
    MulNonNegative(page - 1, limit);
    var a, b := RelIndex(off, |s|), RelIndex(off + limit, |s|);
    assert PageOf(s, page, limit) == JsSlice(s, off, off + limit);
    if off >= |s| {
      assert a == |s| && b == |s|;
    } else if off + limit < |s| {
      assert a == off && b == off + limit;
    } else {
      assert a == off && b == |s|;
      assert s[off..] == s[off..|s|];
    }
  }
}

=== FILE: pricing.dfy ===
/**
 * Cart pricing: line sums, the MRP/offer discount and the shipping-fee band
 * table.  The table appears twice in the source with different lower bounds:
 * the cart and draft-order code tests `>= 1001` / `>= 5001`, the checkout
 * page tests `> 1000` / `> 5000`.
 */
module Pricing {

  /** One cart or order line with its populated product prices. */
  datatype PricedLine = PricedLine(price: real, offerPrice: real, quantity: int)

  function OfferAmount(l: PricedLine): real {
    l.offerPrice * l.quantity as real
  }

  function MrpAmount(l: PricedLine): real {
    l.price * l.quantity as real
  }

  /** Σ offerPrice × quantity. */
  function Subtotal(lines: seq<PricedLine>): real {
    if |lines| == 0 then 0.0
    else Subtotal(lines[..|lines| - 1]) + OfferAmount(lines[|lines| - 1])
  }

  /** Σ price × quantity. */
  function Mrp(lines: seq<PricedLine>): real {
    if |lines| == 0 then 0.0
    else Mrp(lines[..|lines| - 1]) + MrpAmount(lines[|lines| - 1])
  }

  /** The subtotal of a concatenation is the sum of the subtotals (so page subtotals add up to the cart's). */
  lemma {:induction false} SubtotalAppend(a: seq<PricedLine>, b: seq<PricedLine>)
    ensures Subtotal(a + b) == Subtotal(a) + Subtotal(b)
  {
    if |b| > 0 {
      SubtotalAppend(a, b[..|b| - 1]);
      assert (a + b)[..|a + b| - 1] == a + b[..|b| - 1];
    } else {
      assert a + b == a;
    }
  }

  /** The MRP of a concatenation is the sum of the MRPs. */
  lemma {:induction false} MrpAppend(a: seq<PricedLine>, b: seq<PricedLine>)
    ensures Mrp(a + b) == Mrp(a) + Mrp(b)
  {
    if |b| > 0 {
      MrpAppend(a, b[..|b| - 1]);
      assert (a + b)[..|a + b| - 1] == a + b[..|b| - 1];
    } else {
      assert a + b == a;
    }
  }

  /** Every line discounted (offer price at most the price) makes the offer total MRP − subtotal non-negative. */
  lemma {:induction false} OfferTotalNonNegative(lines: seq<PricedLine>)
    requires forall i :: 0 <= i < |lines| ==> lines[i].offerPrice <= lines[i].price && lines[i].quantity >= 0
    ensures Mrp(lines) - Subtotal(lines) >= 0.0
  {
    if |lines| > 0 {
      var l := lines[|lines| - 1];
      OfferTotalNonNegative(lines[..|lines| - 1]);
      assert MrpAmount(l) - OfferAmount(l) == (l.price - l.offerPrice) * l.quantity as real;
      RealMulNonNegative(l.price - l.offerPrice, l.quantity as real);
    }
  }

  lemma RealMulNonNegative(a: real, b: real)
    requires a >= 0.0 && b >= 0.0
    ensures a * b >= 0.0
  {
  }

  /**
   * Shipping fee as `loadCart`, `loadOrderSummary` and `orderPlace` compute it:
   * 200 up to 1000, 150 from 1001 to 5000, 100 from 5001 to 10000, else free.
   * The `>= 1001` and `>= 5001` bounds leave the fractional subtotals just
   * above 1000 and 5000 in no band, so they ship free.
   */
  function CartShipping(subtotal: real): (fee: real)
    ensures fee == 0.0 <==> subtotal <= 0.0 || 1000.0 < subtotal < 1001.0
                            || 5000.0 < subtotal < 5001.0 || subtotal > 10000.0
    ensures 0.0 < subtotal <= 1000.0 ==> fee == 200.0
    ensures 1001.0 <= subtotal <= 5000.0 ==> fee == 150.0
    ensures 5001.0 <= subtotal <= 10000.0 ==> fee == 100.0
  {
    if 0.0 < subtotal <= 1000.0 then 200.0
    else if 1001.0 <= subtotal <= 5000.0 then 150.0
    else if 5001.0 <= subtotal <= 10000.0 then 100.0
    else 0.0
  }

  /**
   * Shipping fee as `checkout` computes it: the bands (0,1000], (1000,5000],
   * (5000,10000] cost 200, 150 and 100; an empty order and one above 10000
   * ship free, and no subtotal in between does.
   */
  function ShippingFee(subtotal: real): (fee: real)
    ensures fee == 0.0 <==> subtotal <= 0.0 || subtotal > 10000.0
    ensures fee in {0.0, 100.0, 150.0, 200.0}
    ensures 0.0 < subtotal <= 1000.0 ==> fee == 200.0
    ensures 1000.0 < subtotal <= 5000.0 ==> fee == 150.0
    ensures 5000.0 < subtotal <= 10000.0 ==> fee == 100.0
  {
    if 0.0 < subtotal <= 1000.0 then 200.0
    else if 1000.0 < subtotal <= 5000.0 then 150.0
    else if 5000.0 < subtotal <= 10000.0 then 100.0
    else 0.0
  }

  /** A larger non-empty order never pays more shipping under the checkout bands. */
  lemma ShippingNonIncreasing(s: real, t: real)
    requires 0.0 < s <= t
    ensures ShippingFee(t) <= ShippingFee(s)
  {
  }

  /** On whole-rupee subtotals the two tables agree. */
  lemma CartShippingOnWholeRupees(n: int)
    ensures CartShipping(n as real) == ShippingFee(n as real)
  {
    if 1000 < n && n < 1001 { assert false; }
  }

  /**
   * A subtotal of 1000.50 ships free in the cart and the draft order but
   * costs 150 at checkout, and raising it to 1001 makes the cart charge 150:
   * the cart table is not monotone.
   */
  lemma CartShippingGap()
    ensures CartShipping(1000.5) == 0.0 && ShippingFee(1000.5) == 150.0
    ensures CartShipping(1000.5) < CartShipping(1001.0)
  {
  }
}

=== FILE: productdetail.dfy ===
/**
 * Adding to the cart from a product page and the per-size stock lookup
 * (controllers/user/productDetailController.js).
 */
module ProductDetail {
  import opened Wrappers
  import Seqs
  import opened Models
  import opened Carts

  /** The JSON reply of `addToCart`. */
  datatype AddReply = AddReply(status: int, success: bool, notLoggedIn: bool, problem: bool)

  /** Index of the first line for (productId, size); a line without a size never matches. */
  function FindLine(items: seq<CartItem>, pid: ProductId, size: string): (r: Option<nat>)
    ensures r.None? ==> forall k :: 0 <= k < |items| ==> !SameKey(items[k], pid, size)
    ensures r.Some? ==> r.value < |items| && SameKey(items[r.value], pid, size)
    ensures r.Some? ==> forall k :: 0 <= k < r.value ==> !SameKey(items[k], pid, size)
  {
    Seqs.FirstIndex(items, (item: CartItem) => (item.productId, item.size), (pid, Some(size)))
  }

  predicate SameKey(item: CartItem, pid: ProductId, size: string) {
    item.productId == pid && item.size == Some(size)
  }

  /** No two lines share a (productId, size) pair. */
  predicate UniqueLines(items: seq<CartItem>) {
    forall i, j :: 0 <= i < j < |items| ==> !(items[i].productId == items[j].productId && items[i].size == items[j].size)
  }

  /** Outcome of merging a request into the cart lines. */
  datatype AddOutcome = Saved(items: seq<CartItem>) | OverStock | OverCap

  /**
   * The cart-line step of `addToCart` for a size with `stock` units: an
   * existing (productId, size) line takes the sum, refused when the sum is
   * above the stock or above 5; otherwise a new line is appended.
   */
  function AddLine(items: seq<CartItem>, pid: ProductId, size: string, quantity: int, stock: int, freshId: ItemId): (r: AddOutcome)
    ensures FindLine(items, pid, size).None? ==> r == Saved(items + [CartItem(freshId, pid, Some(size), quantity)])
    ensures FindLine(items, pid, size).Some? ==>
              var k := FindLine(items, pid, size).value;
              var sum := items[k].quantity + quantity;
              && (sum > stock ==> r == OverStock)
              && (sum <= stock && sum > MaxPerLine ==> r == OverCap)
              && (sum <= stock && sum <= MaxPerLine ==> r == Saved(items[k := items[k].(quantity := sum)]))
    ensures r.Saved? ==> |r.items| >= |items|
    ensures r.Saved? ==> forall k :: 0 <= k < |items| && !SameKey(items[k], pid, size) ==> r.items[k] == items[k]
    ensures r.Saved? ==> forall k :: |items| <= k < |r.items| ==> SameKey(r.items[k], pid, size)
  {
    match FindLine(items, pid, size)
    case Some(k) =>
      var sum := items[k].quantity + quantity;
      if sum > stock then OverStock
      else if sum > MaxPerLine then OverCap
      else Saved(items[k := items[k].(quantity := sum)])
    case None => Saved(items + [CartItem(freshId, pid, Some(size), quantity)])
  }

  /** Total quantity held in the lines for (productId, size). */
  function QuantityOf(items: seq<CartItem>, pid: ProductId, size: string): int {
    if |items| == 0 then 0
    else QuantityOf(items[..|items| - 1], pid, size)
         + (if SameKey(items[|items| - 1], pid, size) then items[|items| - 1].quantity else 0)
  }

  lemma {:induction false} QuantityOfUpdate(items: seq<CartItem>, k: nat, q: int, pid: ProductId, size: string)
    requires k < |items|
    ensures var u := items[k := items[k].(quantity := q)];
            QuantityOf(u, pid, size) == QuantityOf(items, pid, size)
              + (if SameKey(items[k], pid, size) then q - items[k].quantity else 0)
  {
    var u := items[k := items[k].(quantity := q)];
    var n := |items| - 1;
    if k == n {
      assert u[..n] == items[..n];
    } else {
      QuantityOfUpdate(items[..n], k, q, pid, size);
      assert u[..n] == items[..n][k := items[k].(quantity := q)];
    }
  }

  lemma QuantityOfAppend(items: seq<CartItem>, x: CartItem, pid: ProductId, size: string)
    ensures QuantityOf(items + [x], pid, size)
            == QuantityOf(items, pid, size) + (if SameKey(x, pid, size) then x.quantity else 0)
  {
    assert (items + [x])[..|items|] == items;
  }

  /**
   * A saved request adds exactly `quantity` units to (productId, size) and
   * leaves every other (product, size) pair's quantity as it was.
   */
  lemma AddLineAddsQuantity(items: seq<CartItem>, pid: ProductId, size: string, quantity: int, stock: int, freshId: ItemId,
                            otherPid: ProductId, otherSize: string)
    requires AddLine(items, pid, size, quantity, stock, freshId).Saved?
    ensures var r := AddLine(items, pid, size, quantity, stock, freshId).items;
            && QuantityOf(r, pid, size) == QuantityOf(items, pid, size) + quantity
            && ((otherPid, otherSize) != (pid, size) ==> QuantityOf(r, otherPid, otherSize) == QuantityOf(items, otherPid, otherSize))
  {
    match FindLine(items, pid, size)
    case Some(k) =>
      var sum := items[k].quantity + quantity;
      QuantityOfUpdate(items, k, sum, pid, size);
      QuantityOfUpdate(items, k, sum, otherPid, otherSize);
    case None =>
      var x := CartItem(freshId, pid, Some(size), quantity);
      QuantityOfAppend(items, x, pid, size);
      QuantityOfAppend(items, x, otherPid, otherSize);
  }

  /** Adding never creates a second line for the same (productId, size). */
  lemma AddLineKeepsLinesUnique(items: seq<CartItem>, pid: ProductId, size: string, quantity: int, stock: int, freshId: ItemId)
    requires UniqueLines(items)
    requires AddLine(items, pid, size, quantity, stock, freshId).Saved?
    ensures UniqueLines(AddLine(items, pid, size, quantity, stock, freshId).items)
  {
    var r := AddLine(items, pid, size, quantity, stock, freshId).items;
    match FindLine(items, pid, size)
    case Some(k) =>
      forall i, j | 0 <= i < j < |r|
        ensures !(r[i].productId == r[j].productId && r[i].size == r[j].size)
      {
        assert r[i].productId == items[i].productId && r[i].size == items[i].size;
        assert r[j].productId == items[j].productId && r[j].size == items[j].size;
      }
    case None =>
  }

  /** A merged line never holds more than the size's stock or more than 5. */
  lemma MergedLineWithinLimits(items: seq<CartItem>, pid: ProductId, size: string, quantity: int, stock: int, freshId: ItemId)
    requires FindLine(items, pid, size).Some?
    requires AddLine(items, pid, size, quantity, stock, freshId).Saved?
    ensures var k := FindLine(items, pid, size).value;
            var r := AddLine(items, pid, size, quantity, stock, freshId).items;
            r[k].quantity == items[k].quantity + quantity && r[k].quantity <= stock && r[k].quantity <= MaxPerLine
  {
  }

  /** A first add of a size is not held to the 5-unit cap: 8 units go in when the size has 10. */
  lemma NewLineNotCapped()
    ensures AddLine([], 7, "M", 8, 10, 1) == Saved([CartItem(1, 7, Some("M"), 8)])
  {
  }

  /**
   * `addToCart`.  No session user: 401 with notLoggedIn.  No product: 404.
   * No stock entry of that size: 400.  More requested than that size's
   * stock: 400.  Then the cart (created when absent) takes the request as
   * `AddLine` says, and is saved only when that succeeds; a refusal above 5
   * replies 400 with success and problem set.
   */
  method AddToCart(loggedIn: bool, userId: UserId, product: Option<Product>, productId: ProductId, size: string,
                   quantity: int, cart: Cart?, freshItemId: ItemId) returns (reply: AddReply, stored: Cart?)
    requires cart != null ==> cart.userId == userId
    modifies cart
    ensures !loggedIn ==> reply == AddReply(401, false, true, false)
    ensures loggedIn && product.None? ==> reply == AddReply(404, false, false, false)
    ensures loggedIn && product.Some? && FindSize(product.value.stockManagement, size).None? ==>
              reply == AddReply(400, false, false, false)
    ensures loggedIn && product.Some? && FindSize(product.value.stockManagement, size).Some? &&
            product.value.stockManagement[FindSize(product.value.stockManagement, size).value].quantity < quantity ==>
              reply == AddReply(400, false, false, false)
    ensures reply.status != 200 ==> stored == cart && (cart != null ==> cart.items == old(cart.items))
    ensures reply.status == 200 ==>
              && loggedIn && product.Some?
              && var k := FindSize(product.value.stockManagement, size).value;
              var stock := product.value.stockManagement[k].quantity;
              var before := if cart == null then [] else old(cart.items);
              && quantity <= stock
              && stored != null && (cart == null ==> fresh(stored)) && (cart != null ==> stored == cart)
              && stored.userId == userId
              && AddLine(before, productId, size, quantity, stock, freshItemId) == Saved(stored.items)
    ensures loggedIn && product.Some? && FindSize(product.value.stockManagement, size).Some? ==>
              var k := FindSize(product.value.stockManagement, size).value;
              var stock := product.value.stockManagement[k].quantity;
              var before := if cart == null then [] else old(cart.items);
              quantity <= stock ==>
                match AddLine(before, productId, size, quantity, stock, freshItemId)
                case Saved(_) => reply == AddReply(200, true, false, false)
                case OverStock => reply == AddReply(400, false, false, false)
                case OverCap => reply == AddReply(400, true, false, true)
  {
    stored := cart;
    if !loggedIn {
      return AddReply(401, false, true, false), stored;
    }
    if product.None? {
      return AddReply(404, false, false, false), stored;
    }
    var k := FindSize(product.value.stockManagement, size);
    if k.None? {
      return AddReply(400, false, false, false), stored;
    }
    var sizeStock := product.value.stockManagement[k.value];
    if sizeStock.quantity < quantity {
      return AddReply(400, false, false, false), stored;
    }
    var items := if cart == null then [] else cart.items;
    var existing := FindLine(items, productId, size);
    var newItems;
    if existing.Some? {
      var i := existing.value;
      var sum := items[i].quantity + quantity;
      if sum > sizeStock.quantity {
        return AddReply(400, false, false, false), stored;
      } else if sum > MaxPerLine {
        return AddReply(400, true, false, true), stored;
      }
      newItems := items[i := items[i].(quantity := sum)];
    } else {
      newItems := items + [CartItem(freshItemId, productId, Some(size), quantity)];
    }
    if cart == null {
      stored := new Cart(userId);
    }
    stored.items := newItems;
    reply := AddReply(200, true, false, false);
  }

  /** The JSON reply of `stock`. */
  datatype StockReply = StockReply(status: int, success: bool, size: Option<string>, stock: int)

  /**
   * `stock`: the quantity of the first stock entry of that size, or stock 0
   * with 404 when the product or the size is missing.
   */
  function Stock(product: Option<Product>, size: string): (r: StockReply)
    ensures r.status == 200 <==> product.Some? && exists k :: 0 <= k < |product.value.stockManagement|
                                                     && product.value.stockManagement[k].size == size
    ensures r.status == 200 ==>
              r.success && r.size == Some(size) &&
              r.stock == product.value.stockManagement[FindSize(product.value.stockManagement, size).value].quantity
    ensures r.status != 200 ==> r == StockReply(404, false, None, 0)
  {
    if product.None? then StockReply(404, false, None, 0)
    else
      match FindSize(product.value.stockManagement, size)
      case None => StockReply(404, false, None, 0)
      case Some(k) => StockReply(200, true, Some(size), product.value.stockManagement[k].quantity)
  }

  /** `stock` reports the quantity `addToCart` checks a request against. */
  lemma StockAgreesWithAddToCart(product: Product, size: string, quantity: int)
    requires Stock(Some(product), size).status == 200
    ensures FindSize(product.stockManagement, size).Some?
    ensures quantity <= Stock(Some(product), size).stock
            <==> !(product.stockManagement[FindSize(product.stockManagement, size).value].quantity < quantity)
  {
  }
}

=== FILE: products.dfy ===
/**
 * Admin product management: tag parsing, the product update with its
 * image-slot replacement, soft delete and recovery, permanent deletion and
 * the paginated product list.
 */
module ProductAdmin {
  import opened Wrappers
  import opened Models
  import Text
  import Paging
  import Seqs

  /**
   * `productTags ? productTags.split(",").map(tag => tag.trim()) : []`:
   * one tag per comma-separated piece, each trimmed, empty pieces kept;
   * an absent or empty field gives no tags.
   */
  function ParseTags(tags: Option<string>): (r: seq<string>)
    ensures tags.None? || tags.value == "" ==> r == []
    ensures tags.Some? && tags.value != "" ==> |r| == Text.Count(tags.value, ',') + 1
    ensures forall k :: 0 <= k < |r| ==> Text.Trim(r[k]) == r[k] && ',' !in r[k]
    ensures tags.Some? && tags.value != "" ==>
              forall k :: 0 <= k < |r| ==> r[k] == Text.Trim(Text.Split(tags.value, ',')[k])
  {
    if tags.None? || tags.value == "" then []
    else
      var parts := Text.Split(tags.value, ',');
      assert forall k :: 0 <= k < |parts| ==> Text.Trim(Text.Trim(parts[k])) == Text.Trim(parts[k]) by {
        forall k | 0 <= k < |parts| {
          Text.TrimIdempotent(parts[k]);
        }
      }
      seq(|parts|, k requires 0 <= k < |parts| => Text.Trim(parts[k]))
  }

  /** Trimmed tags without commas survive being joined with commas and parsed again. */
  lemma {:induction false} TagsRoundTrip(tags: seq<string>)
    requires |tags| >= 1 && Text.Join(tags, ',') != ""
    requires forall k :: 0 <= k < |tags| ==> Text.Trim(tags[k]) == tags[k] && ',' !in tags[k]
    ensures ParseTags(Some(Text.Join(tags, ','))) == tags
  {
    Text.SplitJoin(tags, ',');
  }

  /** A single empty tag is the one list that does not survive: it parses back as no tags. */
  lemma EmptyTagLost()
    ensures Text.Join([""], ',') == "" && ParseTags(Some(Text.Join([""], ','))) == []
  {
  }

  // ------------------------------------------------------------ image slots

  const ImageSlots := 4
  const UploadDir := "/productUploads/"

  /** The file uploaded for `productImage{i+1}`, if any. */
  function Upload(uploads: seq<Option<string>>, i: nat): Option<string> {
    if i < |uploads| then uploads[i] else None
  }

  /**
   * `images[i] = v` on a JavaScript array: past the end the array grows and
   * the skipped positions are holes (`None`).
   */
  function SetSlot(images: seq<Option<string>>, i: nat, v: string): (r: seq<Option<string>>)
    ensures |r| == if i < |images| then |images| else i + 1
    ensures r[i] == Some(v)
    ensures forall k :: 0 <= k < |r| && k != i ==> r[k] == if k < |images| then images[k] else None
  {
    if i < |images| then images[i := Some(v)]
    else images + seq(i - |images|, _ => None) + [Some(v)]
  }

  /** The image list after handling the first `n` slots. */
  function Replaced(images: seq<Option<string>>, uploads: seq<Option<string>>, n: nat): seq<Option<string>> {
    if n == 0 then images
    else
      var prev := Replaced(images, uploads, n - 1);
      if Upload(uploads, n - 1).Some? then SetSlot(prev, n - 1, UploadDir + Upload(uploads, n - 1).value) else prev
  }

  /**
   * After the first `n` slots, each of them with an upload holds the new
   * path, and every other position keeps its old image (or is a hole when
   * it lay past the old end).
   */
  lemma {:induction false} ReplacedSlots(images: seq<Option<string>>, uploads: seq<Option<string>>, n: nat)
    ensures var r := Replaced(images, uploads, n);
            && |images| <= |r|
            && (forall i :: 0 <= i < n && Upload(uploads, i).Some? ==>
                  i < |r| && r[i] == Some(UploadDir + Upload(uploads, i).value))
            && (forall i :: 0 <= i < |r| && !(i < n && Upload(uploads, i).Some?) ==>
                  r[i] == if i < |images| then images[i] else None)
  {
    if n > 0 {
      ReplacedSlots(images, uploads, n - 1);
    }
  }

  /** The `imageFields.forEach` loop of `updateProduct`. */
  method ReplaceImages(images: seq<Option<string>>, uploads: seq<Option<string>>) returns (r: seq<Option<string>>)
    ensures r == Replaced(images, uploads, ImageSlots)
  {
    r := images;
    var i := 0;
    while i < ImageSlots
      invariant 0 <= i <= ImageSlots
      invariant r == Replaced(images, uploads, i)
    {
      var file := Upload(uploads, i);
      if file.Some? {
        r := SetSlot(r, i, UploadDir + file.value);
      }
      i := i + 1;
    }
  }

  // ----------------------------------------------------------------- update

  /** A stock entry as submitted in the JSON text: a size and an optional quantity. */
  datatype RawStock = RawStock(size: string, quantity: Option<int>)

  /** The schema's check of a submitted stock array at save time. */
  function ValidateStock(raw: seq<RawStock>): (r: Option<seq<StockEntry>>)
    ensures r.Some? <==> forall k :: 0 <= k < |raw| ==> MakeStockEntry(raw[k].size, raw[k].quantity).Some?
    ensures r.Some? ==> |r.value| == |raw|
    ensures r.Some? ==> forall k :: 0 <= k < |raw| ==> Some(r.value[k]) == MakeStockEntry(raw[k].size, raw[k].quantity)
  {
    if |raw| == 0 then Some([])
    else
      var head := MakeStockEntry(raw[0].size, raw[0].quantity);
      var rest := ValidateStock(raw[1..]);
      if head.Some? && rest.Some? then Some([head.value] + rest.value)
      else
        assert head.None? ==> MakeStockEntry(raw[0].size, raw[0].quantity).None?;
        None
  }

  /**
   * The editable fields of the update form; an absent field is `None`.
   * `price` is `None` also when the text does not cast to a number, and
   * `stock` is the parsed `productStockManagement` text, `None` when it is
   * not valid JSON.
   */
  datatype ProductForm = ProductForm(
    name: Option<string>,
    description: Option<string>,
    productType: Option<string>,
    brand: Option<string>,
    warranty: Option<string>,
    returnPolicy: Option<string>,
    price: Option<real>,
    offerPrice: Option<real>,
    tags: Option<string>,
    category: Option<CategoryId>,
    stock: Option<seq<RawStock>>)

  /** A required string path: absent and empty values fail validation. */
  predicate RequiredText(v: Option<string>) {
    v.Some? && v.value != ""
  }

  /** The schema's required paths the form assigns: name, description, product type and price. */
  predicate RequiredGiven(f: ProductForm) {
    RequiredText(f.name) && RequiredText(f.description) && RequiredText(f.productType) && f.price.Some?
  }

  /**
   * `updateProduct`: 404 for an unknown product; 500 and nothing saved when
   * the stock text does not parse, a stock entry fails the schema, or a
   * required path (name, description, product type, price) is absent or
   * empty; otherwise 200 and the saved product has every submitted field
   * (an absent optional one unset), parsed tags, the whole new stock array
   * and the image slots replaced, while its id, deletion flag, rating and
   * offer fields are kept.
   */
  method UpdateProduct(product: Option<Product>, f: ProductForm, uploads: seq<Option<string>>)
    returns (status: int, saved: Option<Product>)
    ensures product.None? ==> status == 404 && saved.None?
    ensures product.Some? && (f.stock.None? || ValidateStock(f.stock.value).None? || !RequiredGiven(f))
            ==> status == 500 && saved.None?
    ensures status == 200 <==> product.Some? && f.stock.Some? && ValidateStock(f.stock.value).Some? && RequiredGiven(f)
    ensures status == 200 ==>
              var p := product.value;
              saved == Some(p.(name := f.name, description := f.description, productType := f.productType,
                               brand := f.brand, warranty := f.warranty, returnPolicy := f.returnPolicy,
                               price := f.price.value, offerPrice := f.offerPrice,
                               tags := ParseTags(f.tags), category := f.category,
                               stockManagement := ValidateStock(f.stock.value).value,
                               images := Replaced(p.images, uploads, ImageSlots)))
  {
    if product.None? {
      return 404, None;
    }
    if f.stock.None? {
      return 500, None;
    }
    var images := ReplaceImages(product.value.images, uploads);
    var stock := ValidateStock(f.stock.value);
    if stock.None? || !RequiredGiven(f) {
      return 500, None;
    }
    var p := product.value.(name := f.name, description := f.description, productType := f.productType,
                            brand := f.brand, warranty := f.warranty, returnPolicy := f.returnPolicy,
                            price := f.price.value, offerPrice := f.offerPrice,
                            tags := ParseTags(f.tags), category := f.category,
                            stockManagement := stock.value, images := images);
    return 200, Some(p);
  }

  // ---------------------------------------------------- delete and recover

  function SoftDeleted(p: Product): (r: Product)
    ensures r.isDeleted && r.(isDeleted := p.isDeleted) == p
  {
    p.(isDeleted := true)
  }

  function Recovered(p: Product): (r: Product)
    ensures !r.isDeleted && r.(isDeleted := p.isDeleted) == p
  {
    p.(isDeleted := false)
  }

  /** Recovering a product that was live before its deletion restores it exactly. */
  lemma RecoverUndoesDelete(p: Product)
    requires !p.isDeleted
    ensures Recovered(SoftDeleted(p)) == p
  {
  }

  /**
   * `deleteProduct`: 404 and no change for an unknown id (`index` is where
   * the lookup found it); otherwise 200 and only that product is marked
   * deleted.
   */
  method DeleteProduct(catalogue: array<Product>, index: Option<nat>) returns (status: int)
    requires index.Some? ==> index.value < catalogue.Length
    modifies catalogue
    ensures index.None? ==> status == 404 && catalogue[..] == old(catalogue[..])
    ensures index.Some? ==> status == 200 && catalogue[..] == old(catalogue[..])[index.value := SoftDeleted(old(catalogue[index.value]))]
  {
    if index.None? {
      return 404;
    }
    catalogue[index.value] := SoftDeleted(catalogue[index.value]);
    status := 200;
  }

  /** `recoverProducts`: always 200; a found product is marked live again, nothing else changes. */
  method RecoverProduct(catalogue: array<Product>, index: Option<nat>) returns (status: int)
    requires index.Some? ==> index.value < catalogue.Length
    modifies catalogue
    ensures status == 200
    ensures index.None? ==> catalogue[..] == old(catalogue[..])
    ensures index.Some? ==> catalogue[..] == old(catalogue[..])[index.value := Recovered(old(catalogue[index.value]))]
  {
    if index.Some? {
      catalogue[index.value] := Recovered(catalogue[index.value]);
    }
    status := 200;
  }

  /** `permanentDeleteProducts`: always 200; the product with that id is gone, the rest keep their order. */
  function PermanentDelete(products: seq<Product>, id: ProductId): (r: seq<Product>)
    ensures |r| <= |products|
    ensures forall p :: p in r <==> p in products && p.id != id
  {
    if |products| == 0 then []
    else
      var rest := PermanentDelete(products[1..], id);
      assert products == [products[0]] + products[1..];
      if products[0].id == id then rest else [products[0]] + rest
  }

  // ---------------------------------------------------------------- listing

  const DefaultPage := 1
  const DefaultLimit := 10

  /**
   * The list query with an empty search: live products whose name matches
   * the empty pattern, which needs a name to be present.
   */
  function Listed(all: seq<Product>): (r: seq<Product>)
    ensures |r| <= |all|
    ensures forall p :: p in r <==> p in all && !p.isDeleted && p.name.Some?
    ensures Seqs.Subsequence(r, all)
  {
    if |all| == 0 then []
    else
      var rest := Listed(all[1..]);
      assert all == [all[0]] + all[1..];
      if !all[0].isDeleted && all[0].name.Some? then
        assert ([all[0]] + rest)[1..] == rest;
        [all[0]] + rest
      else rest
  }

  /** The rendered list, or the error reply (the database refuses a negative skip). */
  datatype ProductListView =
    | ProductListError
    | ProductList(products: seq<Product>, currentPage: int, totalPages: int, noneFound: bool)

  /**
   * `loadProductManagement` with no search text, over `all` in newest-first
   * order: page and limit default to 1 and 10, the page holds the listed
   * products from `(page - 1) * limit` on, at most `limit` of them, and the
   * "No products found" message shows exactly when it is empty.
   */
  function LoadProductManagement(all: seq<Product>, pageQuery: Option<int>, limitQuery: Option<int>): (r: ProductListView)
    ensures var p := Paging.Paginate(pageQuery, limitQuery, DefaultPage, DefaultLimit, |Listed(all)|);
            && (r.ProductListError? <==> p.skip < 0)
            && (r.ProductList? ==>
                  && r.currentPage == p.page && r.totalPages == p.totalPages
                  && (r.noneFound <==> |r.products| == 0)
                  && |r.products| <= Paging.Abs(p.limit)
                  && forall k :: 0 <= k < |r.products| ==> 0 <= p.skip + k < |Listed(all)| && r.products[k] == Listed(all)[p.skip + k])
  {
    var listed := Listed(all);
    var p := Paging.Paginate(pageQuery, limitQuery, DefaultPage, DefaultLimit, |listed|);
    match Paging.DbPage(listed, p.skip, p.limit)
    case None => ProductListError
    case Some(products) => ProductList(products, p.page, p.totalPages, |products| == 0)
  }

  /** Every listed product is on the page its position determines, and that page is within `totalPages`. */
  lemma {:induction false} EveryListedProductOnAPage(all: seq<Product>, limit: int, i: int)
    requires limit > 0 && 0 <= i < |Listed(all)|
    ensures var r := LoadProductManagement(all, Some(i / limit + 1), Some(limit));
            && r.ProductList? && 1 <= r.currentPage <= r.totalPages
            && i % limit < |r.products| && r.products[i % limit] == Listed(all)[i]
  {
    var listed := Listed(all);
    Paging.ItemOnPage(listed, limit, i);
    Paging.DbPageIsPageOf(listed, i / limit + 1, limit);
  }
}

=== FILE: productstatus.dfy ===
/**
 * The checkout gate: when the session asks for a product check, the request
 * is refused if any of the looked-up products has been soft-deleted.
 */
module ProductGate {
  import opened Wrappers
  import opened Models
  import Seqs
  import Carts

  /** How a refused product is named in the reply: its name, or its id when it has none. */
  datatype Label = Name(name: string) | Id(id: ProductId)

  /**
   * The gate's decision.  `Proceed` is the single call of `next`; `Refuse`
   * is the 400 reply with its list of unavailable products.
   */
  datatype Decision = Proceed | Refuse(invalidProducts: seq<Label>)

  /** The reply code the decision produces; 0 stands for "passed on to the next handler". */
  function Status(d: Decision): int {
    if d.Refuse? then 400 else 0
  }

  /** `products.filter(p => p.isDeleted)`, in order. */
  function Invalid(products: seq<Product>): (r: seq<Product>)
    ensures |r| <= |products|
    ensures forall p :: p in r <==> p in products && p.isDeleted
    ensures Seqs.Subsequence(r, products)
    ensures forall p :: multiset(r)[p] == if p.isDeleted then multiset(products)[p] else 0
  {
    if |products| == 0 then []
    else
      var rest := Invalid(products[1..]);
      assert products == [products[0]] + products[1..];
      assert multiset(products) == multiset{products[0]} + multiset(products[1..]);
      if products[0].isDeleted then
        assert ([products[0]] + rest)[1..] == rest;
        [products[0]] + rest
      else rest
  }

  /** `p.name || p._id`: an absent or empty name falls back to the id. */
  function LabelOf(p: Product): (l: Label)
    ensures l.Name? <==> p.name.Some? && p.name.value != ""
  {
    if p.name.Some? && p.name.value != "" then Name(p.name.value) else Id(p.id)
  }

  function Labels(ps: seq<Product>): (r: seq<Label>)
    ensures |r| == |ps| && forall k :: 0 <= k < |ps| ==> r[k] == LabelOf(ps[k])
  {
    seq(|ps|, k requires 0 <= k < |ps| => LabelOf(ps[k]))
  }

  /**
   * `checkProductStatus`.  `flag` is `req.session.checkProductStatus`
   * (`Some(true)` is the only value that is `=== true`); `products` is what
   * the product lookup returned.  The request is refused exactly when the
   * flag is set and some product is deleted, and the refusal lists every
   * deleted product, labelled, in lookup order.
   */
  function Check(flag: Option<bool>, products: seq<Product>): (d: Decision)
    ensures flag != Some(true) ==> d == Proceed
    ensures d.Refuse? <==> flag == Some(true) && exists p :: p in products && p.isDeleted
    ensures d.Refuse? ==> d.invalidProducts == Labels(Invalid(products))
  {
    if flag == Some(true) then
      var invalid := Invalid(products);
      if |invalid| > 0 then
        assert invalid[0] in invalid;
        Refuse(Labels(invalid))
      else
        assert forall p :: p in products ==> !p.isDeleted;
        Proceed
    else Proceed
  }

  /** A refusal names every deleted product and nothing else. */
  lemma {:induction false} RefusalListsOnlyDeleted(products: seq<Product>)
    ensures var d := Check(Some(true), products);
            d.Refuse? ==> forall l :: l in d.invalidProducts <==>
                            exists p :: p in products && p.isDeleted && l == LabelOf(p)
  {
    var d := Check(Some(true), products);
    if d.Refuse? {
      var inv := Invalid(products);
      forall l
        ensures l in d.invalidProducts <==> exists p :: p in products && p.isDeleted && l == LabelOf(p)
      {
        if l in d.invalidProducts {
          var k :| 0 <= k < |inv| && d.invalidProducts[k] == l;
          assert inv[k] in inv;
        }
        if exists p :: p in products && p.isDeleted && l == LabelOf(p) {
          var p :| p in products && p.isDeleted && l == LabelOf(p);
          LabelListed(inv, p);
        }
      }
    }
  }

  /** A listed product's label is among the labels. */
  lemma LabelListed(ps: seq<Product>, p: Product)
    requires p in ps
    ensures LabelOf(p) in Labels(ps)
  {
    var k :| 0 <= k < |ps| && ps[k] == p;
    assert Labels(ps)[k] == LabelOf(p);
  }

  /** A product with no usable name is reported by its id. */
  lemma UnnamedReportedById(p: Product)
    requires p.isDeleted && (p.name.None? || p.name == Some(""))
    ensures Check(Some(true), [p]) == Refuse([Id(p.id)])
  {
    assert p in [p];
    assert Invalid([p]) == [p];
  }

  // ------------------------------------------------------- the product lookup

  /** `Product.find({ _id: { $in: ids } })`: the products whose id is listed, in stored order. */
  function Find(ids: set<nat>, catalogue: seq<Product>): (r: seq<Product>)
    ensures Seqs.Subsequence(r, catalogue)
    ensures forall p :: p in r <==> p in catalogue && p.id in ids
  {
    if |catalogue| == 0 then []
    else
      var rest := Find(ids, catalogue[1..]);
      assert catalogue == [catalogue[0]] + catalogue[1..];
      if catalogue[0].id in ids then
        assert ([catalogue[0]] + rest)[1..] == rest;
        [catalogue[0]] + rest
      else rest
  }

  /**
   * The ids the lookup asks for as written: `$in` is handed the cart
   * document itself, which is cast to the one-element list of the cart's
   * own id; with no cart, to a list holding only `null`.
   */
  function QueriedIdsAsWritten(cartDocumentId: Option<nat>): (r: set<nat>)
    ensures |r| <= 1
    ensures forall id :: id in r <==> cartDocumentId == Some(id)
  {
    if cartDocumentId.Some? then {cartDocumentId.value} else {}
  }

  /** The ids the lookup evidently means: the products of the cart's lines. */
  function CartProductIds(items: seq<Carts.CartItem>): (r: set<ProductId>)
    ensures forall id :: id in r <==> exists k :: 0 <= k < |items| && items[k].productId == id
  {
    set k | 0 <= k < |items| :: items[k].productId
  }

  /**
   * As written, the gate never refuses: document ids are unique, so no
   * product carries the cart's id, the lookup finds nothing, and the
   * request proceeds even when the cart holds a deleted product.
   */
  lemma GateNeverRefusesAsWritten(flag: Option<bool>, cartDocumentId: Option<nat>, catalogue: seq<Product>)
    requires forall k :: 0 <= k < |catalogue| ==> Some(catalogue[k].id) != cartDocumentId
    ensures Check(flag, Find(QueriedIdsAsWritten(cartDocumentId), catalogue)) == Proceed
  {
    var found := Find(QueriedIdsAsWritten(cartDocumentId), catalogue);
    assert forall p :: p in found ==> p in catalogue && Some(p.id) == cartDocumentId;
  }

  /**
   * With the cart's product ids queried, a flagged request is refused
   * exactly when one of the cart's products has been deleted.
   */
  lemma CartGateRefusesDeleted(items: seq<Carts.CartItem>, catalogue: seq<Product>)
    ensures Check(Some(true), Find(CartProductIds(items), catalogue)).Refuse?
            <==> exists k :: 0 <= k < |catalogue| && catalogue[k].isDeleted && catalogue[k].id in CartProductIds(items)
  {
    var found := Find(CartProductIds(items), catalogue);
    if exists k :: 0 <= k < |catalogue| && catalogue[k].isDeleted && catalogue[k].id in CartProductIds(items) {
      var k :| 0 <= k < |catalogue| && catalogue[k].isDeleted && catalogue[k].id in CartProductIds(items);
      assert catalogue[k] in found;
    }
  }
}

=== FILE: referrals.dfy ===
/**
 * The admin referral list: active customers, ten per page, each with the
 * balance of their wallet.
 */
module Referrals {
  import opened Wrappers
  import opened Models
  import Paging
  import Seqs
  import Wallets

  const PageSize := 10

  /** The `{ isDeleted: false, role: 'user' }` query, in stored order. */
  function Active(users: seq<User>): (r: seq<User>)
    reads users
    ensures |r| <= |users|
    ensures forall k :: 0 <= k < |r| ==> r[k] in users && !r[k].isDeleted && r[k].role == "user"
    ensures forall k :: 0 <= k < |users| && !users[k].isDeleted && users[k].role == "user" ==> users[k] in r
  {
    if |users| == 0 then []
    else
      var rest := Active(users[1..]);
      assert users == [users[0]] + users[1..];
      if !users[0].isDeleted && users[0].role == "user" then [users[0]] + rest else rest
  }

  /** The query keeps the users in stored order. */
  lemma {:induction false} ActiveKeepsOrder(users: seq<User>)
    ensures Seqs.Subsequence(Active(users), users)
  {
    if |users| > 0 {
      ActiveKeepsOrder(users[1..]);
      var rest := Active(users[1..]);
      if !users[0].isDeleted && users[0].role == "user" {
        assert ([users[0]] + rest)[1..] == rest;
      }
    }
  }

  /** `wallet ? wallet.balance : 0` for the user's wallet, if any. */
  function BalanceOf(wallets: map<UserId, Wallets.Wallet>, id: UserId): (b: real)
    ensures id in wallets ==> b == wallets[id].balance
    ensures id !in wallets ==> b == 0.0
  {
    if id in wallets then wallets[id].balance else 0.0
  }

  datatype ReferralRow = ReferralRow(user: User, walletBalance: real)

  /** The rendered page, or the error page (the database refuses a negative skip). */
  datatype ReferralView =
    | ReferralError
    | ReferralPage(rows: seq<ReferralRow>, currentPage: int, totalPages: int, hasNextPage: bool, hasPrevPage: bool)

  /**
   * `getReferral`: page `parseInt(page) || 1` of the active customers, at
   * most ten rows, each carrying its user's wallet balance or 0;
   * `totalPages` counts all active customers, and the next/previous flags
   * compare the page with `totalPages` and with 1.
   */
  function GetReferral(all: seq<User>, wallets: map<UserId, Wallets.Wallet>, pageQuery: Option<int>): (r: ReferralView)
    reads all
    ensures var page, total := Paging.ParamOr(pageQuery, 1), |Active(all)|;
            && (r.ReferralError? <==> page < 1)
            && (r.ReferralPage? ==>
                  && r.currentPage == page
                  && (r.totalPages - 1) * PageSize < total <= r.totalPages * PageSize
                  && (r.hasNextPage <==> page < r.totalPages)
                  && (r.hasPrevPage <==> page > 1)
                  && |r.rows| <= PageSize
                  && |r.rows| == (var skip := (page - 1) * PageSize;
                                  if total <= skip then 0
                                  else if total - skip < PageSize then total - skip
                                  else PageSize)
                  && forall k :: 0 <= k < |r.rows| ==>
                       && 0 <= (page - 1) * PageSize + k < total
                       && r.rows[k].user == Active(all)[(page - 1) * PageSize + k]
                       && r.rows[k].walletBalance == BalanceOf(wallets, r.rows[k].user.id))
  {
    var active := Active(all);
    var page := Paging.ParamOr(pageQuery, 1);
    var skip := Paging.Skip(page, PageSize);
    var totalPages := Paging.CeilDiv(|active|, PageSize);
    match Paging.DbPage(active, skip, PageSize)
    case None => ReferralError
    case Some(users) =>
      var rows := seq(|users|, k requires 0 <= k < |users| => ReferralRow(users[k], BalanceOf(wallets, users[k].id)));
      ReferralPage(rows, page, totalPages, page < totalPages, page > 1)
  }

  /**
   * The next-page flag is set exactly when the following page has rows, and
   * the previous-page flag exactly when there is a page before this one.
   */
  lemma {:induction false} PageFlagsMatchNeighbours(all: seq<User>, wallets: map<UserId, Wallets.Wallet>, page: int)
    requires page >= 1
    ensures var r, next := GetReferral(all, wallets, Some(page)), GetReferral(all, wallets, Some(page + 1));
            && r.ReferralPage? && next.ReferralPage?
            && (r.hasNextPage <==> |next.rows| > 0)
            && (r.hasPrevPage <==> page - 1 >= 1)
  {
    var active := Active(all);
    Paging.DbPageIsPageOf(active, page + 1, PageSize);
    Paging.TotalPagesExact(active, PageSize, page + 1);
  }
}

=== FILE: seqs.dfy ===
/** Order-preserving selection on sequences. */
module Seqs {
  import opened Wrappers

  /** Index of the first entry whose key is `k` (`find` / `findIndex` on a key). */
  function FirstIndex<T, K(==)>(s: seq<T>, key: T -> K, k: K): (r: Option<nat>)
    ensures r.None? ==> forall i :: 0 <= i < |s| ==> key(s[i]) != k
    ensures r.Some? ==> r.value < |s| && key(s[r.value]) == k
                        && forall i :: 0 <= i < r.value ==> key(s[i]) != k
  {
    if |s| == 0 then None
    else if key(s[0]) == k then Some(0)
    else
      var r := FirstIndex(s[1..], key, k);
      if r.None? then None else Some(r.value + 1)
  }

  /**
   * `r` is `s` with some entries left out and the others kept in their
   * original order.
   */
  predicate Subsequence<T(==)>(r: seq<T>, s: seq<T>)
    decreases |s|
  {
    |r| <= |s|
    && (|r| == 0 || (r[0] == s[0] && Subsequence(r[1..], s[1..])) || Subsequence(r, s[1..]))
  }
}

=== FILE: sorting.dfy ===
/** Ordering lists newest first, as `sort((a, b) => b.createdAt - a.createdAt)` does. */
module Sorting {

  /** `s` is ordered by non-increasing `key`. */
  predicate SortedDesc<T>(s: seq<T>, key: T -> int) {
    forall i, j :: 0 <= i < j < |s| ==> key(s[i]) >= key(s[j])
  }

  /** Inserts `x` before the first element whose key is not greater, keeping later equal keys after it. */
  function InsertDesc<T>(x: T, s: seq<T>, key: T -> int): (r: seq<T>)
    requires SortedDesc(s, key)
    ensures SortedDesc(r, key)
    ensures multiset(r) == multiset(s) + multiset{x}
    ensures |r| == |s| + 1
    ensures r[0] == x || (|s| > 0 && r[0] == s[0])
  {
    if s == [] || key(x) >= key(s[0]) then [x] + s
    else
      var rest := InsertDesc(x, s[1..], key);
      assert s == [s[0]] + s[1..];
      assert key(s[0]) >= key(rest[0]);
      [s[0]] + rest
  }

  /** A stable sort by non-increasing key: a permutation of `s` that is ordered. */
  function SortDesc<T>(s: seq<T>, key: T -> int): (r: seq<T>)
    ensures SortedDesc(r, key)
    ensures multiset(r) == multiset(s)
    ensures |r| == |s|
  {
    if s == [] then []
    else
      assert s == [s[0]] + s[1..];
      InsertDesc(s[0], SortDesc(s[1..], key), key)
  }

  /** A contiguous run of an ordered list is ordered. */
  lemma RunSorted<T>(s: seq<T>, a: nat, b: nat, key: T -> int)
    requires SortedDesc(s, key) && a <= b <= |s|
    ensures SortedDesc(s[a..b], key)
  {
    var r := s[a..b];
    forall i, j | 0 <= i < j < |r|
      ensures key(r[i]) >= key(r[j])
    {
      assert r[i] == s[a + i] && r[j] == s[a + j];
    }
  }

  /** A contiguous run holds no element more often than the list. */
  lemma RunSubMultiset<T>(s: seq<T>, a: nat, b: nat)
    requires a <= b <= |s|
    ensures multiset(s[a..b]) <= multiset(s)
  {
    assert s == s[..a] + s[a..b] + s[b..];
  }
}

=== FILE: text.dfy ===
/**
 * String helpers with JavaScript semantics: `String.prototype.split` on a
 * one-character separator, `trim`, and the `/^\d{6}$/` digit test.
 */
module Text {

  /** The characters JavaScript's `trim` removes: WhiteSpace and LineTerminator. */
  predicate IsSpace(c: char) {
    c == ' ' || c == '\t' || c == '\n' || c == '\r' || c == '\U{000B}' || c == '\U{000C}'
    || c == '\U{00A0}' || c == '\U{1680}' || ('\U{2000}' <= c <= '\U{200A}')
    || c == '\U{2028}' || c == '\U{2029}' || c == '\U{202F}' || c == '\U{205F}'
    || c == '\U{3000}' || c == '\U{FEFF}'
  }

  predicate IsDigit(c: char) {
    '0' <= c <= '9'
  }

  /** Number of leading whitespace characters. */
  function LeadingSpace(s: string): (n: nat)
    ensures n <= |s|
    ensures forall k :: 0 <= k < n ==> IsSpace(s[k])
    ensures n < |s| ==> !IsSpace(s[n])
  {
    if |s| == 0 || !IsSpace(s[0]) then 0 else 1 + LeadingSpace(s[1..])
  }

  /** Number of trailing whitespace characters. */
  function TrailingSpace(s: string): (n: nat)
    ensures n <= |s|
    ensures forall k :: |s| - n <= k < |s| ==> IsSpace(s[k])
    ensures n < |s| ==> !IsSpace(s[|s| - 1 - n])
  {
    if |s| == 0 || !IsSpace(s[|s| - 1]) then 0 else 1 + TrailingSpace(s[..|s| - 1])
  }

  /** `s.trim()`: the longest middle part that neither starts nor ends with whitespace. */
  function Trim(s: string): (r: string)
    ensures |r| <= |s|
    ensures r != [] ==> !IsSpace(r[0]) && !IsSpace(r[|r| - 1])
    ensures r == [] ==> forall k :: 0 <= k < |s| ==> IsSpace(s[k])
    ensures forall c :: c in r ==> c in s
  {
    var i := LeadingSpace(s);
    var t := s[i..];
    var j := TrailingSpace(t);
    assert j < |t| ==> !IsSpace(t[|t| - 1 - j]);
    var r := s[i..|s| - j];
    assert r == t[..|t| - j];
    assert r != [] ==> r[0] == s[i] && r[|r| - 1] == t[|t| - 1 - j];
    assert forall c :: c in r ==> c in t;
    r
  }

  /**
   * What `Trim` keeps: the characters of `s` from its first non-space on,
   * up to a tail made only of whitespace, so that exactly the leading and
   * trailing whitespace is dropped.
   */
  lemma TrimSpansMiddle(s: string)
    ensures var i := LeadingSpace(s); var r := Trim(s);
            i + |r| <= |s| && r == s[i..i + |r|]
            && (forall k :: 0 <= k < i ==> IsSpace(s[k]))
            && (forall k :: i + |r| <= k < |s| ==> IsSpace(s[k]))
  {
    var i := LeadingSpace(s);
    var t := s[i..];
    var j := TrailingSpace(t);
    assert Trim(s) == s[i..|s| - j];
    forall k | |s| - j <= k < |s|
      ensures IsSpace(s[k])
    {
      assert s[k] == t[k - i];
    }
  }

  /** Trimming twice is trimming once. */
  lemma {:induction false} TrimIdempotent(s: string)
    ensures Trim(Trim(s)) == Trim(s)
  {
    var r := Trim(s);
    if r != [] {
      assert LeadingSpace(r) == 0;
      assert r[0..] == r;
      assert TrailingSpace(r) == 0;
      assert r[..|r| - 0] == r;
    }
  }

  /** Number of occurrences of `c` in `s`. */
  function Count(s: string, c: char): nat {
    if |s| == 0 then 0 else (if s[0] == c then 1 else 0) + Count(s[1..], c)
  }

  /** `parts.join(sep)` for a non-empty list of parts. */
  function Join(parts: seq<string>, sep: char): string
    requires |parts| >= 1
  {
    if |parts| == 1 then parts[0] else parts[0] + [sep] + Join(parts[1..], sep)
  }

  /**
   * `s.split(sep)`: the pieces between separators, empty pieces kept; the
   * empty string gives one empty piece.  Joining the pieces gives `s` back.
   */
  function Split(s: string, sep: char): (r: seq<string>)
    ensures |r| == Count(s, sep) + 1
    ensures forall i :: 0 <= i < |r| ==> sep !in r[i]
    ensures Join(r, sep) == s
  {
    if |s| == 0 then [""]
    else
      var rest := Split(s[1..], sep);
      if s[0] == sep then
        assert [s[0]] + s[1..] == s;
        [""] + rest
      else
        var r := [[s[0]] + rest[0]] + rest[1..];
        assert r[1..] == rest[1..];
        assert |rest| > 1 ==> Join(rest, sep) == rest[0] + [sep] + Join(rest[1..], sep);
        assert Join(r, sep) == [s[0]] + Join(rest, sep);
        assert [s[0]] + s[1..] == s;
        r
  }

  /** Splitting a join of separator-free parts gives the parts back. */
  lemma {:induction false} SplitJoin(parts: seq<string>, sep: char)
    requires |parts| >= 1
    requires forall i :: 0 <= i < |parts| ==> sep !in parts[i]
    ensures Split(Join(parts, sep), sep) == parts
  {
    if |parts| == 1 {
      SplitNoSep(parts[0], sep);
    } else {
      SplitJoin(parts[1..], sep);
      SplitPrefix(parts[0], Join(parts[1..], sep), sep);
      assert [parts[0]] + parts[1..] == parts;
    }
  }

  /** A string without the separator splits into itself. */
  lemma {:induction false} SplitNoSep(s: string, sep: char)
    requires sep !in s
    ensures Split(s, sep) == [s]
  {
    if |s| > 0 {
      SplitNoSep(s[1..], sep);
      assert [s[0]] + s[1..] == s;
    }
  }

  /** Splitting `a + [sep] + b` where `a` has no separator. */
  lemma {:induction false} SplitPrefix(a: string, b: string, sep: char)
    requires sep !in a
    ensures Split(a + [sep] + b, sep) == [a] + Split(b, sep)
  {
    if |a| == 0 {
      assert a + [sep] + b == [sep] + b;
      assert ([sep] + b)[1..] == b;
    } else {
      SplitPrefix(a[1..], b, sep);
      assert (a + [sep] + b)[1..] == a[1..] + [sep] + b;
      assert [a[0]] + a[1..] == a;
    }
  }

  /** The `/^\d{6}$/` test: exactly six ASCII digits. */
  predicate IsSixDigits(s: string) {
    |s| == 6 && forall k :: 0 <= k < 6 ==> IsDigit(s[k])
  }

  function Pow10(n: nat): (r: nat)
    ensures r >= 1
  {
    if n == 0 then 1 else 10 * Pow10(n - 1)
  }

  /** Decimal value of a digit string (what a `Number` field stores for it). */
  function DigitsValue(s: string): nat
    requires forall k :: 0 <= k < |s| ==> IsDigit(s[k])
  {
    if |s| == 0 then 0 else DigitOf(s[0]) * Pow10(|s| - 1) + DigitsValue(s[1..])
  }

  function DigitOf(c: char): (d: nat)
    requires IsDigit(c)
    ensures d <= 9
  {
    c as int - '0' as int
  }

  /** A digit string of length n has a value below 10^n. */
  lemma {:induction false} DigitsValueBound(s: string)
    requires forall k :: 0 <= k < |s| ==> IsDigit(s[k])
    ensures DigitsValue(s) < Pow10(|s|)
  {
    if |s| > 0 {
      DigitsValueBound(s[1..]);
      var d, p := DigitOf(s[0]), Pow10(|s| - 1);
      MulMonotone(d, 9, p);
      assert Pow10(|s|) == 10 * p;
    }
  }

  lemma MulMonotone(a: nat, b: nat, c: nat)
    requires a <= b
    ensures a * c <= b * c
  {
  }
  /** The digit character for `d`. */
  function DigitChar(d: nat): (c: char)
    requires d <= 9
    ensures IsDigit(c) && DigitOf(c) == d
  {
    ('0' as int + d) as char
  }

  /** Decimal text of a number, as a template literal prints it: no leading zero. */
  function NatToString(n: nat): (s: string)
    ensures |s| >= 1 && forall k :: 0 <= k < |s| ==> IsDigit(s[k])
    ensures |s| > 1 ==> s[0] != '0'
  {
    if n < 10 then [DigitChar(n)] else NatToString(n / 10) + [DigitChar(n % 10)]
  }

  /** Appending a digit multiplies the value by ten and adds the digit. */
  lemma {:induction false} DigitsValueSnoc(s: string, c: char)
    requires forall k :: 0 <= k < |s| ==> IsDigit(s[k])
    requires IsDigit(c)
    ensures DigitsValue(s + [c]) == 10 * DigitsValue(s) + DigitOf(c)
  {
    if |s| > 0 {
      var t := s + [c];
      assert t[0] == s[0] && t[1..] == s[1..] + [c];
      DigitsValueSnoc(s[1..], c);
      var d, p, rest := DigitOf(s[0]), Pow10(|s| - 1), DigitsValue(s[1..]);
      assert DigitsValue(s) == d * p + rest;
      assert DigitsValue(t) == d * (10 * p) + (10 * rest + DigitOf(c)) by {
        assert Pow10(|s|) == 10 * p;
      }
      ShiftDigit(d, p, rest, DigitOf(c));
    } else {
      assert [c][1..] == [];
    }
  }

  lemma ShiftDigit(d: int, p: int, rest: int, e: int)
    ensures d * (10 * p) + (10 * rest + e) == 10 * (d * p + rest) + e
  {
  }

  /** Reading back the printed decimal text gives the number. */
  lemma {:induction false} NatToStringRoundTrip(n: nat)
    ensures DigitsValue(NatToString(n)) == n
  {
    if n < 10 {
      assert NatToString(n)[1..] == [];
    } else {
      NatToStringRoundTrip(n / 10);
      DigitsValueSnoc(NatToString(n / 10), DigitChar(n % 10));
    }
  }
}

=== FILE: usermanagement.dfy ===
/**
 * Admin user management: the paginated customer list, the ban toggle and
 * the user-details lookup.
 */
module UserManagement {
  import opened Wrappers
  import opened Models
  import Paging
  import Seqs

  const DefaultPage := 1
  const DefaultLimit := 10

  /** The `{ role: 'user' }` query: the customers, in stored order. */
  function Customers(users: seq<User>): (r: seq<User>)
    reads users
    ensures |r| <= |users|
    ensures forall k :: 0 <= k < |r| ==> r[k] in users && r[k].role == "user"
    ensures forall k :: 0 <= k < |users| && users[k].role == "user" ==> users[k] in r
    ensures Seqs.Subsequence(r, users)
  {
    if |users| == 0 then []
    else
      var rest := Customers(users[1..]);
      assert users == [users[0]] + users[1..];
      if users[0].role == "user" then
        assert ([users[0]] + rest)[1..] == rest;
        [users[0]] + rest
      else rest
  }

  /**
   * What `loadUserManagement` renders: the "No users found" message, a page
   * of customers with its pagination figures, or a server error (the
   * database refuses the negative skip of a negative page).
   */
  datatype UserListView =
    | NoUsers
    | UserList(users: seq<User>, currentPage: int, totalPages: int, limit: int)
    | ServerError

  /**
   * `loadUserManagement`: page and limit default to 1 and 10; the shown
   * customers are those from index `(page - 1) * limit` on, in order,
   * `limit` of them unless the list ends first, and `totalPages` counts all
   * customers.
   */
  function LoadUserManagement(all: seq<User>, pageQuery: Option<int>, limitQuery: Option<int>): (r: UserListView)
    reads all
    ensures var p := Paging.Paginate(pageQuery, limitQuery, DefaultPage, DefaultLimit, |Customers(all)|);
            && (r.ServerError? <==> p.skip < 0)
            && (r.UserList? ==> r.currentPage == p.page && r.limit == p.limit && r.totalPages == p.totalPages
                                && 0 < |r.users| <= Paging.Abs(p.limit)
                                && (forall k :: 0 <= k < |r.users| ==> r.users[k] in all && r.users[k].role == "user")
                                && p.skip + |r.users| <= |Customers(all)|
                                && (forall k :: 0 <= k < |r.users| ==> r.users[k] == Customers(all)[p.skip + k])
                                && (p.skip + |r.users| < |Customers(all)| ==> |r.users| == Paging.Abs(p.limit)))
            && (r.NoUsers? ==> p.skip >= |Customers(all)|)
  {
    var customers := Customers(all);
    var p := Paging.Paginate(pageQuery, limitQuery, DefaultPage, DefaultLimit, |customers|);
    match Paging.DbPage(customers, p.skip, p.limit)
    case None => ServerError
    case Some(users) =>
      if |users| == 0 then NoUsers
      else
        assert forall k :: 0 <= k < |users| ==> users[k] in customers;
        UserList(users, p.page, p.totalPages, p.limit)
  }

  /**
   * For a positive page and limit, the list is empty exactly when the page
   * is past the last one.
   */
  lemma {:induction false} NoUsersPastLastPage(all: seq<User>, page: int, limit: int)
    requires page >= 1 && limit > 0
    ensures var customers := Customers(all);
            LoadUserManagement(all, Some(page), Some(limit)).NoUsers? <==> page > Paging.CeilDiv(|customers|, limit)
  {
    var customers := Customers(all);
    Paging.DbPageIsPageOf(customers, page, limit);
    Paging.TotalPagesExact(customers, limit, page);
  }

  /** The word the ban reply uses for the new state. */
  function BanWord(isDeleted: bool): (w: string)
    ensures w == "banned" <==> isDeleted
  {
    if isDeleted then "banned" else "unbanned"
  }

  /**
   * `userBan`: 404 and no change for an unknown email; otherwise the ban
   * flag flips, every other field is kept, and the reply reports the new
   * flag and says "banned" exactly when the user is now banned.
   */
  method UserBan(user: User?) returns (status: int, message: string, isDeleted: Option<bool>)
    modifies user
    ensures user == null ==> status == 404 && isDeleted.None?
    ensures user != null ==>
              && status == 200
              && user.isDeleted == !old(user.isDeleted)
              && isDeleted == Some(user.isDeleted)
              && message == "User " + BanWord(user.isDeleted) + " successfully"
              && user.name == old(user.name) && user.address == old(user.address)
              && user.role == old(user.role) && user.isValid == old(user.isValid)
  {
    if user == null {
      return 404, "User not found", None;
    }
    user.isDeleted := !user.isDeleted;
    status, message, isDeleted := 200, "User " + BanWord(user.isDeleted) + " successfully", Some(user.isDeleted);
  }

  /** Banning twice restores the original state. */
  method BanTwice(user: User)
    modifies user
    ensures user.isDeleted == old(user.isDeleted)
    ensures user.name == old(user.name) && user.address == old(user.address)
    ensures user.role == old(user.role) && user.isValid == old(user.isValid)
  {
    var s1, m1, d1 := UserBan(user);
    var s2, m2, d2 := UserBan(user);
  }

  /** The details `viewUserDetails` returns (the join date is left out). */
  datatype UserDetails = UserNotFound | Details(name: Option<string>, email: string, role: string, isDeleted: bool)

  /** `viewUserDetails`: 404 for an unknown email, otherwise the user's own fields. */
  function ViewUserDetails(user: User?): (r: UserDetails)
    reads user
    ensures r.UserNotFound? <==> user == null
    ensures user != null ==> r.name == user.name && r.email == user.email
                             && r.role == user.role && r.isDeleted == user.isDeleted
  {
    if user == null then UserNotFound else Details(user.name, user.email, user.role, user.isDeleted)
  }
}

=== FILE: wallet.dfy ===
/**
 * The customer's wallet page: the stored balance and one page of the
 * wallet's transactions, newest first.
 */
module Wallets {
  import opened Wrappers
  import opened Models
  import Paging
  import Sorting

  datatype Transaction = Transaction(createdAt: Time, amount: real, kind: string, description: string)

  /** A wallet document: its balance and its transaction list. */
  datatype Wallet = Wallet(balance: real, transactions: seq<Transaction>)

  /**
   * The JSON reply.  `totalPages` is `None` where JavaScript would produce
   * `Infinity` or `NaN` (a limit of 0).
   */
  datatype WalletReply = WalletReply(status: int, balance: real, transactions: seq<Transaction>,
                                     totalPages: Option<int>, currentPage: int)

  /** Defaults apply only when the query parameter is absent (no `||` fallback). */
  const DefaultPage := 1
  const DefaultLimit := 5

  function CreatedAt(t: Transaction): int {
    t.createdAt
  }

  /** Transactions ordered by `createdAt`, latest first. */
  function Newest(ts: seq<Transaction>): (r: seq<Transaction>)
    ensures Sorting.SortedDesc(r, CreatedAt)
    ensures multiset(r) == multiset(ts)
    ensures |r| == |ts|
  {
    Sorting.SortDesc(ts, CreatedAt)
  }

  /**
   * `wallet`: no wallet gives 404 with zero balance, no transactions and
   * zero page figures.  Otherwise the stored balance is returned unchanged,
   * with page `page` of the newest-first list: at most `limit` entries, in
   * order, each one of the wallet's own transactions.
   */
  function WalletPage(wallet: Option<Wallet>, pageQuery: Option<int>, limitQuery: Option<int>): (r: WalletReply)
    ensures wallet.None? ==> r == WalletReply(404, 0.0, [], Some(0), 0)
    ensures wallet.Some? ==> r.status == 200 && r.balance == wallet.value.balance
                             && r.currentPage == pageQuery.GetOr(DefaultPage)
    ensures Sorting.SortedDesc(r.transactions, CreatedAt)
    ensures wallet.Some? ==> multiset(r.transactions) <= multiset(wallet.value.transactions)
    ensures pageQuery.GetOr(DefaultPage) >= 1 && limitQuery.GetOr(DefaultLimit) >= 0
            ==> |r.transactions| <= limitQuery.GetOr(DefaultLimit)
    ensures r.totalPages.None? <==> wallet.Some? && limitQuery.GetOr(DefaultLimit) == 0
    ensures wallet.Some? && limitQuery.GetOr(DefaultLimit) > 0 ==>
              var limit, n := limitQuery.GetOr(DefaultLimit), |wallet.value.transactions|;
              r.totalPages.Some? && (r.totalPages.value - 1) * limit < n <= r.totalPages.value * limit
  {
    match wallet
    case None => WalletReply(404, 0.0, [], Some(0), 0)
    case Some(w) =>
      var page, limit := pageQuery.GetOr(DefaultPage), limitQuery.GetOr(DefaultLimit);
      var sorted := Newest(w.transactions);
      var shown := Paging.PageOf(sorted, page, limit);
      Paging.PageRun(sorted, page, limit);
      RunKeepsOrder(sorted, Paging.PageStart(|sorted|, page, limit), Paging.PageEnd(|sorted|, page, limit));
      var n := |w.transactions|;
      var total := if limit == 0 then None else Some(Paging.CeilDiv(n, limit));
      assert limit > 0 ==> (total.value - 1) * limit < n <= total.value * limit;
      WalletReply(200, w.balance, shown, total, page)
  }

  /** A contiguous run of a newest-first list keeps its order and its elements. */
  lemma RunKeepsOrder(s: seq<Transaction>, a: nat, b: nat)
    requires Sorting.SortedDesc(s, CreatedAt) && a <= b <= |s|
    ensures Sorting.SortedDesc(s[a..b], CreatedAt)
    ensures multiset(s[a..b]) <= multiset(s)
  {
    Sorting.RunSorted(s, a, b, CreatedAt);
    Sorting.RunSubMultiset(s, a, b);
  }

  /**
   * For a positive limit, every transaction of the wallet is shown on the
   * page its position in the newest-first list determines, and that page is
   * within `totalPages`.
   */
  lemma {:induction false} EveryTransactionOnAPage(w: Wallet, limit: int, i: int)
    requires limit > 0 && 0 <= i < |w.transactions|
    ensures var r := WalletPage(Some(w), Some(i / limit + 1), Some(limit));
            && r.totalPages.Some? && 1 <= i / limit + 1 <= r.totalPages.value
            && i % limit < |r.transactions| && r.transactions[i % limit] == Newest(w.transactions)[i]
  {
    Paging.ItemOnPage(Newest(w.transactions), limit, i);
  }

  /**
   * The first entry of page 1 is the latest transaction of the wallet:
   * none of the wallet's transactions is newer.
   */
  lemma {:induction false} FirstPageStartsWithLatest(w: Wallet, limit: int, t: Transaction)
    requires limit > 0 && t in w.transactions
    ensures var r := WalletPage(Some(w), None, Some(limit));
            |r.transactions| > 0 && r.transactions[0].createdAt >= t.createdAt
  {
    var sorted := Newest(w.transactions);
    assert t in multiset(sorted);
    var j :| 0 <= j < |sorted| && sorted[j] == t;
    DefaultPageHead(w, limit);
    assert CreatedAt(sorted[0]) >= CreatedAt(sorted[j]) by {
      if j > 0 {
        assert Sorting.SortedDesc(sorted, CreatedAt);
      }
    }
  }

  /** Without a page query the page shown is page 1, which opens with the newest transaction. */
  lemma {:induction false} DefaultPageHead(w: Wallet, limit: int)
    requires limit > 0 && |w.transactions| > 0
    ensures var r := WalletPage(Some(w), None, Some(limit));
            |r.transactions| > 0 && r.transactions[0] == Newest(w.transactions)[0]
  {
    EveryTransactionOnAPage(w, limit, 0);
    assert WalletPage(Some(w), None, Some(limit)) == WalletPage(Some(w), Some(1), Some(limit));
  }
}

=== FILE: wishlist.dfy ===
/**
 * The wishlist (controllers/user/wishlistController.js): adding without
 * duplicates, moving an entry to the cart, removal, and paging.
 */
module Wishlists {
  import opened Wrappers
  import opened Models
  import Paging
  import Seqs
  import Carts

  /** A user's wishlist: the product ids of its entries, in insertion order. */
  class Wishlist {
    const userId: UserId
    var products: seq<ProductId>

    constructor (userId: UserId)
      ensures this.userId == userId && products == []
    {
      this.userId := userId;
      products := [];
    }
  }

  /** No product appears twice. */
  predicate NoDuplicates(ps: seq<ProductId>) {
    forall i, j :: 0 <= i < j < |ps| ==> ps[i] != ps[j]
  }

  /** `$pull` / `filter`: the entries other than `pid`, in order. */
  function Without(ps: seq<ProductId>, pid: ProductId): (r: seq<ProductId>)
    ensures forall x :: x in r <==> x in ps && x != pid
    ensures pid !in ps ==> r == ps
    ensures pid in ps ==> |r| < |ps|
    ensures |r| <= |ps|
    ensures Seqs.Subsequence(r, ps)
    ensures forall x :: multiset(r)[x] == if x != pid then multiset(ps)[x] else 0
  {
    if |ps| == 0 then []
    else
      assert ps == [ps[0]] + ps[1..];
      assert multiset(ps) == multiset{ps[0]} + multiset(ps[1..]);
      var rest := Without(ps[1..], pid);
      if ps[0] == pid then rest
      else
        assert ([ps[0]] + rest)[1..] == rest;
        [ps[0]] + rest
  }

  /** Removing entries keeps a duplicate-free list duplicate-free. */
  lemma {:induction false} WithoutKeepsNoDuplicates(ps: seq<ProductId>, pid: ProductId)
    requires NoDuplicates(ps)
    ensures NoDuplicates(Without(ps, pid))
  {
    if |ps| > 0 {
      assert NoDuplicates(ps[1..]) by {
        forall i, j | 0 <= i < j < |ps[1..]| ensures ps[1..][i] != ps[1..][j] {
          assert ps[1..][i] == ps[i + 1] && ps[1..][j] == ps[j + 1];
        }
      }
      WithoutKeepsNoDuplicates(ps[1..], pid);
      assert forall j :: 0 <= j < |ps[1..]| ==> ps[1..][j] == ps[j + 1];
      assert ps[0] !in ps[1..];
    }
  }

  /** The add step: refused (None) when the product is already listed, otherwise appended at the end. */
  function AddEntry(ps: seq<ProductId>, pid: ProductId): (r: Option<seq<ProductId>>)
    ensures r.None? <==> pid in ps
    ensures r.Some? ==> |r.value| == |ps| + 1 && r.value[..|ps|] == ps && r.value[|ps|] == pid
  {
    if pid in ps then None else Some(ps + [pid])
  }

  /** Adding keeps the wishlist free of duplicates. */
  lemma AddEntryKeepsNoDuplicates(ps: seq<ProductId>, pid: ProductId)
    requires NoDuplicates(ps) && AddEntry(ps, pid).Some?
    ensures NoDuplicates(AddEntry(ps, pid).value)
  {
  }

  /**
   * `addWishlist`: a product already listed is refused and nothing is saved;
   * otherwise it is appended to the wishlist, which is created when absent.
   */
  method AddWishlist(userId: UserId, productId: ProductId, wishlist: Wishlist?) returns (success: bool, stored: Wishlist?)
    requires wishlist != null ==> wishlist.userId == userId
    modifies wishlist
    ensures var before := if wishlist == null then [] else old(wishlist.products);
            && (success <==> productId !in before)
            && (!success ==> stored == wishlist && (wishlist != null ==> wishlist.products == old(wishlist.products)))
            && (success ==> stored != null && stored.userId == userId && Some(stored.products) == AddEntry(before, productId)
                            && (wishlist == null ==> fresh(stored)) && (wishlist != null ==> stored == wishlist))
  {
    stored := wishlist;
    var products := if wishlist == null then [] else wishlist.products;
    if productId in products {
      return false, stored;
    }
    if stored == null {
      stored := new Wishlist(userId);
    }
    stored.products := products + [productId];
    success := true;
  }

  /** Whether some cart line holds `pid`, in any size. */
  predicate InCart(items: seq<Carts.CartItem>, pid: ProductId) {
    exists k :: 0 <= k < |items| && items[k].productId == pid
  }

  /**
   * `wishCart`: the product is pulled from the wishlist either way.  When
   * the cart already holds it (any size) the cart is unchanged and success
   * is false; otherwise a line of quantity 1 with no size is appended to the
   * cart, which is created when absent.
   */
  method WishCart(userId: UserId, productId: ProductId, cart: Carts.Cart?, wishlist: Wishlist?, freshItemId: Carts.ItemId)
    returns (success: bool, storedCart: Carts.Cart?)
    requires cart != null ==> cart.userId == userId
    modifies cart, wishlist
    ensures wishlist != null ==> wishlist.products == Without(old(wishlist.products), productId)
    ensures var before := if cart == null then [] else old(cart.items);
            && (success <==> !InCart(before, productId))
            && (!success ==> storedCart == cart && (cart != null ==> cart.items == old(cart.items)))
            && (success ==> storedCart != null && storedCart.userId == userId
                            && storedCart.items == before + [Carts.CartItem(freshItemId, productId, None, 1)]
                            && (cart == null ==> fresh(storedCart)) && (cart != null ==> storedCart == cart))
  {
    storedCart := cart;
    var items := if cart == null then [] else cart.items;
    if InCart(items, productId) {
      if wishlist != null {
        wishlist.products := Without(wishlist.products, productId);
      }
      return false, storedCart;
    }
    if storedCart == null {
      storedCart := new Carts.Cart(userId);
    }
    storedCart.items := items + [Carts.CartItem(freshItemId, productId, None, 1)];
    if wishlist != null {
      wishlist.products := Without(wishlist.products, productId);
    }
    success := true;
  }

  /**
   * `deleteWish`: 401 without a session user, 404 without a wishlist; every
   * entry of the product is removed, and when none was there the reply is
   * 400 and nothing is saved.
   */
  method DeleteWish(userId: Option<UserId>, productId: ProductId, wishlist: Wishlist?) returns (status: int)
    modifies wishlist
    ensures userId.None? ==> status == 401
    ensures userId.Some? && wishlist == null ==> status == 404
    ensures userId.Some? && wishlist != null ==>
              && (status == 400 <==> productId !in old(wishlist.products))
              && (status == 400 || status == 200)
              && wishlist.products == Without(old(wishlist.products), productId)
    ensures status != 200 && wishlist != null ==> wishlist.products == old(wishlist.products)
  {
    if userId.None? {
      return 401;
    }
    if wishlist == null {
      return 404;
    }
    var initialLength := |wishlist.products|;
    var filtered := Without(wishlist.products, productId);
    if |filtered| == initialLength {
      return 400;
    }
    wishlist.products := filtered;
    status := 200;
  }

  /** What the wishlist page shows. */
  datatype WishlistView = WishlistView(products: Option<seq<ProductId>>, currentPage: int, totalPages: int)

  const WishlistPageSize := 2

  /**
   * `loadWishlist`: with no wishlist, no products and one page; otherwise
   * the two entries starting at (page − 1)·2 and ceil(n/2) pages.
   */
  function LoadWishlist(products: Option<seq<ProductId>>, pageQuery: Option<int>): (v: WishlistView)
    ensures v.currentPage == Paging.ParamOr(pageQuery, 1)
    ensures products.None? ==> v.products.None? && v.totalPages == 1
    ensures products.Some? ==>
              && v.products.Some? && v.totalPages == Paging.CeilDiv(|products.value|, WishlistPageSize)
              && (v.currentPage >= 1 ==>
                    && |v.products.value| <= WishlistPageSize
                    && forall k :: 0 <= k < |v.products.value| ==>
                         && (v.currentPage - 1) * WishlistPageSize + k < |products.value|
                         && v.products.value[k] == products.value[(v.currentPage - 1) * WishlistPageSize + k])
  {
    var page := Paging.ParamOr(pageQuery, 1);
    if products.None? then WishlistView(None, page, 1)
    else
      var offset := (page - 1) * WishlistPageSize;
      WishlistView(Some(Paging.JsSlice(products.value, offset, offset + WishlistPageSize)), page,
                   Paging.CeilDiv(|products.value|, WishlistPageSize))
  }
}

=== FILE: wrappers.dfy ===
/** Optional values: a document field or a query parameter that may be absent. */
module Wrappers {

  datatype Option<+T> = None | Some(value: T) {

    /** The value, or `default` when absent (JavaScript's `x ?? default`). */
    function GetOr(default: T): T {
      match this
      case Some(v) => v
      case None => default
    }
  }
}
